=== FILE: README.md ===
# miniapp: list lowering and the render-side element core, in Dafny

This project models two parts of the miniapp toolchain.

**List lowering** is the JSX compiler pass `_transformList`. The target template
dialect cannot evaluate expressions, so the pass rewrites each
`source.map((item, index) => subtree)` in a render tree into two things:

- a `<block a:for a:for-item a:for-index a:key>` wrapper around the subtree;
- a mapping call that returns, per element, a flat record `{ item, _key, _d0, _d1, …, _s0, … }`.

Every dynamic leaf of the subtree is replaced by a read `item.f` of a record
field. The pass's own source is not part of this model. Its behaviour is
modelled from the compiler's list test file, which pins the exact output for
fourteen templates:

- `ListAst` holds the tree, free variables and index renaming.
- `ListLower` holds the pass.
- `ListProps` holds the general properties.
- `ListScenarios` restates each test as the exact tree the pass produces.

**The render-side element core** (`miniapp-render`) has four parts:

- `Tool`: the `utils/tool.js` helpers, `toDash`, `toCamel`, `getId`, `hasExtraAttribute` and `isUndef`.
- `Attributes`: the attribute store of `node/attribute.js`, with its dataset mirror, `style.cssText`, the extra-attribute flag and the update payloads.
- `Textarea`: the textarea element, with focus aliasing, the `__changed` flag and the property accessors.
- `EventTarget` and `EventProcess`: `event/event-target.js`. These cover duplicate-event detection, the handler map, and the capture / target / bubble visit order of `_process`.

Two small modules support the rest. `Base` has characters, decimal rendering
and substrings. `Js` has the JavaScript values, truthiness, `||` and string
conversion.

## Model

| member | source | states |
|---|---|---|
| Tool.ToDash | packages/miniapp-render/src/utils/tool.js:4-6 | the result has no upper-case letter; it is one character longer per capital; a string without capitals is unchanged |
| Tool.ToDashIdempotent | packages/miniapp-render/src/utils/tool.js:4-6 | dash-casing twice is dash-casing once |
| Tool.ToCamel | packages/miniapp-render/src/utils/tool.js:11-13 | each `-letter` match shortens the string by one; a string without a dash is unchanged |
| Tool.ToCamelKeepsLoneDash | packages/miniapp-render/src/utils/tool.js:11-13 | a dash not followed by a letter survives, and the scan resumes after it |
| Tool.ToCamelToDash | packages/miniapp-render/src/utils/tool.js:4-13 | camel-casing undoes dash-casing on every string without its own dash |
| Tool.ToDashToCamel | packages/miniapp-render/src/utils/tool.js:4-13 | dash-casing undoes camel-casing on every kebab-case string |
| Tool.GetId | packages/miniapp-render/src/utils/tool.js:18-21 | returns the current seed and advances the seed by one |
| Tool.TakeIds | packages/miniapp-render/src/utils/tool.js:18-21 | k consecutive calls return seed, seed+1, …, seed+k-1 and leave the seed at seed+k |
| Tool.IdsStrictlyIncrease | packages/miniapp-render/src/utils/tool.js:18-21 | ids from consecutive calls strictly increase, so they are unique |
| Tool.FindExtra | packages/miniapp-render/src/utils/tool.js:29-31 | finds the first key that does not contain `class`, `style` or `id`, or none exists, both directions |
| Tool.HasExtraAttributeAsWritten | packages/miniapp-render/src/utils/tool.js:28-33 | as written: true exactly when a non-reserved key is found and it is not the empty string |
| Tool.HasExtraAttribute | packages/miniapp-render/src/utils/tool.js:28-33 | intended: true exactly when some key contains none of `class`, `style`, `id` |
| Tool.HasExtraAttributeAgrees | packages/miniapp-render/src/utils/tool.js:28-33 | the written and intended checks agree whenever there is no empty-string key |
| Tool.EmptyKeyHidesExtraAttribute | packages/miniapp-render/src/utils/tool.js:29-32 | keys `""`, `foo`: the written check says no extra key, the intended check says yes |
| Tool.WidthIsNotExtra | packages/miniapp-render/src/utils/tool.js:30 | the match is unanchored: `width` counts as reserved and `src` does not |
| Tool.IsUndef | packages/miniapp-render/src/utils/tool.js:40-42 | true exactly for undefined, which is falsy |
| Tool.FalsyIsNotUndefined | packages/miniapp-render/src/utils/tool.js:40-42 | null, `""`, 0 and false are not undefined |
| Attributes.Init | packages/miniapp-render/src/node/attribute.js:4-7 | a new store has no values, no dataset entries, no payloads and no extra flag |
| Attributes.Set | packages/miniapp-render/src/node/attribute.js:9-29 | stores the value and leaves other names alone; `style` writes cssText with no payload; other names log one payload with the path and the immediate flag; `data-` names update the camel-cased dataset key; every name but id, class and style sets the extra flag |
| Attributes.Get | packages/miniapp-render/src/node/attribute.js:31-40 | `style` reads cssText when it is truthy and null otherwise; a `data-` name reads its camel-cased dataset entry, or undefined when there is none; any other name reads its stored value when truthy and null otherwise, never undefined |
| Attributes.StyleProperty | packages/miniapp-render/src/node/attribute.js:42-44 | the style getter is cssText when it is truthy and undefined otherwise |
| Attributes.StoredOrUndefined | packages/miniapp-render/src/node/attribute.js:46-56 | the class, id and src getters return the stored value when it is truthy and undefined otherwise |
| Attributes.ClassProperty | packages/miniapp-render/src/node/attribute.js:46-48 | the class getter is the stored class when truthy, and undefined when it is missing or falsy |
| Attributes.IdProperty | packages/miniapp-render/src/node/attribute.js:50-52 | the id getter is the stored id when truthy, and undefined when it is missing or falsy |
| Attributes.SrcProperty | packages/miniapp-render/src/node/attribute.js:54-56 | the src getter is the stored src when truthy, and undefined when it is missing or falsy |
| Attributes.Remove | packages/miniapp-render/src/node/attribute.js:62-82 | drops the name; `style` clears cssText and `id` clears the element id, with no payload; other names log an empty-string payload with no immediate flag; `data-` names drop their dataset key; nothing else changes: cssText unless the name is `style`, the element id unless it is `id`, the dataset unless it is a `data-` name, and the extra flag |
| Attributes.SetThenGet | packages/miniapp-render/src/node/attribute.js:9-60 | after a set the name is present and reads back as the value, through cssText, the dataset or the value map |
| Attributes.SetFrame | packages/miniapp-render/src/node/attribute.js:9-60 | setting one name does not change the reading or presence of another plain name |
| Attributes.DatasetAlias | packages/miniapp-render/src/node/attribute.js:16-37 | `data-a-b` and `data-aB` share one dataset entry |
| Attributes.ExtraFlagIsSticky | packages/miniapp-render/src/node/attribute.js:20-22 | once set, the extra-attribute flag stays set through set and remove |
| Attributes.RemoveThenGet | packages/miniapp-render/src/node/attribute.js:31-82 | after a remove the name is absent and reads null, or undefined for a `data-` name |
| Attributes.SetThenRemove | packages/miniapp-render/src/node/attribute.js:9-82 | set then remove of a new plain name restores the value map and logs two payloads: the value, then `""` |
| Attributes.HasTracksSetAndRemove | packages/miniapp-render/src/node/attribute.js:9-64 | `has` is true after a set of that name, false after its remove, and unchanged for every other name |
| Textarea.Init | packages/miniapp-render/src/node/element/textarea.js:5-8 | a new textarea is unchanged and has no attributes |
| Textarea.Alias | packages/miniapp-render/src/node/element/textarea.js:27-30 | focus, autofocus and autoFocus map to `focus-state`; every other name is kept |
| Textarea.SetAttribute | packages/miniapp-render/src/node/element/textarea.js:26-35 | sets the aliased name in the store with the immediate flag; the changed flag becomes set exactly when the name is `value` or it was set already |
| Textarea.SetAttributeWithDelayUpdate | packages/miniapp-render/src/node/element/textarea.js:38-47 | the same, but the update is not immediate |
| Textarea.GetAttribute | packages/miniapp-render/src/node/element/textarea.js:49-55 | the focus spellings read the `focus-state` entry; every other name reads through the store as it is |
| Textarea.Name | packages/miniapp-render/src/node/element/textarea.js:69-71 | the name getter is the stored name when truthy, and null when it is missing or falsy |
| Textarea.FocusAliases | packages/miniapp-render/src/node/element/textarea.js:26-55 | every focus spelling sets, delays and gets the same `focus-state` entry |
| Textarea.Type | packages/miniapp-render/src/node/element/textarea.js:79-81 | the type getter is the stored type when that is truthy, and `textarea` otherwise, so it is never falsy |
| Textarea.Value | packages/miniapp-render/src/node/element/textarea.js:88-94 | a truthy stored value is returned; otherwise defaultValue while unchanged and truthy; otherwise `""`, never another falsy value |
| Textarea.SetValue | packages/miniapp-render/src/node/element/textarea.js:96-100 | writing the value property marks the textarea changed and stores the string form `'' + value` under `value` through the store's immediate set |
| Textarea.SetName | packages/miniapp-render/src/node/element/textarea.js:73-76 | stores the string form of the value under `name` |
| Textarea.SetType | packages/miniapp-render/src/node/element/textarea.js:83-86 | stores the string form of the value under `type` |
| Textarea.SetReadOnly | packages/miniapp-render/src/node/element/textarea.js:106-108 | stores the truthiness of the value as a boolean |
| Textarea.ReadOnly | packages/miniapp-render/src/node/element/textarea.js:102-104 | the readOnly getter is true exactly when a truthy value is stored |
| Textarea.SetDisabled | packages/miniapp-render/src/node/element/textarea.js:114-117 | stores the truthiness of the value as a boolean |
| Textarea.Disabled | packages/miniapp-render/src/node/element/textarea.js:110-112 | the disabled getter is true exactly when a truthy value is stored |
| Textarea.SetMaxLength | packages/miniapp-render/src/node/element/textarea.js:123-125 | stores the value itself under `maxlength` |
| Textarea.MaxLength | packages/miniapp-render/src/node/element/textarea.js:119-121 | the maxlength getter is the stored value when truthy, and null when it is missing or falsy |
| Textarea.Placeholder | packages/miniapp-render/src/node/element/textarea.js:127-129 | the placeholder getter is the stored placeholder when that is truthy, and `""` otherwise |
| Textarea.SetPlaceholder | packages/miniapp-render/src/node/element/textarea.js:131-134 | stores the string form of the value under `placeholder` |
| Textarea.Focus | packages/miniapp-render/src/node/element/textarea.js:158-160 | focus does not touch the changed flag |
| Textarea.Blur | packages/miniapp-render/src/node/element/textarea.js:154-156 | blur does not touch the changed flag |
| Textarea.FocusAndBlurAreObserved | packages/miniapp-render/src/node/element/textarea.js:154-160 | after focus, every spelling reads true; after blur, `focus-state` holds false and reads null |
| Textarea.DefaultValueIgnoredOnceChanged | packages/miniapp-render/src/node/element/textarea.js:31-94 | once changed, setting defaultValue by either path does not alter the value getter |
| Textarea.ValueWritesMarkChanged | packages/miniapp-render/src/node/element/textarea.js:31-100 | each of the three value writes sets the changed flag, and no write clears it |
| Textarea.ValueRoundTrip | packages/miniapp-render/src/node/element/textarea.js:88-100 | the value getter returns the string form of what was assigned |
| Textarea.DefaultValueShownUntilChanged | packages/miniapp-render/src/node/element/textarea.js:88-94 | on a fresh textarea, a non-empty defaultValue is what the value getter returns |
| Textarea.Defaults | packages/miniapp-render/src/node/element/textarea.js:79-129 | a fresh textarea reads type `textarea`, placeholder `""`, value `""`, not read-only, not disabled |
| Textarea.TypeAndPlaceholderRoundTrip | packages/miniapp-render/src/node/element/textarea.js:79-134 | type and placeholder read back the string form, falling back to their defaults on `""` |
| Textarea.NameAndMaxLengthRoundTrip | packages/miniapp-render/src/node/element/textarea.js:69-76 | name reads back the string form, or null for `""`; maxlength reads back the value, or null when falsy |
| Textarea.BooleanRoundTrip | packages/miniapp-render/src/node/element/textarea.js:102-117 | readOnly and disabled read back the truthiness of what was assigned |
| EventTarget.CompareTouchListAsWritten | packages/miniapp-render/src/event/event-target.js:10-22 | as written: true exactly when the lengths are equal, because the loop never runs |
| EventTarget.CompareTouchList | packages/miniapp-render/src/event/event-target.js:10-22 | intended: true exactly when the lengths are equal and every pair of touches agrees on identifier and coordinates |
| EventTarget.ScanTouches | packages/miniapp-render/src/event/event-target.js:13-19 | the loop from position k is true exactly when every later pair agrees |
| EventTarget.CompareTouchListReflexive | packages/miniapp-render/src/event/event-target.js:10-22 | a list equals itself, and the intended check implies the written one |
| EventTarget.TouchListCounterexample | packages/miniapp-render/src/event/event-target.js:13 | two one-touch lists with different coordinates: the written check calls them equal, the intended one does not |
| EventTarget.CompareDetail | packages/miniapp-render/src/event/event-target.js:29-34 | true exactly when the details are equal |
| EventTarget.SameTouchList | packages/miniapp-render/src/event/event-target.js:43-44 | the touch check the comparisons call: as written it compares only the lengths, intended it also compares every pair of touches |
| EventTarget.CompareEventProperty | packages/miniapp-render/src/event/event-target.js:42-53 | reports a difference exactly when only one event has the property, or both have it and the check finds them different; with the touch check as written, two touch lists of the same length never differ |
| EventTarget.CompareEventWithUncertainty | packages/miniapp-render/src/event/event-target.js:55-63 | no previous event, or a gap over 10, counts as new; otherwise new exactly when detail, touches or changedTouches differ under the chosen touch check |
| EventTarget.CompareEventWithAccurateness | packages/miniapp-render/src/event/event-target.js:65-71 | no previous event, or a different timestamp, counts as new; otherwise new exactly when touches or changedTouches differ under the chosen touch check |
| EventTarget.NewTarget | packages/miniapp-render/src/event/event-target.js:86-90 | a new target has no handlers, no last event and no binding flags |
| EventTarget.CheckEvent | packages/miniapp-render/src/event/event-target.js:263-277 | the flag is the uncertainty comparison on the mini-app platform and the accurateness comparison elsewhere; the last event is replaced exactly when it is true, and the first event always passes |
| EventTarget.CheckEventDeduplicates | packages/miniapp-render/src/event/event-target.js:263-277 | the same native event delivered twice in a row passes only once, under the touch check as written and as intended |
| EventTarget.CheckEventCounterexample | packages/miniapp-render/src/event/event-target.js:263-277 | two events with one timestamp and different single touches: as written the second is suppressed and the first kept, intended the second passes and is kept |
| EventTarget.GetHandles | packages/miniapp-render/src/event/event-target.js:213-219 | without init: null exactly for an unknown name, otherwise the capture or bubble list |
| EventTarget.AppendHandler | packages/miniapp-render/src/event/event-target.js:202-212 | with init: creates an empty entry when the name is missing, appends the handler to the chosen list, keeps the other list, and leaves every other entry alone |
| EventTarget.AddEventListener | packages/miniapp-render/src/event/event-target.js:279-299 | ignores a non-string name or a non-function handler; otherwise appends the handler to the chosen list of the lower-cased name; leaves the other list and other names alone; sets the binding flags for `appear` and `touch` |
| EventTarget.AddEventListenerFlagsMonotone | packages/miniapp-render/src/event/event-target.js:290-298 | binding flags are never cleared |
| EventTarget.IndexOf | packages/miniapp-render/src/event/event-target.js:307 | the first position of the handler, or -1 exactly when it is absent |
| EventTarget.SpliceOne | packages/miniapp-render/src/event/event-target.js:307 | `splice(start, 1)` drops one element, counting a negative start from the end |
| EventTarget.RemoveFromList | packages/miniapp-render/src/event/event-target.js:307 | drops the first occurrence of a present handler; with an absent handler, drops the last element |
| EventTarget.RemoveEventListenerAsWritten | packages/miniapp-render/src/event/event-target.js:301-308 | as written: the third argument picks the capture list by its truthiness; an unknown name or an empty list is left alone, otherwise the list loses one element as above; the other list, every other name, the binding flags and the last event are kept |
| EventTarget.RemoveEventListener | packages/miniapp-render/src/event/event-target.js:301-308 | intended: the list is picked the same way; an absent handler leaves the target unchanged, and a present one is removed at its first occurrence, with the same frame |
| EventTarget.AddThenRemove | packages/miniapp-render/src/event/event-target.js:279-308 | adding a new handler and then removing it restores the list of a known name; on a name seen for the first time the entry stays, with that list empty, as `addEventListener` creates both lists |
| EventTarget.RemoveAbsentHandlerCounterexample | packages/miniapp-render/src/event/event-target.js:307 | removing an unregistered handler empties a one-handler list as written, and keeps it intended |
| EventProcess.PathOf | packages/miniapp-render/src/event/event-target.js:114-120 | the path starts at the target and then lists ancestors while each has an ownerDocument, stopping at the first that has none |
| EventProcess.BuildPath | packages/miniapp-render/src/event/event-target.js:114-120 | the loop builds exactly that path |
| EventProcess.CaptureLoop | packages/miniapp-render/src/event/event-target.js:140-155 | visits the non-target nodes outermost first in the capture phase, cut short at the stop point |
| EventProcess.BubbleLoop | packages/miniapp-render/src/event/event-target.js:177-192 | visits the non-target nodes innermost first in the bubble phase, cut short at the stop point |
| EventProcess.Process | packages/miniapp-render/src/event/event-target.js:103-198 | visits in the independently stated order (capture, the target twice, then bubble when the event bubbles), then resets the current target and phase |
| EventProcess.RevWithoutIsReverse | packages/miniapp-render/src/event/event-target.js:140-181 | the capture order is the bubble order reversed |
| EventProcess.FullPropagation | packages/miniapp-render/src/event/event-target.js:139-192 | with no stop, every ancestor is visited in each direction and the target twice: 2n+2 visits |
| EventProcess.StoppedIsPrefix | packages/miniapp-render/src/event/event-target.js:143-180 | stopping propagation yields a prefix of the full order |
| EventProcess.StopAtTargetStillRunsTargetBubble | packages/miniapp-render/src/event/event-target.js:157-175 | a stop during the target's capture listeners still runs its bubble listeners, and nothing after them |
| EventProcess.PathAncestorsAreVisited | packages/miniapp-render/src/event/event-target.js:114-145 | when no ancestor is the target, the visited ancestors are exactly the path after the target |
| ListAst.RenameStmts | packages/jsx-compiler/src/modules/__tests__/list.js:433-443 | renaming keeps the number of statements and the names they declare |
| ListAst.RenameNode | packages/jsx-compiler/src/modules/__tests__/list.js:366-413 | renaming keeps a tree's size, its number of sites and its source form; its partner `ListProps.RenameNodeRemovesName` states that the old name is gone |
| ListProps.RenameNodeRemovesName | packages/jsx-compiler/src/modules/__tests__/list.js:366-413 | after renaming a name to a different one throughout a tree, the old name is free only inside callbacks that declare their own copy of it |
| ListAst.RenameCallback | packages/jsx-compiler/src/modules/__tests__/list.js:341-364 | renaming keeps the parameters, the declared locals and the body's size and sites; its partner `ListProps.RenameCallbackRemovesIndex` states that the index is gone |
| ListProps.RenameCallbackRemovesIndex | packages/jsx-compiler/src/modules/__tests__/list.js:341-364 | renaming a callback's index removes it from the statements and from the result, nested callbacks included unless they shadow it |
| ListLower.Push | packages/jsx-compiler/src/modules/__tests__/list.js:454-476 | appends one field and keeps the `_d` / `_s` numbering invariant |
| ListLower.AddGeneric | packages/jsx-compiler/src/modules/__tests__/list.js:454-476 | appends the next `_dN` field and keeps the numbering invariant |
| ListLower.RewriteAttr | packages/jsx-compiler/src/modules/__tests__/list.js:49-71 | rewriting one attribute keeps its name and the counter, only appends fields, and keeps the numbering invariant |
| ListLower.RewriteNode | packages/jsx-compiler/src/modules/__tests__/list.js:86-143 | rewriting a subtree advances the site counter by its number of sites, only appends fields, and keeps the numbering invariant |
| ListLower.Canonical | packages/jsx-compiler/src/modules/__tests__/list.js:9-47 | the canonical callback keeps its body's size, sites and source form; its partner `ListProps.CanonicalRemovesSourceIndex` states that the source index name is gone |
| ListProps.CanonicalRemovesSourceIndex | packages/jsx-compiler/src/modules/__tests__/list.js:9-47 | the canonical callback keeps its parameters and no longer mentions the source index name in its statements or its result |
| ListLower.LowerSite | packages/jsx-compiler/src/modules/__tests__/list.js:9-47 | the record starts with the item field and `_key: _key<n>`; later fields are numbered `_d0…` and `_s0…` in order; the index is `index<n>` and the statements are renamed to it; sites n+1… go to nested loops |
| ListLower.Transform | packages/jsx-compiler/src/modules/__tests__/list.js:112-115 | lowering uses exactly as many numbers as the template has sites and leaves no site behind; its partners `ListProps.TransformNumbersSites`, `ListProps.TransformIndicesDistinct`, `ListProps.TransformKeepsElement` and `ListProps.TransformIdempotent` state the numbering, uniqueness, framing and idempotence |
| ListLower.TransformChildren | packages/jsx-compiler/src/modules/__tests__/list.js:112-115 | lowering siblings keeps their count, uses their total number of sites and leaves no site behind; its partner `ListProps.TransformChildrenNumbered` states the numbering |
| ListProps.TransformNumbersSites | packages/jsx-compiler/src/modules/__tests__/list.js:112-115 | the wrappers of a lowered source template carry `index<c>` … `index<c+sites-1>` in pre-order, an outer site before its inner ones |
| ListProps.TransformIndicesDistinct | packages/jsx-compiler/src/modules/__tests__/list.js:112-115 | no two wrappers of a lowered source template share an index name |
| ListProps.TransformChildrenNumbered | packages/jsx-compiler/src/modules/__tests__/list.js:112-115 | siblings' wrappers are numbered one after another from c, in the same pre-order |
| ListProps.KindValuesCount | packages/jsx-compiler/src/modules/__tests__/list.js:470-471 | a record describes one value per field of each kind |
| ListProps.RewriteAttrsLeaves | packages/jsx-compiler/src/modules/__tests__/list.js:466-475 | rewriting attributes appends exactly their dependent non-style leaves to the `_d` values and their dependent style values to the `_s` values, in order |
| ListProps.RewriteNodeLeaves | packages/jsx-compiler/src/modules/__tests__/list.js:49-71 | rewriting a subtree appends exactly its dependent leaves, nested loops included, to the `_d` values, and its dependent style values to the `_s` values, in document order |
| ListProps.RewriteChildrenLeaves | packages/jsx-compiler/src/modules/__tests__/list.js:466-475 | rewriting siblings appends their leaves one sibling after another |
| ListProps.KindValuesNamed | packages/jsx-compiler/src/modules/__tests__/list.js:466-475 | in a numbered record, the `i`-th `_d` value sits in the field named `_d<i>`, and likewise for `_s` |
| ListProps.SiteFieldsHoldLeaves | packages/jsx-compiler/src/modules/__tests__/list.js:454-476 | a lowered record's `_d` fields hold exactly the generic leaves of the canonical body, and its `_s` fields its style leaves, in document order |
| ListProps.SiteLeafNamed | packages/jsx-compiler/src/modules/__tests__/list.js:454-476 | the `i`-th generic leaf of a site's body is the record field named `_d<i>` |
| ListProps.RenameRemovesName | packages/jsx-compiler/src/modules/__tests__/list.js:19-25 | after renaming, the old index name is no longer free anywhere |
| ListProps.RenameRoundTrip | packages/jsx-compiler/src/modules/__tests__/list.js:19-25 | renaming to a fresh name and back restores the expression |
| ListProps.LoweredStatementsUseCanonicalIndex | packages/jsx-compiler/src/modules/__tests__/list.js:433-443 | the lowered statements no longer mention the original index parameter |
| ListProps.RewriteResolved | packages/jsx-compiler/src/modules/__tests__/list.js:49-71 | every rewritten leaf reads a known record name or does not depend on the loop |
| ListProps.SiteReadsOnlyItsRecord | packages/jsx-compiler/src/modules/__tests__/list.js:49-71 | a lowered template reads the loop only through `item.f` for fields f of its own record, and nested wrappers loop over a field or an item property |
| ListProps.InertUntouched | packages/jsx-compiler/src/modules/__tests__/list.js:51-70 | a subtree that does not depend on the loop is left as it is and adds no field |
| ListProps.NoSitesUntouched | packages/jsx-compiler/src/modules/__tests__/list.js:328-339 | a template without sites is returned unchanged and uses no number |
| ListProps.TransformKeepsElement | packages/jsx-compiler/src/modules/__tests__/list.js:117-140 | lowering keeps an element's tag and attributes and leaves every child without a site exactly as it was |
| ListProps.TransformIdempotent | packages/jsx-compiler/src/modules/__tests__/list.js:9-476 | lowering a lowered template changes nothing |
| ListProps.NumberedNamesDistinct | packages/jsx-compiler/src/modules/__tests__/list.js:470-471 | two numbered fields of the same kind never share a name |
| ListProps.RecordNamesDistinct | packages/jsx-compiler/src/modules/__tests__/list.js:470-471 | in a lowered record, `_key` and all the `_d` and `_s` fields have pairwise different names |
| ListScenarios.InlineReturn | packages/jsx-compiler/src/modules/__tests__/list.js:9-47 | `(val, idx) => <item …/>`, concise or block body, lowers exactly to the expected wrapper, record and bindings |
| ListScenarios.BindListVariable | packages/jsx-compiler/src/modules/__tests__/list.js:49-71 | `item.title` and the object literal become `_d0` and `_d1`, and `resizeMode` is kept |
| ListScenarios.ListElements | packages/jsx-compiler/src/modules/__tests__/list.js:73-84 | `{idx}` becomes `_d0: index0`, read as `val._d0` |
| ListScenarios.NestedList | packages/jsx-compiler/src/modules/__tests__/list.js:86-143 | an inner loop over the item puts the inner call in the item field, and the inner wrapper loops over `l1` |
| ListScenarios.NestedListWithoutRelation | packages/jsx-compiler/src/modules/__tests__/list.js:145-203 | an inner loop over `list[l1]` puts the inner call in `_d0`, and the inner wrapper loops over `_d0` |
| ListScenarios.NestedListWithItemProperty | packages/jsx-compiler/src/modules/__tests__/list.js:205-264 | an inner loop over `l1.list` spreads the item with `list` replaced by the inner call |
| ListScenarios.NestedListWithTempVariable | packages/jsx-compiler/src/modules/__tests__/list.js:266-326 | an inner loop over the local `a` adds a field `a` holding the inner call |
| ListScenarios.ListDefaultParams | packages/jsx-compiler/src/modules/__tests__/list.js:328-339 | a callback with no parameters uses `item`, and its record is just item and key |
| ListScenarios.ListStyle | packages/jsx-compiler/src/modules/__tests__/list.js:341-364 | a style bound to a local becomes `_s0: __create_style__(style)`, and the statement reads `index0` |
| ListScenarios.NestedListStyle | packages/jsx-compiler/src/modules/__tests__/list.js:366-413 | the outer index is renamed inside the inner statement, and the inner record gets `_s0` |
| ListScenarios.MapFunctionWithoutReturn | packages/jsx-compiler/src/modules/__tests__/list.js:415-429 | a concise static body gives a record of item and key only |
| ListScenarios.UseExpressionInMapFn | packages/jsx-compiler/src/modules/__tests__/list.js:431-452 | a local computed from the index is renamed and becomes `_d0: a` |
| ListScenarios.FormatFunctionInLoop | packages/jsx-compiler/src/modules/__tests__/list.js:454-476 | the index and `format(index0)` become `_d0` and `_d1`, attributes before children |

## Left out

- The implementation file of `_transformList` is not part of this model. The pass is modelled from its test file and its rules are inferred from those outputs:
  - a bare item reads as `item.item`;
  - a dependent style value becomes `_sN`, and this rule is checked before the bare-item rule;
  - any other dependent leaf becomes `_dN`, and an independent one is kept;
  - the four nested-loop source cases become item, spread, local-named and `_dN` fields.
- Parsing and code generation (`parseExpression`, `genCode`) are left out. Trees are given as datatypes, and scenarios state the resulting tree rather than the printed text.
- Elements around the loop that the pass leaves alone are dropped from the scenarios. `ListProps.TransformKeepsElement` states in general that an element keeps its tag and attributes and that its site-free children are untouched, and `ListProps.NoSitesUntouched` that a site-free subtree is returned as it is.
- The site counter is modelled as a parameter starting at 0. The module-level `count` in the tests is what makes their names `index<n>` / `_key<n>`.
- Rewriting several nested loops over the same item inside one site is left out: the model keeps the last one's call in the item field. No test covers this.
- Fields are not deduplicated: a repeated dependent expression gets a new `_dN` each time. Field-name uniqueness is proved only for `_key`, `_d` and `_s` fields. A local-named nested field could collide with the item name.
- The outer item and index are not bound inside a nested site. An inner leaf that reads only the outer item is kept as it is, which no test pins.
- Callbacks with more than two parameters, and map sources that are conditional or logical expressions, are left untouched.
- The inner wrapper of a nested loop over an unrelated source loops over the bare `_dN` name, as list.js line 196 shows, not over `item._dN`.
- `page.js` of the webpack plugin is not part of this model. It is a code generator for page files, outside the element core.
- Handler invocation (`_trigger`), the `onxxx` properties, `dispatchEvent` and `_destroy` are left out. Handlers are ids, and `_process` is reduced to its visit order with the stop point as a parameter.
- The creation of the `Event` object in `_process` is left out: native-target lookup in the node cache, `detail` fallback and `toLowerCase` of the name. Those are foreign calls into code outside the model.
- The `isMiniApp` platform constant is a parameter of `EventTarget.CheckEvent`. So is the touch check: `AsWritten` gives the source's behaviour, and `Intended` the corrected one of the first finding.
- `Textarea._renderInfo`, `_dealWithAttrsForCloneNode`, `selectionStart` and `selectionEnd` are left out. They are object spreads and numeric coercion (`+value`, NaN) outside the attribute logic.
- The base `Element.setAttribute` / `_setAttributeWithDelayUpdate` are not part of this model. They are taken to be the attribute store's `set` with the given or a false immediate flag.
- `Attributes.Remove`: does not model `delete this[name]` on the store object, since only the value map is observable. Removing `style` assigns `element.style.cssText = ''` and removing `id` assigns `element.id = ''`. Those setters belong to the element and its style object, which are not part of this model. They are modelled as writes to the store's own `cssText` and `elementId` fields, and the element is assumed not to write back into the store. If the element's `id` setter stored through the store, `remove('id')` would leave `id` present with `''` and log one payload. The `id` cases of `Attributes.RemoveThenGet` and `Attributes.HasTracksSetAndRemove` rest on the same assumption.
- `Attributes.Set`: `element.style.cssText = value` is modelled as storing the value; the style parser behind cssText is outside the model.
- `Js.ToStr`: a function renders as `function` and an object as `[object Object]`; JavaScript prints a function's source text and calls an object's own `toString`, which the model does not. `Textarea.SetName`, `SetType`, `SetPlaceholder` and `SetValue` store this rendering.
- Upper- and lower-casing cover ASCII letters only; `toLowerCase` of other characters is left out.
- Numbers are integers; JavaScript floating point and NaN are not modelled.
- `Object.keys` order is the order of the key sequence given to `Tool.HasExtraAttribute`.
- Calling `addEventListener` with a `null` options object throws in JavaScript. The model treats it as no options.
- `Tool.GetId`: the module-level `seed` is threaded explicitly as a value.
- Attribute names are assumed not to be `Object.prototype` keys. On the plain object behind the store, `get('constructor')` would return the inherited function, and `set('__proto__', v)` would create no own key, so `has` would stay false. The model stores every name as an ordinary key.

## Findings

| source | as written | input that shows it | evidently intended | confidence | as-written member | corrected member |
|---|---|---|---|---|---|---|
| packages/miniapp-render/src/event/event-target.js:13 | `let i` starts undefined, so `i < len` is false and the loop never compares touches | `[Touch(0,1,1,1,1)]` vs `[Touch(0,2,2,2,2)]` compare equal, so `__checkEvent` suppresses a second event with the same timestamp and those touches (`EventTarget.CheckEventCounterexample`) | start the loop at `i = 0` | high, not executed | EventTarget.CompareTouchListAsWritten | EventTarget.CompareTouchList |
| packages/miniapp-render/src/event/event-target.js:307 | `splice(indexOf(h), 1)` with an absent handler splices at -1 and removes the last handler | handlers `[1]`, remove handler 2: list becomes `[]` | remove nothing when the handler is absent | high, not executed | EventTarget.RemoveEventListenerAsWritten | EventTarget.RemoveEventListener |
| packages/miniapp-render/src/utils/tool.js:32 | `!!res` coerces the found key, so an empty-string key found first reads as no extra attribute | keys `""`, `foo` | test whether a key was found | medium, not executed | Tool.HasExtraAttributeAsWritten | Tool.HasExtraAttribute |

=== FILE: attributes.dfy ===
/** The attribute store of a miniapp-render element (`node/attribute.js`):
    a value map, plus the parts of the owning element it writes through to
    (dataset, `style.cssText`, `id`, the extra-attribute flag) and the log
    of update payloads handed to the element's `_triggerUpdate`. */
module Attributes {
  import opened Base
  import opened Js
  import Tool

  /** One call of `element._triggerUpdate(payload, immediate)`; `immediate`
      is `None` where the call passes no second argument. */
  datatype Update = Update(path: string, value: Value, immediate: Option<bool>)

  datatype Store = Store(
    values: map<string, Value>,
    dataset: map<string, Value>,
    cssText: Value,
    elementId: Value,
    hasExtra: bool,
    path: string,
    updates: seq<Update>)

  /** A fresh store of an element whose update path is `path`. */
  function Init(path: string): (st: Store)
    ensures st.values == map[] && st.dataset == map[] && st.updates == []
    ensures !st.hasExtra && st.path == path
  {
    Store(map[], map[], Str(""), Str(""), false, path, [])
  }

  predicate IsDataName(name: string)
  {
    StartsWith(name, "data-")
  }

  lemma DataNameIsNotSpecial(name: string)
    requires IsDataName(name)
    ensures name != "style" && name != "id" && name != "class"
  {
    assert name[..5][0] == 'd';
  }

  /** A name that differs from `data-` at position `i` (or is too short) is not a `data-` name. */
  lemma NotDataName(name: string, i: nat)
    requires i < 5 && (i >= |name| || name[i] != "data-"[i])
    ensures !IsDataName(name)
  {
  }

  /** `toCamel(name.substr(5))`: the dataset key a `data-` attribute is mirrored to. */
  function DatasetKey(name: string): string
    requires IsDataName(name)
  {
    Tool.ToCamel(name[5..])
  }

  /** The path of the payload for attribute `name`: `${element._path}.${name}`. */
  function UpdatePath(st: Store, name: string): string
  {
    st.path + "." + name
  }

  function Set(st: Store, name: string, v: Value, immediate: bool): (r: Store)
    ensures name in r.values && r.values[name] == v
    ensures forall k :: k != name ==> (k in r.values <==> k in st.values)
    ensures forall k :: k != name && k in st.values ==> r.values[k] == st.values[k]
    ensures name == "style" ==> r.cssText == v && r.updates == st.updates && r.dataset == st.dataset
    ensures name != "style" ==>
      r.cssText == st.cssText && r.updates == st.updates + [Update(UpdatePath(st, name), v, Some(immediate))]
    ensures name != "style" && IsDataName(name) ==>
      r.dataset == st.dataset[DatasetKey(name) := v]
    ensures !IsDataName(name) ==> r.dataset == st.dataset
    ensures r.hasExtra <==> st.hasExtra || (name != "id" && name != "class" && name != "style")
    ensures r.elementId == st.elementId && r.path == st.path
  {
    var values := st.values[name := v];
    if name == "style" then
      st.(values := values, cssText := v)
    else
      var dataset := if IsDataName(name) then st.dataset[DatasetKey(name) := v] else st.dataset;
      var hasExtra := st.hasExtra || (name != "id" && name != "class");
      st.(values := values, dataset := dataset, hasExtra := hasExtra,
          updates := st.updates + [Update(UpdatePath(st, name), v, Some(immediate))])
  }

  /** `style` reads `cssText || null`; a `data-` name reads its dataset entry,
      undefined when there is none; any other name reads `value || null`. */
  function Get(st: Store, name: string): (r: Value)
    ensures name == "style" ==> (r == Null <==> Falsy(st.cssText))
    ensures name == "style" && !Falsy(st.cssText) ==> r == st.cssText
    ensures name != "style" && IsDataName(name) ==>
      r == (if DatasetKey(name) in st.dataset then st.dataset[DatasetKey(name)] else Undefined)
    ensures name != "style" && !IsDataName(name) ==> r != Undefined
    ensures name != "style" && !IsDataName(name) ==> (r == Null <==> name !in st.values || Falsy(st.values[name]))
    ensures name != "style" && !IsDataName(name) && name in st.values && !Falsy(st.values[name]) ==> r == st.values[name]
  {
    if name == "style" then Or(st.cssText, Null)
    else if IsDataName(name) then
      var key := DatasetKey(name);
      if key in st.dataset then st.dataset[key] else Undefined
    else Or(if name in st.values then st.values[name] else Undefined, Null)
  }

  /** `has(name)`: whether the value map holds `name` as an own key. */
  predicate Has(st: Store, name: string)
  {
    name in st.values
  }

  /** The `style` getter: `cssText || undefined`. */
  function StyleProperty(st: Store): (r: Value)
    ensures r == Undefined <==> Falsy(st.cssText)
    ensures !Falsy(st.cssText) ==> r == st.cssText
  {
    Or(st.cssText, Undefined)
  }

  /** The `class`, `id` and `src` getters: the stored value, or undefined when it is missing or falsy. */
  function StoredOrUndefined(st: Store, name: string): (r: Value)
    ensures r != Undefined ==> name in st.values && r == st.values[name] && !Falsy(r)
    ensures name in st.values && !Falsy(st.values[name]) ==> r == st.values[name]
  {
    if name in st.values then Or(st.values[name], Undefined) else Undefined
  }

  function ClassProperty(st: Store): (r: Value)
    ensures r == Undefined <==> "class" !in st.values || Falsy(st.values["class"])
    ensures r != Undefined ==> r == st.values["class"]
  {
    StoredOrUndefined(st, "class")
  }

  function IdProperty(st: Store): (r: Value)
    ensures r == Undefined <==> "id" !in st.values || Falsy(st.values["id"])
    ensures r != Undefined ==> r == st.values["id"]
  {
    StoredOrUndefined(st, "id")
  }

  function SrcProperty(st: Store): (r: Value)
    ensures r == Undefined <==> "src" !in st.values || Falsy(st.values["src"])
    ensures r != Undefined ==> r == st.values["src"]
  {
    StoredOrUndefined(st, "src")
  }

  function Remove(st: Store, name: string): (r: Store)
    ensures name !in r.values && r.values == st.values - {name}
    ensures name == "style" ==> r.cssText == Str("") && r.updates == st.updates
    ensures name == "id" ==> r.elementId == Str("") && r.updates == st.updates
    ensures name != "style" && name != "id" ==>
      r.updates == st.updates + [Update(UpdatePath(st, name), Str(""), None)]
    ensures name != "style" && name != "id" && IsDataName(name) ==>
      r.dataset == st.dataset - {DatasetKey(name)}
    ensures name != "style" ==> r.cssText == st.cssText
    ensures name != "id" ==> r.elementId == st.elementId
    ensures !(IsDataName(name) && name != "style" && name != "id") ==> r.dataset == st.dataset
    ensures r.hasExtra == st.hasExtra && r.path == st.path
  {
    var values := st.values - {name};
    if name == "style" then
      st.(values := values, cssText := Str(""))
    else if name == "id" then
      st.(values := values, elementId := Str(""))
    else
      var dataset := if IsDataName(name) then st.dataset - {DatasetKey(name)} else st.dataset;
      st.(values := values, dataset := dataset,
          updates := st.updates + [Update(UpdatePath(st, name), Str(""), None)])
  }

  // ---------------------------------------------------------------------
  // Properties relating set, get, has and remove
  // ---------------------------------------------------------------------

  /** After a set, the name is present and reads back as the stored value,
      through `cssText` for `style` and through the dataset for `data-` names. */
  lemma SetThenGet(st: Store, name: string, v: Value, immediate: bool)
    ensures Has(Set(st, name, v, immediate), name)
    ensures name == "style" ==> Get(Set(st, name, v, immediate), name) == Or(v, Null)
    ensures IsDataName(name) ==> Get(Set(st, name, v, immediate), name) == v
    ensures name != "style" && !IsDataName(name) ==> Get(Set(st, name, v, immediate), name) == Or(v, Null)
  {
    if IsDataName(name) {
      DataNameIsNotSpecial(name);
    }
  }

  /** Setting one plain name leaves every other plain name's reading unchanged. */
  lemma SetFrame(st: Store, name: string, other: string, v: Value, immediate: bool)
    requires other != name && other != "style" && !IsDataName(other)
    ensures Get(Set(st, name, v, immediate), other) == Get(st, other)
    ensures Has(Set(st, name, v, immediate), other) == Has(st, other)
  {
  }

  /** Two `data-` spellings with the same camel-cased key share one dataset
      entry, so a set through one is read back through the other. */
  lemma DatasetAlias(st: Store, v: Value)
    ensures Get(Set(st, "data-a-b", v, true), "data-aB") == v
  {
    assert "data-a-b"[5..] == "a-b";
    assert Tool.ToCamel("a-b") == "aB" by {
      assert "a-b"[1..] == "-b";
      assert "-b"[2..] == "";
    }
    assert "data-aB"[5..] == "aB";
    assert Tool.ToCamel("aB") == "aB";
    assert IsDataName("data-a-b") && IsDataName("data-aB");
  }

  /** The extra-attribute flag only ever goes from false to true. */
  lemma ExtraFlagIsSticky(st: Store, name: string, v: Value, immediate: bool)
    requires st.hasExtra
    ensures Set(st, name, v, immediate).hasExtra
    ensures Remove(st, name).hasExtra
  {
  }

  /** After a remove the name is absent and reads back as empty. */
  lemma RemoveThenGet(st: Store, name: string)
    ensures !Has(Remove(st, name), name)
    ensures name == "style" ==> Get(Remove(st, name), name) == Null
    ensures IsDataName(name) ==> Get(Remove(st, name), name) == Undefined
    ensures name != "style" && !IsDataName(name) ==> Get(Remove(st, name), name) == Null
  {
    if IsDataName(name) {
      DataNameIsNotSpecial(name);
    }
  }

  /** `has` follows set and remove: a set adds exactly its own name, and a
      remove takes away exactly its own name. */
  lemma HasTracksSetAndRemove(st: Store, name: string, other: string, v: Value, immediate: bool)
    ensures Has(Set(st, name, v, immediate), other) <==> other == name || Has(st, other)
    ensures Has(Remove(st, name), other) <==> other != name && Has(st, other)
  {
  }

  /** Removing what was just set restores the value map; for a plain name
      other than `id` two payloads result: the value, then the empty string. */
  lemma SetThenRemove(st: Store, name: string, v: Value, immediate: bool)
    requires name !in st.values
    requires name != "style" && name != "id"
    ensures Remove(Set(st, name, v, immediate), name).values == st.values
    ensures Remove(Set(st, name, v, immediate), name).updates ==
      st.updates + [Update(UpdatePath(st, name), v, Some(immediate)), Update(UpdatePath(st, name), Str(""), None)]
  {
    assert st.values[name := v] - {name} == st.values;
  }
}

=== FILE: base.dfy ===
/** Small shared vocabulary: an option type, ASCII character classes and
    the string helpers the rest of the model is written with. */
module Base {

  datatype Option<+T> = None | Some(value: T)

  predicate IsUpper(c: char) { 'A' <= c <= 'Z' }

  predicate IsLower(c: char) { 'a' <= c <= 'z' }

  /** The class `[a-zA-Z]` of a JavaScript regular expression without flags. */
  predicate IsLetter(c: char) { IsUpper(c) || IsLower(c) }

  /** `toLowerCase` restricted to one ASCII character. */
  function LowerChar(c: char): (r: char)
    ensures IsUpper(c) ==> IsLower(r)
    ensures !IsUpper(c) ==> r == c
  {
    if IsUpper(c) then (c as int - 'A' as int + 'a' as int) as char else c
  }

  /** `toUpperCase` restricted to one ASCII character. */
  function UpperChar(c: char): (r: char)
    ensures IsLower(c) ==> IsUpper(r)
    ensures !IsLower(c) ==> r == c
  {
    if IsLower(c) then (c as int - 'a' as int + 'A' as int) as char else c
  }

  lemma UpperOfLower(c: char)
    requires IsUpper(c)
    ensures UpperChar(LowerChar(c)) == c
  {
  }

  lemma LowerOfUpper(c: char)
    requires IsLower(c)
    ensures LowerChar(UpperChar(c)) == c
  {
  }

  /** `toLowerCase` on a string, for ASCII letters. */
  function LowerString(s: string): (r: string)
    ensures |r| == |s|
    ensures forall i :: 0 <= i < |s| ==> r[i] == LowerChar(s[i])
  {
    if s == [] then [] else [LowerChar(s[0])] + LowerString(s[1..])
  }

  function DigitChar(d: nat): char
    requires d < 10
  {
    "0123456789"[d]
  }

  /** Decimal rendering of a natural number, as JavaScript's `'' + n`. */
  function NatToString(n: nat): (r: string)
    ensures |r| >= 1
    decreases n
  {
    if n < 10 then [DigitChar(n)] else NatToString(n / 10) + [DigitChar(n % 10)]
  }

  lemma DigitCharInjective(a: nat, b: nat)
    requires a < 10 && b < 10 && DigitChar(a) == DigitChar(b)
    ensures a == b
  {
  }

  /** Distinct numbers render as distinct strings. */
  lemma {:induction false} NatToStringInjective(m: nat, n: nat)
    requires NatToString(m) == NatToString(n)
    ensures m == n
    decreases m
  {
    var s := NatToString(m);
    if m < 10 && n < 10 {
      DigitCharInjective(m, n);
    } else if m >= 10 && n >= 10 {
      assert s[|s| - 1] == DigitChar(m % 10) && s[|s| - 1] == DigitChar(n % 10);
      DigitCharInjective(m % 10, n % 10);
      assert s[..|s| - 1] == NatToString(m / 10) && s[..|s| - 1] == NatToString(n / 10);
      NatToStringInjective(m / 10, n / 10);
    }
  }

  /** Decimal rendering of an integer, with a leading `-` when negative. */
  function IntToString(i: int): (r: string)
  {
    if i < 0 then "-" + NatToString(-i) else NatToString(i)
  }

  predicate StartsWith(s: string, prefix: string)
  {
    |prefix| <= |s| && s[..|prefix|] == prefix
  }

  /** Unanchored substring test, as a regular expression made of one literal. */
  predicate Contains(s: string, sub: string)
  {
    exists i :: 0 <= i <= |s| - |sub| && OccursAt(s, sub, i)
  }

  predicate OccursAt(s: string, sub: string, i: int)
    requires 0 <= i <= |s| - |sub|
  {
    s[i..i + |sub|] == sub
  }
}

=== FILE: event_process.dfy ===
/** The capture / target / bubble visit order of `EventTarget._process`
    (`event/event-target.js`). Handlers are not run: what a handler does is
    reduced to the one fact the order depends on, the point at which
    `_canBubble` becomes false, given as the number of visits after which
    propagation is stopped (`None` when it never is). */
module EventProcess {
  import opened Base

  /** The `eventPhase` values an event passes through. */
  datatype Phase = NoPhase | CapturingPhase | AtTargetPhase | BubblingPhase

  /** One `_trigger` call: the current target, the phase, and `isCapture`. */
  datatype Visit = Visit(node: nat, phase: Phase, isCapture: bool)

  /** One step up the tree: the parent's id and whether it has an `ownerDocument`. */
  datatype Ancestor = Ancestor(id: nat, hasOwnerDocument: bool)

  /** The target followed by its ancestors, up to the first that has no
      `ownerDocument` (or the root). */
  function PathOf(target: nat, parents: seq<Ancestor>): (path: seq<nat>)
    ensures |path| >= 1 && path[0] == target
    ensures |path| <= |parents| + 1
    ensures forall k :: 1 <= k < |path| ==> parents[k - 1].hasOwnerDocument && path[k] == parents[k - 1].id
    ensures |path| <= |parents| ==> !parents[|path| - 1].hasOwnerDocument
  {
    [target] + Climb(parents)
  }

  /** The ids of the longest run of ancestors that have an `ownerDocument`. */
  function Climb(parents: seq<Ancestor>): (ids: seq<nat>)
    ensures |ids| <= |parents|
    ensures forall k :: 0 <= k < |ids| ==> parents[k].hasOwnerDocument && ids[k] == parents[k].id
    ensures |ids| < |parents| ==> !parents[|ids|].hasOwnerDocument
  {
    if parents == [] || !parents[0].hasOwnerDocument then []
    else [parents[0].id] + Climb(parents[1..])
  }

  /** The sequence with every occurrence of `t` dropped: the nodes visited
      in the bubble order, where the target itself is skipped. */
  function Without(s: seq<nat>, t: nat): (r: seq<nat>)
    ensures |r| <= |s|
    ensures t !in r
  {
    if s == [] then [] else (if s[0] == t then [] else [s[0]]) + Without(s[1..], t)
  }

  /** The nodes of `s` other than `t`, last first: the capture order. */
  function RevWithout(s: seq<nat>, t: nat): (r: seq<nat>)
    ensures |r| == |Without(s, t)|
  {
    if s == [] then [] else RevWithout(s[1..], t) + (if s[0] == t then [] else [s[0]])
  }

  function Reverse(s: seq<nat>): (r: seq<nat>)
    ensures |r| == |s|
  {
    if s == [] then [] else Reverse(s[1..]) + [s[0]]
  }

  function Tag(s: seq<nat>, phase: Phase, isCapture: bool): (r: seq<Visit>)
    ensures |r| == |s|
    ensures forall i :: 0 <= i < |s| ==> r[i] == Visit(s[i], phase, isCapture)
  {
    seq(|s|, i requires 0 <= i < |s| => Visit(s[i], phase, isCapture))
  }

  /** `_canBubble` after `done` visits. */
  predicate CanBubble(stop: Option<nat>, done: nat)
  {
    stop.None? || done < stop.value
  }

  /** At most `stop` visits, all of them when `stop` is `None`. */
  function Limit(s: seq<Visit>, stop: Option<nat>): (r: seq<Visit>)
    ensures stop.None? ==> r == s
    ensures stop.Some? ==> r == s[..if stop.value < |s| then stop.value else |s|]
  {
    if stop.None? || |s| <= stop.value then s else s[..stop.value]
  }

  /** The stop point counted from after the first `done` visits. */
  function Remaining(stop: Option<nat>, done: nat): Option<nat>
  {
    if stop.None? then None
    else if done <= stop.value then Some(stop.value - done)
    else Some(0)
  }

  /** The visit order, stated independently of the loops: capture over the
      ancestors last first, the target twice (capture listeners, then bubble
      listeners) under one `_canBubble` check, then bubble over the
      ancestors first first, every part cut short at the stop point. */
  function Order(path: seq<nat>, target: nat, stop: Option<nat>, bubbles: bool): seq<Visit>
  {
    var ancestors := Without(path, target);
    var capture := Limit(Tag(Reverse(ancestors), CapturingPhase, true), stop);
    var atTarget := if CanBubble(stop, |capture|)
      then [Visit(target, AtTargetPhase, true), Visit(target, AtTargetPhase, false)] else [];
    var bubble := if bubbles
      then Limit(Tag(ancestors, BubblingPhase, false), Remaining(stop, |capture| + |atTarget|)) else [];
    capture + atTarget + bubble
  }

  lemma {:induction false} RevWithoutAppend(a: seq<nat>, b: seq<nat>, t: nat)
    ensures RevWithout(a + b, t) == RevWithout(b, t) + RevWithout(a, t)
  {
    if a == [] {
      assert a + b == b;
    } else {
      assert (a + b)[1..] == a[1..] + b;
      RevWithoutAppend(a[1..], b, t);
    }
  }

  lemma {:induction false} WithoutAppend(a: seq<nat>, b: seq<nat>, t: nat)
    ensures Without(a + b, t) == Without(a, t) + Without(b, t)
  {
    if a == [] {
      assert a + b == b;
    } else {
      assert (a + b)[1..] == a[1..] + b;
      WithoutAppend(a[1..], b, t);
    }
  }

  /** The capture order is the bubble order reversed. */
  lemma {:induction false} RevWithoutIsReverse(s: seq<nat>, t: nat)
    ensures RevWithout(s, t) == Reverse(Without(s, t))
  {
    if s != [] {
      RevWithoutIsReverse(s[1..], t);
      if s[0] == t {
        assert Without(s, t) == Without(s[1..], t);
      } else {
        assert Without(s, t) == [s[0]] + Without(s[1..], t);
        assert ([s[0]] + Without(s[1..], t))[1..] == Without(s[1..], t);
      }
    }
  }

  lemma TagAppend(a: seq<nat>, b: seq<nat>, phase: Phase, isCapture: bool)
    ensures Tag(a + b, phase, isCapture) == Tag(a, phase, isCapture) + Tag(b, phase, isCapture)
  {
  }

  /** The loop `while (parentNode && parentNode.ownerDocument)` collecting the path. */
  method BuildPath(target: nat, parents: seq<Ancestor>) returns (path: seq<nat>)
    ensures path == PathOf(target, parents)
  {
    path := [target];
    var j := 0;
    while j < |parents| && parents[j].hasOwnerDocument
      invariant 0 <= j <= |parents|
      invariant PathOf(target, parents) == path + Climb(parents[j..])
    {
      assert parents[j..][1..] == parents[j + 1..];
      path := path + [parents[j].id];
      j := j + 1;
    }
  }

  /** The capture loop: from the outermost node down, skipping the target,
      leaving as soon as `_canBubble` is false. */
  method CaptureLoop(path: seq<nat>, target: nat, stop: Option<nat>) returns (visits: seq<Visit>)
    ensures visits == Limit(Tag(Reverse(Without(path, target)), CapturingPhase, true), stop)
  {
    visits := [];
    var i := |path| - 1;
    while i >= 0 && CanBubble(stop, |visits|)
      invariant -1 <= i < |path|
      invariant visits == Tag(RevWithout(path[i + 1..], target), CapturingPhase, true)
      invariant stop.Some? ==> |visits| <= stop.value
    {
      assert path[i..][1..] == path[i + 1..];
      var step := if path[i] == target then [] else [path[i]];
      assert RevWithout(path[i..], target) == RevWithout(path[i + 1..], target) + step;
      TagAppend(RevWithout(path[i + 1..], target), step, CapturingPhase, true);
      if path[i] != target {
        visits := visits + [Visit(path[i], CapturingPhase, true)];
      }
      i := i - 1;
    }
    assert path == path[..i + 1] + path[i + 1..];
    RevWithoutAppend(path[..i + 1], path[i + 1..], target);
    TagAppend(RevWithout(path[i + 1..], target), RevWithout(path[..i + 1], target), CapturingPhase, true);
    RevWithoutIsReverse(path, target);
    var rest := Tag(RevWithout(path[..i + 1], target), CapturingPhase, true);
    assert i < 0 ==> path[..i + 1] == [] && rest == [];
    LimitPrefix(visits, rest, stop, 0);
  }

  /** The bubble loop: from the target up, skipping the target, leaving as
      soon as `_canBubble` is false; `done` visits precede it. */
  method BubbleLoop(path: seq<nat>, target: nat, stop: Option<nat>, done: nat) returns (visits: seq<Visit>)
    ensures visits == Limit(Tag(Without(path, target), BubblingPhase, false), Remaining(stop, done))
  {
    visits := [];
    var k := 0;
    while k < |path| && CanBubble(stop, done + |visits|)
      invariant 0 <= k <= |path|
      invariant visits == Tag(Without(path[..k], target), BubblingPhase, false)
      invariant stop.Some? && |visits| > 0 ==> done + |visits| <= stop.value
    {
      assert path[..k + 1] == path[..k] + [path[k]];
      WithoutAppend(path[..k], [path[k]], target);
      TagAppend(Without(path[..k], target), Without([path[k]], target), BubblingPhase, false);
      if path[k] != target {
        visits := visits + [Visit(path[k], BubblingPhase, false)];
      }
      k := k + 1;
    }
    assert path == path[..k] + path[k..];
    WithoutAppend(path[..k], path[k..], target);
    TagAppend(Without(path[..k], target), Without(path[k..], target), BubblingPhase, false);
    var rest := Tag(Without(path[k..], target), BubblingPhase, false);
    assert k == |path| ==> path[k..] == [] && rest == [];
    LimitPrefix(visits, rest, stop, done);
  }

  /** A loop that stops at the stop point has produced exactly the limited
      sequence: everything when it ran out, otherwise the part before the stop. */
  lemma LimitPrefix(pre: seq<Visit>, rest: seq<Visit>, stop: Option<nat>, done: nat)
    requires rest == [] || !CanBubble(stop, done + |pre|)
    requires stop.Some? && |pre| > 0 ==> done + |pre| <= stop.value
    ensures pre == Limit(pre + rest, Remaining(stop, done))
  {
    if stop.Some? && |pre| > 0 && done + |pre| == stop.value {
      assert (pre + rest)[..|pre|] == pre;
    }
  }

  /** `_process` over the path of `target`: builds the path as the source
      does, runs the capture loop, the target phase (one `_canBubble` check
      for both its capture and its bubble listeners) and, for a bubbling
      event, the bubble loop; then resets the current target and phase. */
  method Process(target: nat, parents: seq<Ancestor>, stop: Option<nat>, bubbles: bool)
    returns (path: seq<nat>, visits: seq<Visit>, currentTarget: Option<nat>, phase: Phase)
    ensures path == PathOf(target, parents)
    ensures visits == Order(path, target, stop, bubbles)
    ensures currentTarget.None? && phase == NoPhase
  {
    path := BuildPath(target, parents);
    var capture := CaptureLoop(path, target, stop);
    var atTarget := [];
    if CanBubble(stop, |capture|) {
      atTarget := [Visit(target, AtTargetPhase, true), Visit(target, AtTargetPhase, false)];
    }
    var bubble := [];
    if bubbles {
      bubble := BubbleLoop(path, target, stop, |capture| + |atTarget|);
    }
    visits := capture + atTarget + bubble;
    currentTarget := None;
    phase := NoPhase;
  }

  // ---------------------------------------------------------------------
  // Properties of the order
  // ---------------------------------------------------------------------

  /** Without a stop every ancestor is visited once per direction and the
      target twice, the capture half mirroring the bubble half. */
  lemma FullPropagation(path: seq<nat>, target: nat)
    ensures var ancestors := Without(path, target);
      Order(path, target, None, true)
        == Tag(Reverse(ancestors), CapturingPhase, true)
         + [Visit(target, AtTargetPhase, true), Visit(target, AtTargetPhase, false)]
         + Tag(ancestors, BubblingPhase, false)
    ensures |Order(path, target, None, true)| == 2 * |Without(path, target)| + 2
  {
  }

  /** Stopping propagation only ever cuts the full order short. */
  lemma StoppedIsPrefix(path: seq<nat>, target: nat, k: nat, bubbles: bool)
    ensures var full := Order(path, target, None, bubbles);
      var cut := Order(path, target, Some(k), bubbles);
      |cut| <= |full| && cut == full[..|cut|]
  {
    var ancestors := Without(path, target);
    var c := Tag(Reverse(ancestors), CapturingPhase, true);
    var m := [Visit(target, AtTargetPhase, true), Visit(target, AtTargetPhase, false)];
    var b := if bubbles then Tag(ancestors, BubblingPhase, false) else [];
    var full := Order(path, target, None, bubbles);
    assert full == c + m + b;
    var cut := Order(path, target, Some(k), bubbles);
    if k <= |c| {
      assert cut == c[..k];
      assert full[..k] == c[..k];
    } else {
      assert Limit(c, Some(k)) == c;
      if bubbles {
        var rest := Limit(b, Remaining(Some(k), |c| + 2));
        assert cut == c + m + rest;
        assert rest == b[..|rest|];
        assert full[..|cut|] == c + m + b[..|rest|];
      } else {
        assert cut == c + m;
      }
    }
  }

  /** Stopping propagation in a capture listener of the target still runs
      the target's bubble listeners, since the target phase checks
      `_canBubble` once for both; nothing after them runs. */
  lemma StopAtTargetStillRunsTargetBubble(path: seq<nat>, target: nat, bubbles: bool)
    ensures var n := |Without(path, target)|;
      var cut := Order(path, target, Some(n + 1), bubbles);
      |cut| == n + 2 && cut[n] == Visit(target, AtTargetPhase, true)
      && cut[n + 1] == Visit(target, AtTargetPhase, false)
  {
  }

  /** A path built from ancestors distinct from the target visits each of
      them, outermost first when capturing. */
  lemma PathAncestorsAreVisited(target: nat, parents: seq<Ancestor>)
    requires forall k :: 0 <= k < |parents| ==> parents[k].id != target
    ensures Without(PathOf(target, parents), target) == PathOf(target, parents)[1..]
  {
    var path := PathOf(target, parents);
    assert path == [target] + path[1..];
    assert Without(path, target) == Without(path[1..], target);
    WithoutIdentity(path[1..], target);
  }

  lemma {:induction false} WithoutIdentity(s: seq<nat>, t: nat)
    requires t !in s
    ensures Without(s, t) == s
  {
    if s != [] {
      WithoutIdentity(s[1..], t);
      assert s == [s[0]] + s[1..];
    }
  }
}

=== FILE: event_target.dfy ===
/** Event-target bookkeeping of miniapp-render (`event/event-target.js`):
    the duplicate-event comparisons behind `__checkEvent`, and the handler
    map maintained by `addEventListener` and `removeEventListener`.
    Handlers are identified by an id; invoking them is not modelled. */
module EventTarget {
  import opened Base
  import opened Js

  // ---------------------------------------------------------------------
  // Native events and their comparison
  // ---------------------------------------------------------------------

  datatype Touch = Touch(identifier: int, pageX: int, pageY: int, clientX: int, clientY: int)

  datatype Detail = Detail(pageX: int, pageY: int, clientX: int, clientY: int)

  /** The native event fields the comparison reads; a missing property is `None`. */
  datatype NativeEvent = NativeEvent(
    timeStamp: int,
    detail: Option<Detail>,
    touches: Option<seq<Touch>>,
    changedTouches: Option<seq<Touch>>)

  /** `compareTouchList` as written: the loop counter starts undefined, the
      test `undefined < len` is false, and the loop body never runs, so only
      the lengths are compared. */
  function CompareTouchListAsWritten(a: seq<Touch>, b: seq<Touch>): (r: bool)
    ensures r <==> |a| == |b|
  {
    // The length test is the only one that runs: with `i` undefined the
    // loop condition compares NaN with the length and is false at once.
    |a| == |b|
  }

  predicate SameTouch(x: Touch, y: Touch)
  {
    x.identifier == y.identifier && x.pageX == y.pageX && x.pageY == y.pageY
      && x.clientX == y.clientX && x.clientY == y.clientY
  }

  /** The loop with its counter started at 0, as evidently intended. */
  function CompareTouchList(a: seq<Touch>, b: seq<Touch>): (r: bool)
    ensures r <==> |a| == |b| && forall i :: 0 <= i < |a| ==> SameTouch(a[i], b[i])
  {
    |a| == |b| && ScanTouches(a, b, 0)
  }

  /** The loop `for (i = k; i < len; i++)` over equal-length lists. */
  function ScanTouches(a: seq<Touch>, b: seq<Touch>, k: nat): (r: bool)
    requires |a| == |b| && k <= |a|
    ensures r <==> forall i :: k <= i < |a| ==> SameTouch(a[i], b[i])
    decreases |a| - k
  {
    if k == |a| then true
    else if !SameTouch(a[k], b[k]) then false
    else ScanTouches(a, b, k + 1)
  }

  /** Same lists are never reported as different, and the intended check
      only ever rejects more than the one as written. */
  lemma {:induction false} CompareTouchListReflexive(a: seq<Touch>, b: seq<Touch>)
    ensures CompareTouchList(a, a)
    ensures CompareTouchList(a, b) ==> CompareTouchListAsWritten(a, b)
  {
  }

  /** Two touch lists of equal length that differ in a touch are the same
      to the check as written but not to the intended one. */
  lemma TouchListCounterexample()
    ensures CompareTouchListAsWritten([Touch(0, 1, 1, 1, 1)], [Touch(0, 2, 2, 2, 2)])
    ensures !CompareTouchList([Touch(0, 1, 1, 1, 1)], [Touch(0, 2, 2, 2, 2)])
  {
    assert !SameTouch(Touch(0, 1, 1, 1, 1), Touch(0, 2, 2, 2, 2));
  }

  function CompareDetail(a: Detail, b: Detail): (r: bool)
    ensures r <==> a == b
  {
    a.pageX == b.pageX && a.pageY == b.pageY && a.clientX == b.clientX && a.clientY == b.clientY
  }

  /** Which touch-list check the duplicate-event comparisons use: the one
      the source calls (`AsWritten`), or the evidently intended one. */
  datatype TouchComparison = AsWritten | Intended

  function SameTouchList(c: TouchComparison, a: seq<Touch>, b: seq<Touch>): (r: bool)
    ensures c == AsWritten ==> (r <==> |a| == |b|)
    ensures c == Intended ==> (r <==> |a| == |b| && forall i :: 0 <= i < |a| ==> SameTouch(a[i], b[i]))
  {
    match c
    case AsWritten => CompareTouchListAsWritten(a, b)
    case Intended => CompareTouchList(a, b)
  }

  datatype Property = DetailProp | TouchesProp | ChangedTouchesProp

  /** True when exactly one of the two events carries the property, or both
      carry it and the comparison reports a difference. With the touch check
      as written, two touch lists of the same length never differ. */
  function CompareEventProperty(p: Property, last: NativeEvent, now: NativeEvent, c: TouchComparison): (r: bool)
    ensures p == DetailProp ==>
      (r <==> ((last.detail.Some? != now.detail.Some?)
               || (last.detail.Some? && now.detail.Some? && last.detail.value != now.detail.value)))
    ensures p == TouchesProp ==>
      (r <==> ((last.touches.Some? != now.touches.Some?)
               || (last.touches.Some? && now.touches.Some? && !SameTouchList(c, last.touches.value, now.touches.value))))
    ensures p == ChangedTouchesProp ==>
      (r <==> ((last.changedTouches.Some? != now.changedTouches.Some?)
               || (last.changedTouches.Some? && now.changedTouches.Some?
                   && !SameTouchList(c, last.changedTouches.value, now.changedTouches.value))))
    ensures c == AsWritten && p == TouchesProp ==>
      (r <==> ((last.touches.Some? != now.touches.Some?)
               || (last.touches.Some? && now.touches.Some? && |last.touches.value| != |now.touches.value|)))
    ensures c == AsWritten && p == ChangedTouchesProp ==>
      (r <==> ((last.changedTouches.Some? != now.changedTouches.Some?)
               || (last.changedTouches.Some? && now.changedTouches.Some?
                   && |last.changedTouches.value| != |now.changedTouches.value|)))
  {
    match p
    case DetailProp =>
      if last.detail.Some? && now.detail.Some? && !CompareDetail(last.detail.value, now.detail.value) then true
      else (last.detail.None? && now.detail.Some?) || (last.detail.Some? && now.detail.None?)
    case TouchesProp =>
      TouchesDiffer(last.touches, now.touches, c)
    case ChangedTouchesProp =>
      TouchesDiffer(last.changedTouches, now.changedTouches, c)
  }

  function TouchesDiffer(last: Option<seq<Touch>>, now: Option<seq<Touch>>, c: TouchComparison): bool
  {
    if last.Some? && now.Some? && !SameTouchList(c, last.value, now.value) then true
    else (last.None? && now.Some?) || (last.Some? && now.None?)
  }

  /** Comparison on platforms whose bubbling timestamps may drift: a gap of
      more than 10 ms, or a difference in detail or touches, is a new event. */
  function CompareEventWithUncertainty(last: Option<NativeEvent>, now: NativeEvent, c: TouchComparison): (r: bool)
    ensures last.None? ==> r
    ensures last.Some? && now.timeStamp - last.value.timeStamp > 10 ==> r
    ensures last.Some? && now.timeStamp - last.value.timeStamp <= 10 ==>
      (r <==> (CompareEventProperty(DetailProp, last.value, now, c)
               || CompareEventProperty(TouchesProp, last.value, now, c)
               || CompareEventProperty(ChangedTouchesProp, last.value, now, c)))
  {
    if last.None? || now.timeStamp - last.value.timeStamp > 10 then true
    else
      CompareEventProperty(DetailProp, last.value, now, c)
      || CompareEventProperty(TouchesProp, last.value, now, c)
      || CompareEventProperty(ChangedTouchesProp, last.value, now, c)
  }

  /** Comparison with exact timestamps; detail is not consulted. */
  function CompareEventWithAccurateness(last: Option<NativeEvent>, now: NativeEvent, c: TouchComparison): (r: bool)
    ensures last.None? ==> r
    ensures last.Some? && last.value.timeStamp != now.timeStamp ==> r
    ensures last.Some? && last.value.timeStamp == now.timeStamp ==>
      (r <==> (CompareEventProperty(TouchesProp, last.value, now, c)
               || CompareEventProperty(ChangedTouchesProp, last.value, now, c)))
  {
    if last.None? || last.value.timeStamp != now.timeStamp then true
    else
      CompareEventProperty(TouchesProp, last.value, now, c)
      || CompareEventProperty(ChangedTouchesProp, last.value, now, c)
  }

  // ---------------------------------------------------------------------
  // Target state: handler map, flags and the last native event
  // ---------------------------------------------------------------------

  datatype Handlers = Handlers(capture: seq<nat>, bubble: seq<nat>)

  datatype Target = Target(
    handlers: map<string, Handlers>,
    hasEventBinded: bool,
    hasAppearEventBinded: bool,
    hasTouchEventBinded: bool,
    lastEvent: Option<NativeEvent>)

  function NewTarget(): (t: Target)
    ensures t.handlers == map[] && t.lastEvent.None?
    ensures !t.hasEventBinded && !t.hasAppearEventBinded && !t.hasTouchEventBinded
  {
    Target(map[], false, false, false, None)
  }

  /** `__checkEvent`; `isMiniApp` selects the comparison, and `c` the touch
      check it relies on (`AsWritten` is the source's behaviour). The last
      event is replaced exactly when the result is true. */
  function CheckEvent(t: Target, now: NativeEvent, isMiniApp: bool, c: TouchComparison): (r: (bool, Target))
    ensures r.0 ==> r.1 == t.(lastEvent := Some(now))
    ensures !r.0 ==> r.1 == t
    ensures t.lastEvent.None? ==> r.0
    ensures isMiniApp ==> r.0 == CompareEventWithUncertainty(t.lastEvent, now, c)
    ensures !isMiniApp ==> r.0 == CompareEventWithAccurateness(t.lastEvent, now, c)
  {
    var flag := if isMiniApp then CompareEventWithUncertainty(t.lastEvent, now, c)
                else CompareEventWithAccurateness(t.lastEvent, now, c);
    (flag, if flag then t.(lastEvent := Some(now)) else t)
  }

  /** The same native event delivered twice in a row (as happens when it
      bubbles through several nodes) passes the check only once, with the
      touch check as written and as intended alike. */
  lemma CheckEventDeduplicates(t: Target, e: NativeEvent, isMiniApp: bool, c: TouchComparison)
    ensures var (first, t1) := CheckEvent(t, e, isMiniApp, c);
      first ==> !CheckEvent(t1, e, isMiniApp, c).0 && CheckEvent(t1, e, isMiniApp, c).1 == t1
  {
    CompareTouchListReflexive(if e.touches.Some? then e.touches.value else [], []);
    CompareTouchListReflexive(if e.changedTouches.Some? then e.changedTouches.value else [], []);
  }

  /** Two events with the same timestamp whose single touches differ: the
      source's check suppresses the second and keeps the first as the last
      event, while the intended check lets the second through. */
  lemma CheckEventCounterexample()
    ensures var last := NativeEvent(5, None, Some([Touch(0, 1, 1, 1, 1)]), None);
      var now := NativeEvent(5, None, Some([Touch(0, 2, 2, 2, 2)]), None);
      var t := NewTarget().(lastEvent := Some(last));
      && CheckEvent(t, now, false, AsWritten) == (false, t)
      && CheckEvent(t, now, false, Intended) == (true, t.(lastEvent := Some(now)))
  {
    assert !SameTouch(Touch(0, 1, 1, 1, 1), Touch(0, 2, 2, 2, 2));
  }

  /** `__getHandles(name, isCapture)` without initialisation: null for an unknown name. */
  function GetHandles(t: Target, name: string, isCapture: bool): (r: Option<seq<nat>>)
    ensures r.None? <==> name !in t.handlers
    ensures r.Some? ==> r.value == (if isCapture then t.handlers[name].capture else t.handlers[name].bubble)
  {
    if name !in t.handlers then None
    else Some(if isCapture then t.handlers[name].capture else t.handlers[name].bubble)
  }

  /** `__getHandles(name, isCapture, true)` then `push`: the handler lists of
      `name` are created when missing, and `h` is appended to the chosen one. */
  function AppendHandler(m: map<string, Handlers>, name: string, isCapture: bool, h: nat): (r: map<string, Handlers>)
    ensures r.Keys == m.Keys + {name}
    ensures forall k :: k in m && k != name ==> r[k] == m[k]
    ensures var prior := if name in m then m[name] else Handlers([], []);
      && (isCapture ==> r[name] == Handlers(prior.capture + [h], prior.bubble))
      && (!isCapture ==> r[name] == Handlers(prior.capture, prior.bubble + [h]))
  {
    var hs := if name in m then m[name] else Handlers([], []);
    m[name := if isCapture then hs.(capture := hs.capture + [h]) else hs.(bubble := hs.bubble + [h])]
  }

  /** The third argument of `addEventListener`. */
  datatype ListenerOptions = NoOptions | BoolOption(b: bool) | ObjectOption(capture: Value) | OtherOption

  function IsCapture(o: ListenerOptions): bool
  {
    match o
    case BoolOption(b) => b
    case ObjectOption(c) => !Falsy(c)
    case _ => false
  }

  /** `addEventListener(eventName, handler, options)`. Only a string name and a
      function handler are accepted; anything else leaves the target as it is. */
  function AddEventListener(t: Target, eventName: Value, handler: Value, options: ListenerOptions): (r: Target)
    ensures !(eventName.Str? && handler.Fn?) ==> r == t
    ensures eventName.Str? && handler.Fn? ==>
      var name := LowerString(eventName.s);
      && name in r.handlers
      && GetHandles(r, name, IsCapture(options)) ==
         Some((if name in t.handlers then (if IsCapture(options) then t.handlers[name].capture else t.handlers[name].bubble) else []) + [handler.fnId])
      && GetHandles(r, name, !IsCapture(options)) ==
         Some(if name in t.handlers then (if IsCapture(options) then t.handlers[name].bubble else t.handlers[name].capture) else [])
      && (forall k :: k != name ==> GetHandles(r, k, true) == GetHandles(t, k, true) && GetHandles(r, k, false) == GetHandles(t, k, false))
      && r.hasEventBinded
      && (r.hasAppearEventBinded <==> t.hasAppearEventBinded || Contains(name, "appear"))
      && (r.hasTouchEventBinded <==> t.hasTouchEventBinded || Contains(name, "touch"))
      && r.lastEvent == t.lastEvent
  {
    if !eventName.Str? || !handler.Fn? then t
    else
      var name := LowerString(eventName.s);
      t.(handlers := AppendHandler(t.handlers, name, IsCapture(options), handler.fnId),
         hasEventBinded := true,
         hasAppearEventBinded := t.hasAppearEventBinded || Contains(name, "appear"),
         hasTouchEventBinded := t.hasTouchEventBinded || Contains(name, "touch"))
  }

  /** The binding flags only ever go from false to true. */
  lemma AddEventListenerFlagsMonotone(t: Target, eventName: Value, handler: Value, options: ListenerOptions)
    ensures var r := AddEventListener(t, eventName, handler, options);
      (t.hasEventBinded ==> r.hasEventBinded)
      && (t.hasAppearEventBinded ==> r.hasAppearEventBinded)
      && (t.hasTouchEventBinded ==> r.hasTouchEventBinded)
  {
  }

  /** `arr.indexOf(x)`: the first position of `x`, or -1. */
  function IndexOf(s: seq<nat>, x: nat): (r: int)
    ensures -1 <= r < |s|
    ensures r == -1 <==> x !in s
    ensures r >= 0 ==> s[r] == x && forall j :: 0 <= j < r ==> s[j] != x
  {
    if s == [] then -1
    else if s[0] == x then 0
    else
      var k := IndexOf(s[1..], x);
      if k == -1 then -1 else k + 1
  }

  /** `arr.splice(start, 1)` for `-|s| <= start < |s|`: a negative start counts from the end. */
  function SpliceOne(s: seq<nat>, start: int): (r: seq<nat>)
    requires -|s| <= start < |s|
    ensures |r| == |s| - 1
    ensures start >= 0 ==> r == s[..start] + s[start + 1..]
    ensures start < 0 ==> r == s[..|s| + start] + s[|s| + start + 1..]
  {
    var k := if start < 0 then |s| + start else start;
    s[..k] + s[k + 1..]
  }

  /** The chosen list with `h` removed as `splice(indexOf(h), 1)` does. */
  function RemoveFromList(s: seq<nat>, h: nat): (r: seq<nat>)
    requires |s| > 0
    ensures |r| == |s| - 1
    ensures h in s ==> exists i :: 0 <= i < |s| && s[i] == h && h !in s[..i] && r == s[..i] + s[i + 1..]
    ensures h !in s ==> r == s[..|s| - 1]
  {
    var i := IndexOf(s, h);
    var r := SpliceOne(s, i);
    assert h !in s ==> r == s[..|s| - 1] by {
      if h !in s { assert s[|s| - 1 + 1..] == []; }
    }
    r
  }

  function ReplaceList(t: Target, name: string, isCapture: bool, s: seq<nat>): Target
    requires name in t.handlers
  {
    var hs := t.handlers[name];
    t.(handlers := t.handlers[name := if isCapture then hs.(capture := s) else hs.(bubble := s)])
  }

  /** The frame of a removal: every other name keeps both lists, and the
      binding flags and the last native event are kept. */
  ghost predicate RemovalFrame(t: Target, r: Target, name: string)
  {
    && (forall k :: k != name ==> GetHandles(r, k, true) == GetHandles(t, k, true) && GetHandles(r, k, false) == GetHandles(t, k, false))
    && r.hasEventBinded == t.hasEventBinded
    && r.hasAppearEventBinded == t.hasAppearEventBinded
    && r.hasTouchEventBinded == t.hasTouchEventBinded
    && r.lastEvent == t.lastEvent
  }

  /** `removeEventListener(eventName, handler, isCapture)` as written. The
      third argument selects the capture list by its truthiness (an omitted
      one is `Undefined`, the default `false`). On an unknown name or an
      empty list nothing changes; otherwise the first occurrence of the
      handler is removed, or, when the handler is not in the list, `indexOf`
      yields -1 and the last handler is removed. */
  function RemoveEventListenerAsWritten(t: Target, eventName: Value, handler: Value, isCapture: Value): (r: Target)
    ensures !(eventName.Str? && handler.Fn?) ==> r == t
    ensures eventName.Str? && handler.Fn? ==>
      var name := LowerString(eventName.s);
      var before := GetHandles(t, name, !Falsy(isCapture));
      && RemovalFrame(t, r, name)
      && (before.None? || before.value == [] ==> r == t)
      && (before.Some? && before.value != [] ==>
            GetHandles(r, name, !Falsy(isCapture)) == Some(RemoveFromList(before.value, handler.fnId))
            && GetHandles(r, name, Falsy(isCapture)) == GetHandles(t, name, Falsy(isCapture)))
  {
    if !eventName.Str? || !handler.Fn? then t
    else
      var name := LowerString(eventName.s);
      var capture := !Falsy(isCapture);
      match GetHandles(t, name, capture)
      case None => t
      case Some(s) =>
        if |s| == 0 then t
        else ReplaceList(t, name, capture, RemoveFromList(s, handler.fnId))
  }

  /** The evidently intended removal: a handler that is not registered
      leaves the list unchanged. */
  function RemoveEventListener(t: Target, eventName: Value, handler: Value, isCapture: Value): (r: Target)
    ensures !(eventName.Str? && handler.Fn?) ==> r == t
    ensures eventName.Str? && handler.Fn? ==>
      var name := LowerString(eventName.s);
      var before := GetHandles(t, name, !Falsy(isCapture));
      && RemovalFrame(t, r, name)
      && (before.None? || handler.fnId !in before.value ==> r == t)
      && (before.Some? && handler.fnId in before.value ==>
            GetHandles(r, name, !Falsy(isCapture)) == Some(RemoveFromList(before.value, handler.fnId))
            && GetHandles(r, name, Falsy(isCapture)) == GetHandles(t, name, Falsy(isCapture)))
  {
    if !eventName.Str? || !handler.Fn? then t
    else
      var name := LowerString(eventName.s);
      var capture := !Falsy(isCapture);
      match GetHandles(t, name, capture)
      case None => t
      case Some(s) =>
        if handler.fnId !in s then t
        else ReplaceList(t, name, capture, RemoveFromList(s, handler.fnId))
  }

  /** Adding a handler and then removing it restores the list it was added
      to; on a name seen for the first time the entry stays, with that list
      empty. */
  lemma {:induction false} AddThenRemove(t: Target, n: string, h: nat, capture: bool)
    requires LowerString(n) in t.handlers ==> h !in GetHandles(t, LowerString(n), capture).value
    ensures var t2 := RemoveEventListener(AddEventListener(t, Str(n), Fn(h), BoolOption(capture)), Str(n), Fn(h), Bool(capture));
      && (LowerString(n) in t.handlers ==> GetHandles(t2, LowerString(n), capture) == GetHandles(t, LowerString(n), capture))
      && (LowerString(n) !in t.handlers ==> GetHandles(t2, LowerString(n), capture) == Some([]))
  {
    var name := LowerString(n);
    var s := if name in t.handlers then GetHandles(t, name, capture).value else [];
    var t1 := AddEventListener(t, Str(n), Fn(h), BoolOption(capture));
    assert GetHandles(t1, name, capture) == Some(s + [h]);
    AppendedHandlerRemoved(s, h);
    assert !Falsy(Bool(capture)) == capture;
  }

  /** Removing a handler just appended to a list without it gives the list back. */
  lemma AppendedHandlerRemoved(s: seq<nat>, h: nat)
    requires h !in s
    ensures RemoveFromList(s + [h], h) == s
  {
    var r := RemoveFromList(s + [h], h);
    var i :| 0 <= i < |s + [h]| && (s + [h])[i] == h && h !in (s + [h])[..i] && r == (s + [h])[..i] + (s + [h])[i + 1..];
    assert i == |s|;
  }

  /** Removing a handler that was never added removes the last handler
      instead, while the intended removal leaves the list alone. */
  lemma RemoveAbsentHandlerCounterexample()
    ensures var t := AddEventListener(NewTarget(), Str("tap"), Fn(1), NoOptions);
      && GetHandles(RemoveEventListenerAsWritten(t, Str("tap"), Fn(2), Undefined), "tap", false) == Some([])
      && GetHandles(RemoveEventListener(t, Str("tap"), Fn(2), Undefined), "tap", false) == Some([1])
  {
    assert LowerString("tap") == "tap";
    var t := AddEventListener(NewTarget(), Str("tap"), Fn(1), NoOptions);
    assert GetHandles(t, "tap", false) == Some([] + [1]);
    assert [] + [1] == [1];
    assert RemoveFromList([1], 2) == [];
  }
}

=== FILE: js.dfy ===
/** The JavaScript values the modelled code stores and compares, with the
    truthiness rule and the `||` and `'' + v` coercions it relies on.
    Floating-point numbers are modelled by their integer values only. */
module Js {
  import opened Base

  datatype Value =
    | Undefined
    | Null
    | Bool(b: bool)
    | Num(n: int)
    | Str(s: string)
    | Fn(fnId: nat)
    | Obj(objId: nat)

  /** The values that `!v` maps to `true`. */
  predicate Falsy(v: Value)
  {
    v == Undefined || v == Null || v == Bool(false) || v == Num(0) || v == Str("")
  }

  /** `a || b`: the first operand when it is truthy, otherwise the second. */
  function Or(a: Value, b: Value): (r: Value)
    ensures !Falsy(a) ==> r == a
    ensures Falsy(a) ==> r == b
  {
    if Falsy(a) then b else a
  }

  /** `'' + v` for the values above; functions and objects are rendered by
      an opaque tag because their source text is not modelled. */
  function ToStr(v: Value): string
  {
    match v
    case Undefined => "undefined"
    case Null => "null"
    case Bool(b) => if b then "true" else "false"
    case Num(n) => IntToString(n)
    case Str(s) => s
    case Fn(_) => "function"
    case Obj(_) => "[object Object]"
  }
}

=== FILE: list_ast.dfy ===
/** The abstract syntax the list-lowering pass of the JSX compiler reads and
    writes: expressions with their free identifiers, the statements of a map
    callback, the element tree, and the loop wrapper with its record. */
module ListAst {
  import opened Base

  datatype Expr =
    | Ident(name: string)
    | Member(obj: Expr, prop: string)
    | Index(obj: Expr, key: Expr)
    | Call(callee: Expr, args: seq<Expr>)
    | ObjLit(props: seq<Prop>)
      /** Any other expression (literal, operator, conditional, ...), kept
          only as an operator tag and its operand expressions. */
    | Other(op: string, operands: seq<Expr>)

  datatype Prop = Prop(key: string, value: Expr)

  /** A leading statement of a callback body: a `const` declaration or an expression statement. */
  datatype Stmt = Const(name: string, init: Expr) | ExprStmt(e: Expr)

  datatype Node =
    | Element(tag: string, attrs: seq<Attr>, children: seq<Node>)
    | Text(text: string)
      /** `{e}` as a child. */
    | Dyn(e: Expr)
      /** `{source.map(callback)}` as a child. */
    | Loop(source: Expr, callback: Callback)
      /** `{{ path }}` in text position, written by the pass. */
    | Mustache(path: Expr)
      /** The loop wrapper written by the pass. */
    | Block(loop: LoopAttrs, body: Node)

  datatype Attr = Attr(name: string, value: AttrValue)

  datatype AttrValue =
    | Lit(s: string)
    | DynAttr(e: Expr)
      /** `"{{path}}"`, written by the pass. */
    | Bound(path: Expr)

  /** `(params) => { stmts; return ret; }`; a concise body has no statements. */
  datatype Callback = Callback(params: seq<string>, stmts: seq<Stmt>, ret: Node)

  /** The four platform loop attributes: `a:for`, `a:for-item`, `a:for-index`, `a:key`. */
  datatype LoopAttrs = LoopAttrs(forSource: ForSource, forItem: string, forIndex: string, key: string)

  /** The `a:for` value: the whole lowered mapping call on an outermost
      loop, or a path into the enclosing record on a nested one. */
  datatype ForSource = Inline(call: LoweredCall) | Path(e: Expr)

  /** `source.map((item, index) => { stmts; return { record }; })`. */
  datatype LoweredCall = LoweredCall(source: Expr, item: string, index: string, stmts: seq<Stmt>, record: seq<Field>)

  datatype FieldKind = ItemField | KeyField | GenericField | StyleField | LocalField

  datatype Field = Field(name: string, kind: FieldKind, value: FieldValue)

  datatype FieldValue =
    | Plain(e: Expr)
      /** `__create_style__(e)`. */
    | Styled(e: Expr)
      /** A nested loop's lowered mapping call. */
    | Nested(call: LoweredCall)
      /** `{ ...base, prop: call }`. */
    | Spread(base: string, prop: string, call: LoweredCall)

  /** The platform attribute names and the style helper, as the Alipay adapter supplies them. */
  const ForAttr := "a:for"
  const ForItemAttr := "a:for-item"
  const ForIndexAttr := "a:for-index"
  const KeyAttr := "a:key"
  const StyleHelper := "__create_style__"

  /** The literal key attribute value and the record's key field name. */
  const KeyFieldName := "_key"

  /** The item name of a callback that declares no parameter. */
  const DefaultItem := "item"

  function IndexName(n: nat): string { "index" + NatToString(n) }

  function KeyToken(n: nat): string { "_key" + NatToString(n) }

  function GenericName(n: nat): string { "_d" + NatToString(n) }

  function StyleName(n: nat): string { "_s" + NatToString(n) }

  /** The signature the lowered callback is printed with. */
  function Params(call: LoweredCall): (ps: seq<string>)
    ensures |ps| == 2 && ps[0] == call.item && ps[1] == call.index
  {
    [call.item, call.index]
  }

  // ---------------------------------------------------------------------
  // Free identifiers and renaming
  // ---------------------------------------------------------------------

  function FreeVars(e: Expr): set<string>
  {
    match e
    case Ident(x) => {x}
    case Member(o, _) => FreeVars(o)
    case Index(o, k) => FreeVars(o) + FreeVars(k)
    case Call(f, args) => FreeVars(f) + (set i, x | 0 <= i < |args| && x in FreeVars(args[i]) :: x)
    case ObjLit(ps) => set i, x | 0 <= i < |ps| && x in FreeVars(ps[i].value) :: x
    case Other(_, xs) => set i, x | 0 <= i < |xs| && x in FreeVars(xs[i]) :: x
  }

  /** Replaces every reference to `a` by `b`; property names and object keys are not references. */
  function Rename(e: Expr, a: string, b: string): Expr
  {
    match e
    case Ident(x) => if x == a then Ident(b) else e
    case Member(o, p) => Member(Rename(o, a, b), p)
    case Index(o, k) => Index(Rename(o, a, b), Rename(k, a, b))
    case Call(f, args) => Call(Rename(f, a, b), seq(|args|, i requires 0 <= i < |args| => Rename(args[i], a, b)))
    case ObjLit(ps) => ObjLit(seq(|ps|, i requires 0 <= i < |ps| => Prop(ps[i].key, Rename(ps[i].value, a, b))))
    case Other(op, xs) => Other(op, seq(|xs|, i requires 0 <= i < |xs| => Rename(xs[i], a, b)))
  }

  /** The names declared by `const` among the statements. */
  function Locals(stmts: seq<Stmt>): (r: set<string>)
    ensures forall x :: x in r <==> exists i :: 0 <= i < |stmts| && stmts[i].Const? && stmts[i].name == x
  {
    set i | 0 <= i < |stmts| && stmts[i].Const? :: stmts[i].name
  }

  function RenameStmt(s: Stmt, a: string, b: string): Stmt
  {
    match s
    case Const(x, init) => Const(x, Rename(init, a, b))
    case ExprStmt(e) => ExprStmt(Rename(e, a, b))
  }

  function RenameStmts(stmts: seq<Stmt>, a: string, b: string): (r: seq<Stmt>)
    ensures |r| == |stmts|
    ensures forall i :: 0 <= i < |stmts| ==> r[i] == RenameStmt(stmts[i], a, b)
    ensures Locals(r) == Locals(stmts)
  {
    var r := seq(|stmts|, i requires 0 <= i < |stmts| => RenameStmt(stmts[i], a, b));
    assert forall i :: 0 <= i < |stmts| ==> (r[i].Const? <==> stmts[i].Const?) && (r[i].Const? ==> r[i].name == stmts[i].name);
    r
  }

  /** A callback that declares `a` itself hides the outer `a` from renaming. */
  predicate Shadows(cb: Callback, a: string)
  {
    a in cb.params || a in Locals(cb.stmts)
  }

  // ---------------------------------------------------------------------
  // Tree measures
  // ---------------------------------------------------------------------

  function NodeSize(n: Node): nat
  {
    match n
    case Element(_, _, kids) => 1 + ChildrenSize(kids)
    case Loop(_, cb) => 1 + NodeSize(cb.ret)
    case Block(_, body) => 1 + NodeSize(body)
    case _ => 1
  }

  function ChildrenSize(cs: seq<Node>): nat
  {
    if cs == [] then 0 else NodeSize(cs[0]) + ChildrenSize(cs[1..])
  }

  lemma {:induction false} ChildrenSizeAppend(a: seq<Node>, b: seq<Node>)
    ensures ChildrenSize(a + b) == ChildrenSize(a) + ChildrenSize(b)
  {
    if a == [] {
      assert a + b == b;
    } else {
      assert (a + b)[1..] == a[1..] + b;
      ChildrenSizeAppend(a[1..], b);
    }
  }

  /** A callback the pass lowers: at most two parameters. */
  predicate Matches(cb: Callback)
  {
    |cb.params| <= 2
  }

  /** The number of loop sites in a tree: every matching `Loop`, and those
      in its callback's result. */
  function Sites(n: Node): nat
  {
    match n
    case Element(_, _, kids) => ChildrenSites(kids)
    case Loop(_, cb) => if Matches(cb) then 1 + Sites(cb.ret) else 0
    case _ => 0
  }

  function ChildrenSites(cs: seq<Node>): nat
  {
    if cs == [] then 0 else Sites(cs[0]) + ChildrenSites(cs[1..])
  }

  /** A tree as the parser delivers it: none of the forms the pass writes. */
  predicate IsSource(n: Node)
  {
    match n
    case Element(_, attrs, kids) =>
      (forall i :: 0 <= i < |attrs| ==> !attrs[i].value.Bound?)
      && forall i :: 0 <= i < |kids| ==> IsSource(kids[i])
    case Loop(_, cb) => IsSource(cb.ret)
    case Mustache(_) => false
    case Block(_, _) => false
    case _ => true
  }

  /** Renames `a` to `b` throughout a source tree, except inside a callback
      that declares its own `a`. */
  function RenameNode(n: Node, a: string, b: string): (r: Node)
    ensures NodeSize(r) == NodeSize(n)
    ensures Sites(r) == Sites(n)
    ensures IsSource(n) ==> IsSource(r)
    decreases NodeSize(n), 1
  {
    match n
    case Element(tag, attrs, kids) =>
      Element(tag, seq(|attrs|, i requires 0 <= i < |attrs| => RenameAttr(attrs[i], a, b)), RenameChildren(kids, a, b))
    case Dyn(e) => Dyn(Rename(e, a, b))
    case Loop(src, cb) =>
      Loop(Rename(src, a, b),
           if Shadows(cb, a) then cb
           else Callback(cb.params, RenameStmts(cb.stmts, a, b), RenameNode(cb.ret, a, b)))
    case _ => n
  }

  function RenameChildren(cs: seq<Node>, a: string, b: string): (r: seq<Node>)
    ensures |r| == |cs|
    ensures ChildrenSize(r) == ChildrenSize(cs)
    ensures ChildrenSites(r) == ChildrenSites(cs)
    ensures (forall i :: 0 <= i < |cs| ==> IsSource(cs[i])) ==> forall i :: 0 <= i < |r| ==> IsSource(r[i])
    decreases ChildrenSize(cs), 2
  {
    if cs == [] then []
    else
      var r := [RenameNode(cs[0], a, b)] + RenameChildren(cs[1..], a, b);
      assert r[1..] == RenameChildren(cs[1..], a, b);
      r
  }

  function RenameAttr(at: Attr, a: string, b: string): (r: Attr)
    ensures r.name == at.name
    ensures r.value.Bound? <==> at.value.Bound?
  {
    match at.value
    case DynAttr(e) => Attr(at.name, DynAttr(Rename(e, a, b)))
    case _ => at
  }

  /** Renames the callback's own index parameter `a` to `b` in its body. */
  function RenameCallback(cb: Callback, a: string, b: string): (r: Callback)
    ensures r.params == cb.params
    ensures |r.stmts| == |cb.stmts| && Locals(r.stmts) == Locals(cb.stmts)
    ensures NodeSize(r.ret) == NodeSize(cb.ret)
    ensures Sites(r.ret) == Sites(cb.ret)
    ensures IsSource(cb.ret) ==> IsSource(r.ret)
  {
    Callback(cb.params, RenameStmts(cb.stmts, a, b), RenameNode(cb.ret, a, b))
  }
}

=== FILE: list_lower.dfy ===
/** The list-lowering pass of the JSX compiler (`_transformList`): every
    `source.map(callback)` child becomes a `<block>` wrapper whose `a:for`
    is a rewritten mapping call returning one record per item; each leaf of
    the returned template that depends on the loop is moved into a record
    field and read back through the item binding.

    Sites are numbered by one counter threaded through the whole tree in
    pre-order: site `n` owns the index name `index<n>` and the key token
    `_key<n>`, and an outer site is numbered before the sites in its body. */
module ListLower {
  import opened Base
  import opened ListAst

  /** The names a site binds: its item, its canonical index and its `const` locals. */
  datatype Scope = Scope(item: string, index: string, locals: set<string>)

  /** The record under construction: the site counter, the fields after
      `item` and `_key`, the next `_d` and `_s` numbers, and the value of
      the item field, which a nested loop over the item replaces. */
  datatype Acc = Acc(counter: nat, fields: seq<Field>, d: nat, s: nat, itemValue: FieldValue)

  datatype Out<T> = Out(v: T, acc: Acc)

  /** One lowered site: the rewritten mapping call, the rewritten template
      body, and the counter after the site and every site inside it. */
  datatype Site = Site(call: LoweredCall, body: Node, next: nat)

  datatype Lowered<T> = Lowered(v: T, next: nat)

  function BoundNames(sc: Scope): (r: set<string>)
    ensures sc.item in r && sc.index in r && sc.locals <= r
    ensures forall x :: x in r ==> x == sc.item || x == sc.index || x in sc.locals
  {
    {sc.item, sc.index} + sc.locals
  }

  /** An expression depends on the loop when it mentions a name the site binds. */
  predicate Depends(e: Expr, sc: Scope)
  {
    FreeVars(e) * BoundNames(sc) != {}
  }

  // ---------------------------------------------------------------------
  // Field numbering
  // ---------------------------------------------------------------------

  function CountKind(fs: seq<Field>, k: FieldKind): (r: nat)
    ensures r <= |fs|
  {
    if fs == [] then 0
    else CountKind(fs[..|fs| - 1], k) + (if fs[|fs| - 1].kind == k then 1 else 0)
  }

  /** The `i`-th generic field is `_d<i>` and the `i`-th style field is `_s<i>`. */
  predicate Numbered(fs: seq<Field>)
  {
    forall i :: 0 <= i < |fs| ==>
      (fs[i].kind == GenericField ==> fs[i].name == GenericName(CountKind(fs[..i], GenericField)))
      && (fs[i].kind == StyleField ==> fs[i].name == StyleName(CountKind(fs[..i], StyleField)))
  }

  /** The accumulator agrees with its fields: the next numbers are the
      counts so far, the numbering is consecutive, and no field is an item
      or key field. */
  predicate Good(acc: Acc)
  {
    acc.d == CountKind(acc.fields, GenericField)
    && acc.s == CountKind(acc.fields, StyleField)
    && Numbered(acc.fields)
    && forall i :: 0 <= i < |acc.fields| ==> acc.fields[i].kind != ItemField && acc.fields[i].kind != KeyField
  }

  lemma CountAppend(fs: seq<Field>, f: Field, k: FieldKind)
    ensures CountKind(fs + [f], k) == CountKind(fs, k) + (if f.kind == k then 1 else 0)
  {
    assert (fs + [f])[..|fs|] == fs;
  }

  lemma NumberedAppend(fs: seq<Field>, f: Field)
    ensures Numbered(fs)
      && (f.kind == GenericField ==> f.name == GenericName(CountKind(fs, GenericField)))
      && (f.kind == StyleField ==> f.name == StyleName(CountKind(fs, StyleField)))
      ==> Numbered(fs + [f])
  {
    if Numbered(fs)
      && (f.kind == GenericField ==> f.name == GenericName(CountKind(fs, GenericField)))
      && (f.kind == StyleField ==> f.name == StyleName(CountKind(fs, StyleField)))
    {
      var gs := fs + [f];
      forall i | 0 <= i < |gs|
        ensures (gs[i].kind == GenericField ==> gs[i].name == GenericName(CountKind(gs[..i], GenericField)))
          && (gs[i].kind == StyleField ==> gs[i].name == StyleName(CountKind(gs[..i], StyleField)))
      {
        if i < |fs| {
          assert gs[..i] == fs[..i];
        } else {
          assert gs[..i] == fs;
        }
      }
    }
  }

  /** Appends `f` to the record, keeping the accumulator consistent. */
  function Push(acc: Acc, f: Field): (r: Acc)
    requires f.kind == GenericField || f.kind == StyleField || f.kind == LocalField
    requires f.kind == GenericField ==> f.name == GenericName(acc.d)
    requires f.kind == StyleField ==> f.name == StyleName(acc.s)
    ensures r.fields == acc.fields + [f]
    ensures r.counter == acc.counter && r.itemValue == acc.itemValue
    ensures Good(acc) ==> Good(r)
  {
    CountAppend(acc.fields, f, GenericField);
    CountAppend(acc.fields, f, StyleField);
    NumberedAppend(acc.fields, f);
    acc.(fields := acc.fields + [f],
         d := if f.kind == GenericField then acc.d + 1 else acc.d,
         s := if f.kind == StyleField then acc.s + 1 else acc.s)
  }

  /** The next generic field `_d<d>`, holding `v`. */
  function AddGeneric(acc: Acc, v: FieldValue): (r: Acc)
    ensures r.fields == acc.fields + [Field(GenericName(acc.d), GenericField, v)]
    ensures r.counter == acc.counter && r.itemValue == acc.itemValue
    ensures Good(acc) ==> Good(r)
  {
    Push(acc, Field(GenericName(acc.d), GenericField, v))
  }

  /** `item.<name>`: how the template reads a field of the record. */
  function ItemRead(sc: Scope, name: string): Expr
  {
    Member(Ident(sc.item), name)
  }

  /** The `<block>` wrapper of a lowered site. */
  function Wrapper(source: ForSource, call: LoweredCall, body: Node): (r: Node)
    ensures r.Block? && r.loop.forItem == call.item && r.loop.forIndex == call.index
    ensures r.loop.key == KeyFieldName && r.body == body
  {
    Block(LoopAttrs(source, call.item, call.index, KeyFieldName), body)
  }

  // ---------------------------------------------------------------------
  // Rewriting the body of one site
  // ---------------------------------------------------------------------

  /** A dynamic attribute: a dependent `style` value goes to the next `_s`
      field as `__create_style__(e)`; the bare item is read as `item.item`
      without a field; any other dependent value goes to the next `_d`
      field; an independent value is left as it is. */
  function RewriteAttr(at: Attr, sc: Scope, acc: Acc): (r: Out<Attr>)
    ensures r.v.name == at.name
    ensures r.acc.counter == acc.counter && r.acc.itemValue == acc.itemValue
    ensures acc.fields <= r.acc.fields
    ensures Good(acc) ==> Good(r.acc)
  {
    match at.value
    case DynAttr(e) =>
      if at.name == "style" && Depends(e, sc) then
        Out(Attr(at.name, Bound(ItemRead(sc, StyleName(acc.s)))), Push(acc, Field(StyleName(acc.s), StyleField, Styled(e))))
      else if e == Ident(sc.item) then
        Out(Attr(at.name, Bound(ItemRead(sc, sc.item))), acc)
      else if Depends(e, sc) then
        Out(Attr(at.name, Bound(ItemRead(sc, GenericName(acc.d)))), AddGeneric(acc, Plain(e)))
      else
        Out(at, acc)
    case _ => Out(at, acc)
  }

  function RewriteAttrs(attrs: seq<Attr>, sc: Scope, acc: Acc): (r: Out<seq<Attr>>)
    ensures |r.v| == |attrs|
    ensures forall i :: 0 <= i < |attrs| ==> r.v[i].name == attrs[i].name
    ensures r.acc.counter == acc.counter && r.acc.itemValue == acc.itemValue
    ensures acc.fields <= r.acc.fields
    ensures Good(acc) ==> Good(r.acc)
  {
    if attrs == [] then Out([], acc)
    else
      var h := RewriteAttr(attrs[0], sc, acc);
      var t := RewriteAttrs(attrs[1..], sc, h.acc);
      Out([h.v] + t.v, t.acc)
  }

  /** Rewrites a node of a site's body. A nested loop over the item, or over
      a property of it, replaces the item field's value; one over a local
      gets a field named after the local; any other gets the next `_d`
      field; each is wrapped in a `<block>` that loops over the path the
      template reads it from. */
  function RewriteNode(n: Node, sc: Scope, acc: Acc): (r: Out<Node>)
    ensures r.acc.counter == acc.counter + Sites(n)
    ensures acc.fields <= r.acc.fields
    ensures Good(acc) ==> Good(r.acc)
    decreases NodeSize(n), 1
  {
    match n
    case Element(tag, attrs, kids) =>
      var a := RewriteAttrs(attrs, sc, acc);
      var k := RewriteChildren(kids, sc, a.acc);
      Out(Element(tag, a.v, k.v), k.acc)
    case Dyn(e) =>
      if e == Ident(sc.item) then
        Out(Mustache(ItemRead(sc, sc.item)), acc)
      else if Depends(e, sc) then
        Out(Mustache(ItemRead(sc, GenericName(acc.d))), AddGeneric(acc, Plain(e)))
      else
        Out(n, acc)
    case Loop(src, cb) =>
      if Matches(cb) then
        var site := LowerSite(src, cb, acc.counter);
        var acc1 := acc.(counter := site.next);
        if src == Ident(sc.item) then
          Out(Wrapper(Path(src), site.call, site.body), acc1.(itemValue := Nested(site.call)))
        else if src.Member? && src.obj == Ident(sc.item) then
          Out(Wrapper(Path(src), site.call, site.body), acc1.(itemValue := Spread(sc.item, src.prop, site.call)))
        else if src.Ident? && src.name in sc.locals then
          Out(Wrapper(Path(src), site.call, site.body), Push(acc1, Field(src.name, LocalField, Nested(site.call))))
        else
          Out(Wrapper(Path(Ident(GenericName(acc.d))), site.call, site.body), AddGeneric(acc1, Nested(site.call)))
      else
        Out(n, acc)
    case _ => Out(n, acc)
  }

  function RewriteChildren(kids: seq<Node>, sc: Scope, acc: Acc): (r: Out<seq<Node>>)
    ensures |r.v| == |kids|
    ensures r.acc.counter == acc.counter + ChildrenSites(kids)
    ensures acc.fields <= r.acc.fields
    ensures Good(acc) ==> Good(r.acc)
    decreases ChildrenSize(kids), 2
  {
    if kids == [] then Out([], acc)
    else
      var h := RewriteNode(kids[0], sc, acc);
      var t := RewriteChildren(kids[1..], sc, h.acc);
      Out([h.v] + t.v, t.acc)
  }

  /** The item name of a lowered callback: its first parameter, or `item`. */
  function ItemName(cb: Callback): string
  {
    if |cb.params| >= 1 then cb.params[0] else DefaultItem
  }

  /** The callback with its own index parameter renamed to `index`. */
  function Canonical(cb: Callback, index: string): (r: Callback)
    ensures NodeSize(r.ret) == NodeSize(cb.ret) && Sites(r.ret) == Sites(cb.ret)
    ensures IsSource(cb.ret) ==> IsSource(r.ret)
  {
    if |cb.params| == 2 then RenameCallback(cb, cb.params[1], index) else cb
  }

  /** The scope of site `n` for callback `cb`. */
  function SiteScope(cb: Callback, n: nat): Scope
  {
    Scope(ItemName(cb), IndexName(n), Locals(Canonical(cb, IndexName(n)).stmts))
  }

  /** The record's names: the item, `_key`, and every other field. */
  function RecordNames(record: seq<Field>): (r: set<string>)
    ensures forall i :: 0 <= i < |record| ==> record[i].name in r
  {
    set i | 0 <= i < |record| :: record[i].name
  }

  /** Lowers the site `source.map(cb)` numbered `n`. The lowered callback
      takes `(item, index<n>)`; its statements are the source statements
      with the index parameter renamed; its record is the item field, then
      `_key: _key<n>`, then the fields the body's leaves and nested loops
      asked for, with `_d` and `_s` each numbered from zero in order. */
  function LowerSite(src: Expr, cb: Callback, n: nat): (r: Site)
    requires Matches(cb)
    ensures r.call.source == src
    ensures r.call.item == (if |cb.params| >= 1 then cb.params[0] else DefaultItem)
    ensures r.call.index == IndexName(n)
    ensures |cb.params| == 2 ==> r.call.stmts == RenameStmts(cb.stmts, cb.params[1], IndexName(n))
    ensures |cb.params| < 2 ==> r.call.stmts == cb.stmts
    ensures |r.call.record| >= 2
    ensures r.call.record[0].name == r.call.item && r.call.record[0].kind == ItemField
    ensures r.call.record[1] == Field(KeyFieldName, KeyField, Plain(Ident(KeyToken(n))))
    ensures forall i :: 2 <= i < |r.call.record| ==>
      r.call.record[i].kind != ItemField && r.call.record[i].kind != KeyField
    ensures Numbered(r.call.record)
    ensures r.next == n + 1 + Sites(cb.ret)
    decreases NodeSize(cb.ret), 3
  {
    var item := ItemName(cb);
    var body := Canonical(cb, IndexName(n));
    var sc := SiteScope(cb, n);
    var out := RewriteNode(body.ret, sc, Acc(n + 1, [], 0, 0, Plain(Ident(item))));
    var head := [Field(item, ItemField, out.acc.itemValue), Field(KeyFieldName, KeyField, Plain(Ident(KeyToken(n))))];
    NumberedPrefix(head, out.acc.fields);
    Site(LoweredCall(src, item, IndexName(n), body.stmts, head + out.acc.fields), out.v, out.acc.counter)
  }

  /** Item and key fields in front of a numbered list keep it numbered. */
  lemma NumberedPrefix(head: seq<Field>, fs: seq<Field>)
    requires forall i :: 0 <= i < |head| ==> head[i].kind == ItemField || head[i].kind == KeyField
    ensures Numbered(fs) ==> Numbered(head + fs)
  {
    if Numbered(fs) {
      var gs := head + fs;
      forall k: FieldKind, j | 0 <= j <= |fs| && (k == GenericField || k == StyleField)
        ensures CountKind(gs[..|head| + j], k) == CountKind(fs[..j], k)
      {
        CountPrefix(head, fs, j, k);
      }
      forall i | 0 <= i < |gs|
        ensures (gs[i].kind == GenericField ==> gs[i].name == GenericName(CountKind(gs[..i], GenericField)))
          && (gs[i].kind == StyleField ==> gs[i].name == StyleName(CountKind(gs[..i], StyleField)))
      {
        if i >= |head| {
          assert gs[i] == fs[i - |head|];
          CountPrefix(head, fs, i - |head|, GenericField);
          CountPrefix(head, fs, i - |head|, StyleField);
        }
      }
    }
  }

  lemma {:induction false} CountPrefix(head: seq<Field>, fs: seq<Field>, j: nat, k: FieldKind)
    requires j <= |fs|
    requires forall i :: 0 <= i < |head| ==> head[i].kind == ItemField || head[i].kind == KeyField
    requires k == GenericField || k == StyleField
    ensures CountKind((head + fs)[..|head| + j], k) == CountKind(fs[..j], k)
  {
    if j == 0 {
      assert (head + fs)[..|head|] == head;
      CountHead(head, k);
    } else {
      CountPrefix(head, fs, j - 1, k);
      assert (head + fs)[..|head| + j][..|head| + j - 1] == (head + fs)[..|head| + j - 1];
      assert fs[..j][..j - 1] == fs[..j - 1];
    }
  }

  lemma {:induction false} CountHead(head: seq<Field>, k: FieldKind)
    requires forall i :: 0 <= i < |head| ==> head[i].kind == ItemField || head[i].kind == KeyField
    requires k == GenericField || k == StyleField
    ensures CountKind(head, k) == 0
  {
    if head != [] {
      CountHead(head[..|head| - 1], k);
    }
  }

  // ---------------------------------------------------------------------
  // The whole template
  // ---------------------------------------------------------------------

  /** Lowers every outermost site of a template, numbering from `c`; each
      becomes a `<block>` whose `a:for` is the lowered mapping call itself. */
  function Transform(n: Node, c: nat): (r: Lowered<Node>)
    ensures r.next == c + Sites(n)
    ensures Sites(r.v) == 0
    decreases NodeSize(n), 1
  {
    match n
    case Element(tag, attrs, kids) =>
      var k := TransformChildren(kids, c);
      Lowered(Element(tag, attrs, k.v), k.next)
    case Loop(src, cb) =>
      if Matches(cb) then
        var site := LowerSite(src, cb, c);
        Lowered(Wrapper(Inline(site.call), site.call, site.body), site.next)
      else
        Lowered(n, c)
    case _ => Lowered(n, c)
  }

  function TransformChildren(kids: seq<Node>, c: nat): (r: Lowered<seq<Node>>)
    ensures |r.v| == |kids|
    ensures r.next == c + ChildrenSites(kids)
    ensures ChildrenSites(r.v) == 0
    decreases ChildrenSize(kids), 2
  {
    if kids == [] then Lowered([], c)
    else
      var h := Transform(kids[0], c);
      var t := TransformChildren(kids[1..], h.next);
      var r := [h.v] + t.v;
      assert r[0] == h.v && r[1..] == t.v;
      Lowered(r, t.next)
  }
}

=== FILE: list_props.dfy ===
/** Properties of the list-lowering pass: renaming the index parameter is
    complete and reversible, a lowered body reads the loop only through the
    fields of the record its loop builds, leaves that do not depend on the
    loop are left alone, and lowering a lowered template changes nothing. */
module ListProps {
  import opened Base
  import opened ListAst
  import opened ListLower

  // ---------------------------------------------------------------------
  // Renaming
  // ---------------------------------------------------------------------

  /** After renaming `a` to a different `b`, no reference to `a` is left. */
  lemma {:induction false} RenameRemovesName(e: Expr, a: string, b: string)
    requires a != b
    ensures a !in FreeVars(Rename(e, a, b))
    decreases e
  {
    match e
    case Ident(x) =>
    case Member(o, _) =>
      RenameRemovesName(o, a, b);
    case Index(o, k) =>
      RenameRemovesName(o, a, b);
      RenameRemovesName(k, a, b);
    case Call(f, args) =>
      RenameRemovesName(f, a, b);
      var rs := seq(|args|, i requires 0 <= i < |args| => Rename(args[i], a, b));
      forall i | 0 <= i < |args| ensures a !in FreeVars(rs[i]) {
        RenameRemovesName(args[i], a, b);
      }
      assert Rename(e, a, b) == Call(Rename(f, a, b), rs);
    case ObjLit(ps) =>
      var rs := seq(|ps|, i requires 0 <= i < |ps| => Prop(ps[i].key, Rename(ps[i].value, a, b)));
      forall i | 0 <= i < |ps| ensures a !in FreeVars(rs[i].value) {
        RenameRemovesName(ps[i].value, a, b);
      }
      assert Rename(e, a, b) == ObjLit(rs);
    case Other(op, xs) =>
      var rs := seq(|xs|, i requires 0 <= i < |xs| => Rename(xs[i], a, b));
      forall i | 0 <= i < |xs| ensures a !in FreeVars(rs[i]) {
        RenameRemovesName(xs[i], a, b);
      }
      assert Rename(e, a, b) == Other(op, rs);
  }

  /** Renaming to a name the expression does not mention can be undone. */
  lemma {:induction false} RenameRoundTrip(e: Expr, a: string, b: string)
    requires b !in FreeVars(e)
    ensures Rename(Rename(e, a, b), b, a) == e
    decreases e
  {
    match e
    case Ident(x) =>
    case Member(o, _) =>
      RenameRoundTrip(o, a, b);
    case Index(o, k) =>
      RenameRoundTrip(o, a, b);
      RenameRoundTrip(k, a, b);
    case Call(f, args) =>
      RenameRoundTrip(f, a, b);
      var rs := seq(|args|, i requires 0 <= i < |args| => Rename(args[i], a, b));
      var back := seq(|rs|, i requires 0 <= i < |rs| => Rename(rs[i], b, a));
      forall i | 0 <= i < |args| ensures back[i] == args[i] {
        assert b !in FreeVars(args[i]);
        RenameRoundTrip(args[i], a, b);
      }
      assert back == args;
    case ObjLit(ps) =>
      var rs := seq(|ps|, i requires 0 <= i < |ps| => Prop(ps[i].key, Rename(ps[i].value, a, b)));
      var back := seq(|rs|, i requires 0 <= i < |rs| => Prop(rs[i].key, Rename(rs[i].value, b, a)));
      forall i | 0 <= i < |ps| ensures back[i] == ps[i] {
        assert b !in FreeVars(ps[i].value);
        RenameRoundTrip(ps[i].value, a, b);
      }
      assert back == ps;
    case Other(op, xs) =>
      var rs := seq(|xs|, i requires 0 <= i < |xs| => Rename(xs[i], a, b));
      var back := seq(|rs|, i requires 0 <= i < |rs| => Rename(rs[i], b, a));
      forall i | 0 <= i < |xs| ensures back[i] == xs[i] {
        assert b !in FreeVars(xs[i]);
        RenameRoundTrip(xs[i], a, b);
      }
      assert back == xs;
  }

  /** A lowered callback's statements no longer mention the source index
      parameter, unless the parameter already had the canonical name. */
  lemma LoweredStatementsUseCanonicalIndex(src: Expr, cb: Callback, n: nat, i: nat)
    requires Matches(cb) && |cb.params| == 2 && cb.params[1] != IndexName(n)
    requires i < |cb.stmts|
    ensures i < |LowerSite(src, cb, n).call.stmts|
    ensures cb.params[1] !in FreeVars(StmtExpr(LowerSite(src, cb, n).call.stmts[i]))
  {
    var s := cb.stmts[i];
    match s
    case Const(_, init) => RenameRemovesName(init, cb.params[1], IndexName(n));
    case ExprStmt(e) => RenameRemovesName(e, cb.params[1], IndexName(n));
  }

  /** The expression a statement evaluates. */
  function StmtExpr(s: Stmt): Expr
  {
    match s
    case Const(_, init) => init
    case ExprStmt(e) => e
  }

  /** `a` occurs free in a tree: in a dynamic attribute or child, in a
      loop's source, or in the statements or result of a callback that does
      not declare its own `a`. (The forms the pass writes carry no source
      expression of their own.) */
  predicate Mentions(n: Node, a: string)
  {
    match n
    case Element(_, attrs, kids) =>
      (exists i :: 0 <= i < |attrs| && attrs[i].value.DynAttr? && a in FreeVars(attrs[i].value.e))
      || (exists i :: 0 <= i < |kids| && Mentions(kids[i], a))
    case Dyn(e) => a in FreeVars(e)
    case Loop(src, cb) =>
      a in FreeVars(src) || (!Shadows(cb, a) && (StmtsMention(cb.stmts, a) || Mentions(cb.ret, a)))
    case _ => false
  }

  predicate StmtsMention(stmts: seq<Stmt>, a: string)
  {
    exists i :: 0 <= i < |stmts| && a in FreeVars(StmtExpr(stmts[i]))
  }

  lemma {:induction false} RenameChildrenAt(cs: seq<Node>, a: string, b: string, i: nat)
    requires i < |cs|
    ensures RenameChildren(cs, a, b)[i] == RenameNode(cs[i], a, b)
    decreases i
  {
    if i > 0 {
      RenameChildrenAt(cs[1..], a, b, i - 1);
    }
  }

  /** Renaming the statements removes `a` from every one of them. */
  lemma RenameStmtsRemovesName(stmts: seq<Stmt>, a: string, b: string)
    requires a != b
    ensures !StmtsMention(RenameStmts(stmts, a, b), a)
  {
    var r := RenameStmts(stmts, a, b);
    forall i | 0 <= i < |r| ensures a !in FreeVars(StmtExpr(r[i])) {
      match stmts[i]
      case Const(_, init) => RenameRemovesName(init, a, b);
      case ExprStmt(e) => RenameRemovesName(e, a, b);
    }
  }

  /** After renaming `a` to a different `b` throughout a tree, `a` is left
      only inside callbacks that declare their own `a`. */
  lemma {:induction false} RenameNodeRemovesName(n: Node, a: string, b: string)
    requires a != b
    ensures !Mentions(RenameNode(n, a, b), a)
    decreases n
  {
    var r := RenameNode(n, a, b);
    match n
    case Element(tag, attrs, kids) =>
      forall i | 0 <= i < |r.attrs| && r.attrs[i].value.DynAttr?
        ensures a !in FreeVars(r.attrs[i].value.e)
      {
        RenameRemovesName(attrs[i].value.e, a, b);
      }
      forall i | 0 <= i < |r.children| ensures !Mentions(r.children[i], a) {
        RenameChildrenAt(kids, a, b, i);
        RenameNodeRemovesName(kids[i], a, b);
      }
    case Dyn(e) =>
      RenameRemovesName(e, a, b);
    case Loop(src, cb) =>
      RenameRemovesName(src, a, b);
      if !Shadows(cb, a) {
        RenameStmtsRemovesName(cb.stmts, a, b);
        RenameNodeRemovesName(cb.ret, a, b);
      }
    case _ =>
  }

  /** A callback whose index `a` is renamed to a different `b` no longer
      mentions `a` in its statements or its result, outside inner callbacks
      that declare their own `a`. */
  lemma RenameCallbackRemovesIndex(cb: Callback, a: string, b: string)
    requires a != b
    ensures !StmtsMention(RenameCallback(cb, a, b).stmts, a)
    ensures !Mentions(RenameCallback(cb, a, b).ret, a)
  {
    RenameStmtsRemovesName(cb.stmts, a, b);
    RenameNodeRemovesName(cb.ret, a, b);
  }

  /** The canonical form of a two-parameter callback no longer mentions its
      source index name, unless that name already was the canonical one. */
  lemma CanonicalRemovesSourceIndex(cb: Callback, index: string)
    requires |cb.params| == 2 && cb.params[1] != index
    ensures Canonical(cb, index).params == cb.params
    ensures !StmtsMention(Canonical(cb, index).stmts, cb.params[1])
    ensures !Mentions(Canonical(cb, index).ret, cb.params[1])
  {
    RenameCallbackRemovesIndex(cb, cb.params[1], index);
  }

  // ---------------------------------------------------------------------
  // A lowered body reads only record fields
  // ---------------------------------------------------------------------

  /** `p` is `item.f` for a field name `f` of the record. */
  predicate ReadsField(p: Expr, sc: Scope, names: set<string>)
  {
    p.Member? && p.obj == Ident(sc.item) && p.prop in names
  }

  predicate AttrResolved(at: Attr, sc: Scope, names: set<string>)
  {
    match at.value
    case Lit(_) => true
    case DynAttr(e) => !Depends(e, sc)
    case Bound(p) => ReadsField(p, sc, names)
  }

  /** Every read of the loop in the template goes through a record field:
      dynamic leaves left in place do not depend on the loop, every bound
      leaf reads `item.f` for a field `f`, every nested wrapper loops over a
      field or a property of the item, and the only loop left unlowered is
      one the pass does not match. */
  predicate Resolved(n: Node, sc: Scope, names: set<string>)
  {
    match n
    case Element(_, attrs, kids) =>
      AllAttrsResolved(attrs, sc, names) && forall i :: 0 <= i < |kids| ==> Resolved(kids[i], sc, names)
    case Text(_) => true
    case Dyn(e) => !Depends(e, sc)
    case Mustache(p) => ReadsField(p, sc, names)
    case Loop(_, cb) => !Matches(cb)
    case Block(loop, _) =>
      loop.forSource.Path?
      && ((loop.forSource.e.Ident? && loop.forSource.e.name in names)
          || (loop.forSource.e.Member? && loop.forSource.e.obj == Ident(sc.item)))
  }

  predicate AllAttrsResolved(attrs: seq<Attr>, sc: Scope, names: set<string>)
  {
    forall i :: 0 <= i < |attrs| ==> AttrResolved(attrs[i], sc, names)
  }

  predicate AllResolved(kids: seq<Node>, sc: Scope, names: set<string>)
  {
    forall i :: 0 <= i < |kids| ==> Resolved(kids[i], sc, names)
  }

  lemma ResolvedMono(n: Node, sc: Scope, names: set<string>, more: set<string>)
    requires Resolved(n, sc, names) && names <= more
    ensures Resolved(n, sc, more)
  {
    match n
    case Element(_, attrs, kids) =>
      forall i | 0 <= i < |kids| ensures Resolved(kids[i], sc, more) {
        ResolvedMono(kids[i], sc, names, more);
      }
    case _ =>
  }

  /** The names a body under construction may read: the item, `_key`, and the fields so far. */
  function Names(sc: Scope, acc: Acc): (r: set<string>)
    ensures sc.item in r && KeyFieldName in r
  {
    {sc.item, KeyFieldName} + RecordNames(acc.fields)
  }

  lemma NamesGrow(sc: Scope, acc: Acc, acc2: Acc)
    requires acc.fields <= acc2.fields
    ensures Names(sc, acc) <= Names(sc, acc2)
  {
    forall x | x in RecordNames(acc.fields) ensures x in RecordNames(acc2.fields) {
      var i :| 0 <= i < |acc.fields| && acc.fields[i].name == x;
      assert acc2.fields[i] == acc.fields[i];
    }
  }

  lemma AttrResolvedMono(at: Attr, sc: Scope, names: set<string>, more: set<string>)
    requires AttrResolved(at, sc, names) && names <= more
    ensures AttrResolved(at, sc, more)
  {
  }

  /** The field a push adds is among the names afterwards. */
  lemma PushedNameIsKnown(sc: Scope, acc: Acc, acc2: Acc, name: string)
    requires |acc2.fields| == |acc.fields| + 1 && acc2.fields[|acc.fields|].name == name
    ensures name in Names(sc, acc2)
  {
    assert acc2.fields[|acc.fields|].name in RecordNames(acc2.fields);
  }

  lemma RewriteAttrResolved(at: Attr, sc: Scope, acc: Acc)
    requires !at.value.Bound?
    ensures AttrResolved(RewriteAttr(at, sc, acc).v, sc, Names(sc, RewriteAttr(at, sc, acc).acc))
  {
    var h := RewriteAttr(at, sc, acc);
    match at.value
    case DynAttr(e) =>
      if at.name == "style" && Depends(e, sc) {
        PushedNameIsKnown(sc, acc, h.acc, StyleName(acc.s));
      } else if e == Ident(sc.item) {
      } else if Depends(e, sc) {
        PushedNameIsKnown(sc, acc, h.acc, GenericName(acc.d));
      }
    case Lit(_) =>
  }

  lemma {:induction false} RewriteAttrsResolved(attrs: seq<Attr>, sc: Scope, acc: Acc)
    requires forall i :: 0 <= i < |attrs| ==> !attrs[i].value.Bound?
    ensures AllAttrsResolved(RewriteAttrs(attrs, sc, acc).v, sc, Names(sc, RewriteAttrs(attrs, sc, acc).acc))
    decreases |attrs|
  {
    if attrs != [] {
      var h := RewriteAttr(attrs[0], sc, acc);
      var t := RewriteAttrs(attrs[1..], sc, h.acc);
      RewriteAttrResolved(attrs[0], sc, acc);
      RewriteAttrsResolved(attrs[1..], sc, h.acc);
      NamesGrow(sc, h.acc, t.acc);
      AttrResolvedMono(h.v, sc, Names(sc, h.acc), Names(sc, t.acc));
      var r := RewriteAttrs(attrs, sc, acc);
      assert r.v == [h.v] + t.v && r.acc == t.acc;
      forall i | 0 <= i < |r.v| ensures AttrResolved(r.v[i], sc, Names(sc, r.acc)) {
        if i == 0 {
          assert r.v[0] == h.v;
        } else {
          assert r.v[i] == t.v[i - 1];
          assert AttrResolved(t.v[i - 1], sc, Names(sc, t.acc));
        }
      }
    }
  }

  /** The rewritten body of a source node reads the loop only through record fields. */
  lemma {:induction false} RewriteResolved(n: Node, sc: Scope, acc: Acc)
    requires IsSource(n)
    ensures Resolved(RewriteNode(n, sc, acc).v, sc, Names(sc, RewriteNode(n, sc, acc).acc))
    decreases NodeSize(n), 1
  {
    var r := RewriteNode(n, sc, acc);
    match n
    case Element(tag, attrs, kids) =>
      var a := RewriteAttrs(attrs, sc, acc);
      var k := RewriteChildren(kids, sc, a.acc);
      RewriteAttrsResolved(attrs, sc, acc);
      RewriteChildrenResolved(kids, sc, a.acc);
      NamesGrow(sc, a.acc, k.acc);
      assert r.v == Element(tag, a.v, k.v) && r.acc == k.acc;
      forall i | 0 <= i < |a.v| ensures AttrResolved(a.v[i], sc, Names(sc, r.acc)) {
        assert AttrResolved(a.v[i], sc, Names(sc, a.acc));
        AttrResolvedMono(a.v[i], sc, Names(sc, a.acc), Names(sc, k.acc));
      }
      assert AllAttrsResolved(r.v.attrs, sc, Names(sc, r.acc));
      assert AllResolved(r.v.children, sc, Names(sc, r.acc));
    case Dyn(e) =>
      if e != Ident(sc.item) && Depends(e, sc) {
        PushedNameIsKnown(sc, acc, r.acc, GenericName(acc.d));
      }
    case Loop(src, cb) =>
      if Matches(cb) {
        var site := LowerSite(src, cb, acc.counter);
        var acc1 := acc.(counter := site.next);
        if src == Ident(sc.item) {
        } else if src.Member? && src.obj == Ident(sc.item) {
        } else if src.Ident? && src.name in sc.locals {
          PushedNameIsKnown(sc, acc1, r.acc, src.name);
        } else {
          PushedNameIsKnown(sc, acc1, r.acc, GenericName(acc.d));
        }
      }
    case Text(_) =>
  }

  lemma {:induction false} RewriteChildrenResolved(kids: seq<Node>, sc: Scope, acc: Acc)
    requires forall i :: 0 <= i < |kids| ==> IsSource(kids[i])
    ensures AllResolved(RewriteChildren(kids, sc, acc).v, sc, Names(sc, RewriteChildren(kids, sc, acc).acc))
    decreases ChildrenSize(kids), 2
  {
    if kids != [] {
      var h := RewriteNode(kids[0], sc, acc);
      var t := RewriteChildren(kids[1..], sc, h.acc);
      RewriteResolved(kids[0], sc, acc);
      RewriteChildrenResolved(kids[1..], sc, h.acc);
      NamesGrow(sc, h.acc, t.acc);
      ResolvedMono(h.v, sc, Names(sc, h.acc), Names(sc, t.acc));
      var r := RewriteChildren(kids, sc, acc);
      assert r.v == [h.v] + t.v && r.acc == t.acc;
      forall i | 0 <= i < |r.v| ensures Resolved(r.v[i], sc, Names(sc, r.acc)) {
        if i == 0 {
          assert r.v[0] == h.v;
        } else {
          assert r.v[i] == t.v[i - 1];
          assert Resolved(t.v[i - 1], sc, Names(sc, t.acc));
        }
      }
    }
  }

  /** The headline guarantee of a lowered site: its template reads the loop
      only through `item.f` for fields `f` of the record its own mapping
      call returns. */
  lemma SiteReadsOnlyItsRecord(src: Expr, cb: Callback, n: nat)
    requires Matches(cb) && IsSource(cb.ret)
    ensures var site := LowerSite(src, cb, n);
      Resolved(site.body, SiteScope(cb, n), RecordNames(site.call.record))
  {
    var sc := SiteScope(cb, n);
    var body := Canonical(cb, IndexName(n));
    var acc0 := Acc(n + 1, [], 0, 0, Plain(Ident(ItemName(cb))));
    var out := RewriteNode(body.ret, sc, acc0);
    RewriteResolved(body.ret, sc, acc0);
    var site := LowerSite(src, cb, n);
    var record := site.call.record;
    assert record[2..] == out.acc.fields;
    forall x | x in Names(sc, out.acc) ensures x in RecordNames(record) {
      if x in RecordNames(out.acc.fields) {
        var i :| 0 <= i < |out.acc.fields| && out.acc.fields[i].name == x;
        assert record[i + 2] == out.acc.fields[i];
      } else if x == KeyFieldName {
        assert record[1].name == x;
      } else {
        assert record[0].name == x;
      }
    }
    ResolvedMono(out.v, sc, Names(sc, out.acc), RecordNames(record));
  }

  // ---------------------------------------------------------------------
  // What the record fields hold
  // ---------------------------------------------------------------------

  /** What a record field stands for: a leaf expression moved out of the
      template, or a nested loop over the given source. */
  datatype Leaf = LeafExpr(e: Expr) | LoopOver(source: Expr)

  function Describe(v: FieldValue): Leaf
  {
    match v
    case Plain(e) => LeafExpr(e)
    case Styled(e) => LeafExpr(e)
    case Nested(call) => LoopOver(call.source)
    case Spread(_, _, call) => LoopOver(call.source)
  }

  /** The fields of kind `k`, described, in record order. */
  function KindValues(fs: seq<Field>, k: FieldKind): seq<Leaf>
  {
    if fs == [] then []
    else KindValues(fs[..|fs| - 1], k) + (if fs[|fs| - 1].kind == k then [Describe(fs[|fs| - 1].value)] else [])
  }

  /** There is one described value per field of the kind. */
  lemma {:induction false} KindValuesCount(fs: seq<Field>, k: FieldKind)
    ensures |KindValues(fs, k)| == CountKind(fs, k)
    decreases |fs|
  {
    if fs != [] {
      KindValuesCount(fs[..|fs| - 1], k);
    }
  }

  /** The generic (`_d`) fields of a template under `sc`, in document order,
      attributes before children: every dynamic attribute other than
      `style`, and every dynamic child, that depends on the loop and is not
      the bare item; and every nested loop over a source that is neither the
      item, a property of it, nor a local. */
  function GenericLeaves(n: Node, sc: Scope): seq<Leaf>
    decreases NodeSize(n), 1
  {
    match n
    case Element(_, attrs, kids) => AttrsGenericLeaves(attrs, sc) + ChildrenGenericLeaves(kids, sc)
    case Dyn(e) => if e != Ident(sc.item) && Depends(e, sc) then [LeafExpr(e)] else []
    case Loop(src, cb) =>
      if Matches(cb) && src != Ident(sc.item) && !(src.Member? && src.obj == Ident(sc.item))
        && !(src.Ident? && src.name in sc.locals)
      then [LoopOver(src)] else []
    case _ => []
  }

  function ChildrenGenericLeaves(kids: seq<Node>, sc: Scope): seq<Leaf>
    decreases ChildrenSize(kids), 2
  {
    if kids == [] then [] else GenericLeaves(kids[0], sc) + ChildrenGenericLeaves(kids[1..], sc)
  }

  function AttrsGenericLeaves(attrs: seq<Attr>, sc: Scope): seq<Leaf>
  {
    if attrs == [] then [] else AttrGenericLeaf(attrs[0], sc) + AttrsGenericLeaves(attrs[1..], sc)
  }

  function AttrGenericLeaf(at: Attr, sc: Scope): seq<Leaf>
  {
    if at.value.DynAttr? && at.name != "style" && at.value.e != Ident(sc.item) && Depends(at.value.e, sc)
    then [LeafExpr(at.value.e)] else []
  }

  /** The style (`_s`) fields of a template under `sc`, in document order:
      every dynamic `style` attribute that depends on the loop. */
  function StyleLeaves(n: Node, sc: Scope): seq<Leaf>
    decreases NodeSize(n), 1
  {
    match n
    case Element(_, attrs, kids) => AttrsStyleLeaves(attrs, sc) + ChildrenStyleLeaves(kids, sc)
    case _ => []
  }

  function ChildrenStyleLeaves(kids: seq<Node>, sc: Scope): seq<Leaf>
    decreases ChildrenSize(kids), 2
  {
    if kids == [] then [] else StyleLeaves(kids[0], sc) + ChildrenStyleLeaves(kids[1..], sc)
  }

  function AttrsStyleLeaves(attrs: seq<Attr>, sc: Scope): seq<Leaf>
  {
    if attrs == [] then [] else AttrStyleLeaf(attrs[0], sc) + AttrsStyleLeaves(attrs[1..], sc)
  }

  function AttrStyleLeaf(at: Attr, sc: Scope): seq<Leaf>
  {
    if at.value.DynAttr? && at.name == "style" && Depends(at.value.e, sc) then [LeafExpr(at.value.e)] else []
  }

  lemma {:induction false} KindValuesAppend(a: seq<Field>, b: seq<Field>, k: FieldKind)
    ensures KindValues(a + b, k) == KindValues(a, k) + KindValues(b, k)
    decreases |b|
  {
    if b == [] {
      assert a + b == a;
    } else {
      assert (a + b)[..|a + b| - 1] == a + b[..|b| - 1];
      KindValuesAppend(a, b[..|b| - 1], k);
    }
  }

  /** The fields an attribute rewrite appends, per kind, are its leaves. */
  lemma RewriteAttrLeaves(at: Attr, sc: Scope, acc: Acc)
    ensures var r := RewriteAttr(at, sc, acc).acc;
      && KindValues(r.fields, GenericField) == KindValues(acc.fields, GenericField) + AttrGenericLeaf(at, sc)
      && KindValues(r.fields, StyleField) == KindValues(acc.fields, StyleField) + AttrStyleLeaf(at, sc)
  {
    var r := RewriteAttr(at, sc, acc).acc;
    if at.value.DynAttr? {
      var e := at.value.e;
      if at.name == "style" && Depends(e, sc) {
        var f := Field(StyleName(acc.s), StyleField, Styled(e));
        assert r.fields == acc.fields + [f];
        PushedKinds(acc.fields, f);
      } else if e == Ident(sc.item) {
        assert r.fields == acc.fields;
      } else if Depends(e, sc) {
        var f := Field(GenericName(acc.d), GenericField, Plain(e));
        assert r.fields == acc.fields + [f];
        PushedKinds(acc.fields, f);
      } else {
        assert r.fields == acc.fields;
      }
    } else {
      assert r.fields == acc.fields;
    }
  }

  lemma {:induction false} RewriteAttrsLeaves(attrs: seq<Attr>, sc: Scope, acc: Acc)
    ensures var r := RewriteAttrs(attrs, sc, acc).acc;
      && KindValues(r.fields, GenericField) == KindValues(acc.fields, GenericField) + AttrsGenericLeaves(attrs, sc)
      && KindValues(r.fields, StyleField) == KindValues(acc.fields, StyleField) + AttrsStyleLeaves(attrs, sc)
    decreases |attrs|
  {
    if attrs != [] {
      var h := RewriteAttr(attrs[0], sc, acc).acc;
      var t := RewriteAttrs(attrs[1..], sc, h).acc;
      assert RewriteAttrs(attrs, sc, acc).acc == t;
      var g0, s0 := KindValues(acc.fields, GenericField), KindValues(acc.fields, StyleField);
      var g1, s1 := AttrGenericLeaf(attrs[0], sc), AttrStyleLeaf(attrs[0], sc);
      var g2, s2 := AttrsGenericLeaves(attrs[1..], sc), AttrsStyleLeaves(attrs[1..], sc);
      assert KindValues(t.fields, GenericField) == g0 + g1 + g2 && KindValues(t.fields, StyleField) == s0 + s1 + s2 by {
        RewriteAttrLeaves(attrs[0], sc, acc);
        RewriteAttrsLeaves(attrs[1..], sc, h);
      }
      assert AttrsGenericLeaves(attrs, sc) == g1 + g2 && AttrsStyleLeaves(attrs, sc) == s1 + s2;
      assert g0 + g1 + g2 == g0 + (g1 + g2);
      assert s0 + s1 + s2 == s0 + (s1 + s2);
    }
  }

  /** Rewriting a subtree appends exactly its generic leaves to the `_d`
      fields and its style leaves to the `_s` fields, in document order. */
  lemma {:induction false} RewriteNodeLeaves(n: Node, sc: Scope, acc: Acc)
    ensures var r := RewriteNode(n, sc, acc).acc;
      && KindValues(r.fields, GenericField) == KindValues(acc.fields, GenericField) + GenericLeaves(n, sc)
      && KindValues(r.fields, StyleField) == KindValues(acc.fields, StyleField) + StyleLeaves(n, sc)
    decreases NodeSize(n), 1
  {
    match n {
      case Element(tag, attrs, kids) =>
        ElementLeaves(tag, attrs, kids, sc, acc);
      case Dyn(e) =>
        DynLeaves(e, sc, acc);
      case Loop(src, cb) =>
        LoopLeaves(src, cb, sc, acc);
      case Text(_) =>
      case Mustache(_) =>
      case Block(_, _) =>
    }
  }

  lemma {:induction false} ElementLeaves(tag: string, attrs: seq<Attr>, kids: seq<Node>, sc: Scope, acc: Acc)
    ensures var n := Element(tag, attrs, kids);
      var r := RewriteNode(n, sc, acc).acc;
      && KindValues(r.fields, GenericField) == KindValues(acc.fields, GenericField) + GenericLeaves(n, sc)
      && KindValues(r.fields, StyleField) == KindValues(acc.fields, StyleField) + StyleLeaves(n, sc)
    decreases NodeSize(Element(tag, attrs, kids)), 0
  {
    var n := Element(tag, attrs, kids);
    var a := RewriteAttrs(attrs, sc, acc).acc;
    var k := RewriteChildren(kids, sc, a).acc;
    assert RewriteNode(n, sc, acc).acc == k;
    var g0, s0 := KindValues(acc.fields, GenericField), KindValues(acc.fields, StyleField);
    var ga, sa := AttrsGenericLeaves(attrs, sc), AttrsStyleLeaves(attrs, sc);
    var gk, sk := ChildrenGenericLeaves(kids, sc), ChildrenStyleLeaves(kids, sc);
    assert KindValues(k.fields, GenericField) == g0 + ga + gk && KindValues(k.fields, StyleField) == s0 + sa + sk by {
      RewriteAttrsLeaves(attrs, sc, acc);
      RewriteChildrenLeaves(kids, sc, a);
    }
    assert GenericLeaves(n, sc) == ga + gk && StyleLeaves(n, sc) == sa + sk;
    LeavesGlue(KindValues(k.fields, GenericField), g0, ga, gk, GenericLeaves(n, sc));
    LeavesGlue(KindValues(k.fields, StyleField), s0, sa, sk, StyleLeaves(n, sc));
  }

  /** Leaves collected in two steps are the leaves of both parts in order. */
  lemma LeavesGlue(r: seq<Leaf>, before: seq<Leaf>, x: seq<Leaf>, y: seq<Leaf>, xy: seq<Leaf>)
    requires r == before + x + y && xy == x + y
    ensures r == before + xy
  {
  }

  lemma DynLeaves(e: Expr, sc: Scope, acc: Acc)
    ensures var r := RewriteNode(Dyn(e), sc, acc).acc;
      && KindValues(r.fields, GenericField) == KindValues(acc.fields, GenericField) + GenericLeaves(Dyn(e), sc)
      && KindValues(r.fields, StyleField) == KindValues(acc.fields, StyleField) + StyleLeaves(Dyn(e), sc)
  {
    var r := RewriteNode(Dyn(e), sc, acc).acc;
    assert StyleLeaves(Dyn(e), sc) == [];
    if e != Ident(sc.item) && Depends(e, sc) {
      var f := Field(GenericName(acc.d), GenericField, Plain(e));
      assert r.fields == acc.fields + [f];
      assert GenericLeaves(Dyn(e), sc) == [LeafExpr(e)];
      PushedKinds(acc.fields, f);
    } else {
      assert r == acc && GenericLeaves(Dyn(e), sc) == [];
    }
  }

  lemma LoopLeaves(src: Expr, cb: Callback, sc: Scope, acc: Acc)
    ensures var r := RewriteNode(Loop(src, cb), sc, acc).acc;
      && KindValues(r.fields, GenericField) == KindValues(acc.fields, GenericField) + GenericLeaves(Loop(src, cb), sc)
      && KindValues(r.fields, StyleField) == KindValues(acc.fields, StyleField) + StyleLeaves(Loop(src, cb), sc)
  {
    var r := RewriteNode(Loop(src, cb), sc, acc).acc;
    if Matches(cb) {
      var site := LowerSite(src, cb, acc.counter);
      if src == Ident(sc.item) || (src.Member? && src.obj == Ident(sc.item)) {
        assert r.fields == acc.fields;
      } else if src.Ident? && src.name in sc.locals {
        assert r.fields == acc.fields + [Field(src.name, LocalField, Nested(site.call))];
        PushedKinds(acc.fields, Field(src.name, LocalField, Nested(site.call)));
      } else {
        assert r.fields == acc.fields + [Field(GenericName(acc.d), GenericField, Nested(site.call))];
        PushedKinds(acc.fields, Field(GenericName(acc.d), GenericField, Nested(site.call)));
        assert Describe(Nested(site.call)) == LoopOver(src);
      }
    }
  }

  lemma PushedKinds(fs: seq<Field>, f: Field)
    ensures KindValues(fs + [f], GenericField) == KindValues(fs, GenericField) + (if f.kind == GenericField then [Describe(f.value)] else [])
    ensures KindValues(fs + [f], StyleField) == KindValues(fs, StyleField) + (if f.kind == StyleField then [Describe(f.value)] else [])
  {
    assert (fs + [f])[..|fs|] == fs;
  }

  lemma {:induction false} RewriteChildrenLeaves(kids: seq<Node>, sc: Scope, acc: Acc)
    ensures var r := RewriteChildren(kids, sc, acc).acc;
      && KindValues(r.fields, GenericField) == KindValues(acc.fields, GenericField) + ChildrenGenericLeaves(kids, sc)
      && KindValues(r.fields, StyleField) == KindValues(acc.fields, StyleField) + ChildrenStyleLeaves(kids, sc)
    decreases ChildrenSize(kids), 2
  {
    if kids != [] {
      var h := RewriteNode(kids[0], sc, acc).acc;
      var t := RewriteChildren(kids[1..], sc, h).acc;
      assert RewriteChildren(kids, sc, acc).acc == t;
      var g0, s0 := KindValues(acc.fields, GenericField), KindValues(acc.fields, StyleField);
      var g1, s1 := GenericLeaves(kids[0], sc), StyleLeaves(kids[0], sc);
      var g2, s2 := ChildrenGenericLeaves(kids[1..], sc), ChildrenStyleLeaves(kids[1..], sc);
      assert KindValues(t.fields, GenericField) == g0 + g1 + g2 && KindValues(t.fields, StyleField) == s0 + s1 + s2 by {
        RewriteNodeLeaves(kids[0], sc, acc);
        RewriteChildrenLeaves(kids[1..], sc, h);
      }
      assert ChildrenGenericLeaves(kids, sc) == g1 + g2 && ChildrenStyleLeaves(kids, sc) == s1 + s2;
      assert g0 + g1 + g2 == g0 + (g1 + g2);
      assert s0 + s1 + s2 == s0 + (s1 + s2);
    }
  }

  /** In a numbered record, entry `i` of the described `_d` values is the
      field named `_d<i>`, and likewise for `_s`. */
  lemma {:induction false} KindValuesNamed(fs: seq<Field>, k: FieldKind, i: nat)
    requires Numbered(fs) && (k == GenericField || k == StyleField)
    requires i < |KindValues(fs, k)|
    ensures exists j :: (0 <= j < |fs| && fs[j].kind == k
      && fs[j].name == (if k == GenericField then GenericName(i) else StyleName(i))
      && Describe(fs[j].value) == KindValues(fs, k)[i])
    decreases |fs|
  {
    var p := fs[..|fs| - 1];
    var last := |fs| - 1;
    assert Numbered(p) by {
      forall x | 0 <= x < |p|
        ensures (p[x].kind == GenericField ==> p[x].name == GenericName(CountKind(p[..x], GenericField)))
          && (p[x].kind == StyleField ==> p[x].name == StyleName(CountKind(p[..x], StyleField)))
      {
        assert p[..x] == fs[..x];
        assert p[x] == fs[x];
      }
    }
    if i < |KindValues(p, k)| {
      KindValuesNamed(p, k, i);
      var j :| 0 <= j < |p| && p[j].kind == k
        && p[j].name == (if k == GenericField then GenericName(i) else StyleName(i))
        && Describe(p[j].value) == KindValues(p, k)[i];
      assert fs[j] == p[j];
    } else {
      KindValuesCount(p, k);
      assert fs[..last] == p;
      assert fs[last].kind == k && i == CountKind(p, k);
    }
  }

  lemma HeadHasNoLeaves(head: seq<Field>)
    requires |head| == 2 && head[0].kind == ItemField && head[1].kind == KeyField
    ensures KindValues(head, GenericField) == [] && KindValues(head, StyleField) == []
  {
    assert head[..1][..0] == [];
    assert KindValues(head[..1], GenericField) == [] && KindValues(head[..1], StyleField) == [];
  }

  /** The record of a lowered site holds, in its `_d` fields, exactly the
      generic leaves of the canonical body in document order, and in its
      `_s` fields its style leaves. */
  lemma SiteFieldsHoldLeaves(src: Expr, cb: Callback, n: nat)
    requires Matches(cb)
    ensures var record := LowerSite(src, cb, n).call.record;
      var body := Canonical(cb, IndexName(n)).ret;
      && KindValues(record, GenericField) == GenericLeaves(body, SiteScope(cb, n))
      && KindValues(record, StyleField) == StyleLeaves(body, SiteScope(cb, n))
  {
    var sc := SiteScope(cb, n);
    var body := Canonical(cb, IndexName(n));
    var acc0 := Acc(n + 1, [], 0, 0, Plain(Ident(ItemName(cb))));
    var out := RewriteNode(body.ret, sc, acc0);
    var fs := out.acc.fields;
    assert KindValues(fs, GenericField) == GenericLeaves(body.ret, sc)
      && KindValues(fs, StyleField) == StyleLeaves(body.ret, sc) by {
      RewriteNodeLeaves(body.ret, sc, acc0);
      assert KindValues(acc0.fields, GenericField) == [] && KindValues(acc0.fields, StyleField) == [];
    }
    var record := LowerSite(src, cb, n).call.record;
    var head := record[..2];
    assert record == head + fs;
    HeadHasNoLeaves(head);
    KindValuesAppend(head, fs, GenericField);
    KindValuesAppend(head, fs, StyleField);
  }

  /** The `i`-th generic leaf of a site's body is the field named `_d<i>`. */
  lemma SiteLeafNamed(src: Expr, cb: Callback, n: nat, i: nat)
    requires Matches(cb)
    requires i < |GenericLeaves(Canonical(cb, IndexName(n)).ret, SiteScope(cb, n))|
    ensures var record := LowerSite(src, cb, n).call.record;
      var leaves := GenericLeaves(Canonical(cb, IndexName(n)).ret, SiteScope(cb, n));
      exists j :: (0 <= j < |record| && record[j].kind == GenericField
        && record[j].name == GenericName(i) && Describe(record[j].value) == leaves[i])
  {
    SiteFieldsHoldLeaves(src, cb, n);
    KindValuesNamed(LowerSite(src, cb, n).call.record, GenericField, i);
  }

  // ---------------------------------------------------------------------
  // Leaves that do not depend on the loop
  // ---------------------------------------------------------------------

  /** No leaf of `n` depends on the loop and no loop in it is lowered. */
  predicate Inert(n: Node, sc: Scope)
  {
    match n
    case Element(_, attrs, kids) =>
      (forall i :: 0 <= i < |attrs| ==> attrs[i].value.DynAttr? ==> !Depends(attrs[i].value.e, sc))
      && forall i :: 0 <= i < |kids| ==> Inert(kids[i], sc)
    case Dyn(e) => !Depends(e, sc)
    case Loop(_, cb) => !Matches(cb)
    case _ => true
  }

  lemma {:induction false} InertAttrsUntouched(attrs: seq<Attr>, sc: Scope, acc: Acc)
    requires forall i :: 0 <= i < |attrs| ==> attrs[i].value.DynAttr? ==> !Depends(attrs[i].value.e, sc)
    ensures RewriteAttrs(attrs, sc, acc) == Out(attrs, acc)
    decreases |attrs|
  {
    if attrs != [] {
      assert RewriteAttr(attrs[0], sc, acc) == Out(attrs[0], acc) by {
        if attrs[0].value.DynAttr? {
          assert attrs[0].value.e != Ident(sc.item) by {
            assert sc.item in FreeVars(Ident(sc.item)) * BoundNames(sc);
          }
        }
      }
      InertAttrsUntouched(attrs[1..], sc, acc);
      assert [attrs[0]] + attrs[1..] == attrs;
    }
  }

  /** A subtree whose leaves mention no name the loop binds, and that holds
      no loop the pass lowers, is left exactly as it was and adds no field. */
  lemma {:induction false} InertUntouched(n: Node, sc: Scope, acc: Acc)
    requires Inert(n, sc)
    ensures RewriteNode(n, sc, acc) == Out(n, acc)
    decreases NodeSize(n), 1
  {
    match n
    case Element(tag, attrs, kids) =>
      InertAttrsUntouched(attrs, sc, acc);
      InertChildrenUntouched(kids, sc, acc);
    case Dyn(e) =>
      assert e != Ident(sc.item) by {
        assert sc.item in FreeVars(Ident(sc.item)) * BoundNames(sc);
      }
    case _ =>
  }

  lemma {:induction false} InertChildrenUntouched(kids: seq<Node>, sc: Scope, acc: Acc)
    requires forall i :: 0 <= i < |kids| ==> Inert(kids[i], sc)
    ensures RewriteChildren(kids, sc, acc) == Out(kids, acc)
    decreases ChildrenSize(kids), 2
  {
    if kids != [] {
      InertUntouched(kids[0], sc, acc);
      InertChildrenUntouched(kids[1..], sc, acc);
      assert [kids[0]] + kids[1..] == kids;
    }
  }

  // ---------------------------------------------------------------------
  // Idempotence
  // ---------------------------------------------------------------------

  /** A template with no site to lower is returned unchanged, with the counter unchanged. */
  lemma {:induction false} NoSitesUntouched(n: Node, c: nat)
    requires Sites(n) == 0
    ensures Transform(n, c) == Lowered(n, c)
    decreases NodeSize(n), 1
  {
    match n
    case Element(tag, attrs, kids) =>
      NoSitesChildrenUntouched(kids, c);
    case _ =>
  }

  lemma {:induction false} NoSitesChildrenUntouched(kids: seq<Node>, c: nat)
    requires ChildrenSites(kids) == 0
    ensures TransformChildren(kids, c) == Lowered(kids, c)
    decreases ChildrenSize(kids), 2
  {
    if kids != [] {
      NoSitesUntouched(kids[0], c);
      NoSitesChildrenUntouched(kids[1..], c);
      assert [kids[0]] + kids[1..] == kids;
    }
  }

  /** Lowering a lowered template changes nothing and uses no site number. */
  lemma TransformIdempotent(n: Node, c: nat, c2: nat)
    ensures Transform(Transform(n, c).v, c2) == Lowered(Transform(n, c).v, c2)
  {
    NoSitesUntouched(Transform(n, c).v, c2);
  }

  /** `TransformChildren` lowers the `i`-th child on its own, numbering
      from where the children before it stopped. */
  lemma {:induction false} TransformChildrenAt(kids: seq<Node>, c: nat, i: nat)
    requires i < |kids|
    ensures TransformChildren(kids, c).v[i] == Transform(kids[i], c + ChildrenSites(kids[..i])).v
    decreases i
  {
    if i > 0 {
      var h := Transform(kids[0], c);
      TransformChildrenAt(kids[1..], h.next, i - 1);
      assert kids[..i][0] == kids[0] && kids[..i][1..] == kids[1..][..i - 1];
    } else {
      assert kids[..0] == [];
    }
  }

  /** Lowering an element keeps its tag and attributes, and every child
      that holds no site stays exactly as it was. */
  lemma TransformKeepsElement(tag: string, attrs: seq<Attr>, kids: seq<Node>, c: nat)
    ensures var r := Transform(Element(tag, attrs, kids), c).v;
      && r.Element? && r.tag == tag && r.attrs == attrs && |r.children| == |kids|
      && forall i :: 0 <= i < |kids| && Sites(kids[i]) == 0 ==> r.children[i] == kids[i]
  {
    var r := Transform(Element(tag, attrs, kids), c).v;
    forall i | 0 <= i < |kids| && Sites(kids[i]) == 0 ensures r.children[i] == kids[i] {
      TransformChildrenAt(kids, c, i);
      NoSitesUntouched(kids[i], c + ChildrenSites(kids[..i]));
    }
  }

  // ---------------------------------------------------------------------
  // Site numbering
  // ---------------------------------------------------------------------

  /** The `a:for-index` names of the `<block>` wrappers of a tree, in
      pre-order: a wrapper before the wrappers in its body. */
  function ForIndices(n: Node): seq<string>
    decreases NodeSize(n), 1
  {
    match n
    case Element(_, _, kids) => ChildrenForIndices(kids)
    case Block(loop, body) => [loop.forIndex] + ForIndices(body)
    case _ => []
  }

  function ChildrenForIndices(kids: seq<Node>): seq<string>
    decreases ChildrenSize(kids), 2
  {
    if kids == [] then [] else ForIndices(kids[0]) + ChildrenForIndices(kids[1..])
  }

  /** `index<c>`, `index<c+1>`, …, `index<c+k-1>`. */
  function IndexRange(c: nat, k: nat): (r: seq<string>)
    ensures |r| == k
    ensures forall i :: 0 <= i < k ==> r[i] == IndexName(c + i)
  {
    seq(k, i requires 0 <= i < k => IndexName(c + i))
  }

  lemma IndexRangeSplit(c: nat, k1: nat, k2: nat)
    ensures IndexRange(c, k1) + IndexRange(c + k1, k2) == IndexRange(c, k1 + k2)
  {
    var x := IndexRange(c, k1) + IndexRange(c + k1, k2);
    forall i | 0 <= i < k1 + k2 ensures x[i] == IndexName(c + i) {
      if i >= k1 {
        assert x[i] == IndexRange(c + k1, k2)[i - k1];
      }
    }
  }

  lemma IndexRangeCons(c: nat, k: nat)
    ensures [IndexName(c)] + IndexRange(c + 1, k) == IndexRange(c, 1 + k)
  {
    IndexRangeSplit(c, 1, k);
    assert IndexRange(c, 1) == [IndexName(c)];
  }

  /** Different site numbers give different index names. */
  lemma IndexNamesDistinct(a: nat, b: nat)
    requires a != b
    ensures IndexName(a) != IndexName(b)
  {
    if IndexName(a) == IndexName(b) {
      assert IndexName(a)[5..] == NatToString(a) && IndexName(b)[5..] == NatToString(b);
      NatToStringInjective(a, b);
    }
  }

  /** The wrappers inside a lowered site's body are numbered from `n + 1`
      on, one per site in the callback's result, in pre-order. */
  lemma {:induction false} SiteBodyNumbered(src: Expr, cb: Callback, n: nat)
    requires Matches(cb) && IsSource(cb.ret)
    ensures ForIndices(LowerSite(src, cb, n).body) == IndexRange(n + 1, Sites(cb.ret))
    decreases NodeSize(cb.ret), 3
  {
    var body := Canonical(cb, IndexName(n));
    var sc := SiteScope(cb, n);
    RewriteNumbered(body.ret, sc, Acc(n + 1, [], 0, 0, Plain(Ident(ItemName(cb)))));
  }

  lemma {:induction false} RewriteNumbered(n: Node, sc: Scope, acc: Acc)
    requires IsSource(n)
    ensures ForIndices(RewriteNode(n, sc, acc).v) == IndexRange(acc.counter, Sites(n))
    decreases NodeSize(n), 1
  {
    match n {
      case Element(tag, attrs, kids) =>
        var a := RewriteAttrs(attrs, sc, acc);
        var k := RewriteChildren(kids, sc, a.acc);
        assert RewriteNode(n, sc, acc).v == Element(tag, a.v, k.v);
        assert k.acc.counter == acc.counter + ChildrenSites(kids);
        RewriteChildrenNumbered(kids, sc, a.acc);
      case Loop(src, cb) =>
        LoopNumbered(src, cb, sc, acc);
      case Text(_) =>
      case Dyn(_) =>
      case Mustache(_) =>
      case Block(_, _) =>
    }
  }

  lemma {:induction false} LoopNumbered(src: Expr, cb: Callback, sc: Scope, acc: Acc)
    requires IsSource(Loop(src, cb))
    ensures ForIndices(RewriteNode(Loop(src, cb), sc, acc).v) == IndexRange(acc.counter, Sites(Loop(src, cb)))
    decreases NodeSize(Loop(src, cb)), 0
  {
    if Matches(cb) {
      assert IsSource(cb.ret);
      SiteBodyNumbered(src, cb, acc.counter);
      LoopIndices(src, cb, sc, acc);
      assert Sites(Loop(src, cb)) == 1 + Sites(cb.ret);
    } else {
      LoopUnmatched(src, cb, sc, acc);
    }
  }

  /** A matched loop opens the site numbered `acc.counter`, followed by the
      sites of its body. */
  lemma LoopIndices(src: Expr, cb: Callback, sc: Scope, acc: Acc)
    requires Matches(cb)
    requires ForIndices(LowerSite(src, cb, acc.counter).body) == IndexRange(acc.counter + 1, Sites(cb.ret))
    ensures ForIndices(RewriteNode(Loop(src, cb), sc, acc).v) == IndexRange(acc.counter, 1 + Sites(cb.ret))
  {
    var v := RewriteNode(Loop(src, cb), sc, acc).v;
    var body := LowerSite(src, cb, acc.counter).body;
    LoopWrapped(src, cb, sc, acc);
    assert ForIndices(v) == [IndexName(acc.counter)] + ForIndices(body);
    WrapperRange(ForIndices(v), ForIndices(body), acc.counter, Sites(cb.ret));
  }

  /** A loop whose callback does not match is left as it is and holds no site. */
  lemma LoopUnmatched(src: Expr, cb: Callback, sc: Scope, acc: Acc)
    requires !Matches(cb)
    ensures RewriteNode(Loop(src, cb), sc, acc).v == Loop(src, cb)
    ensures ForIndices(Loop(src, cb)) == [] && Sites(Loop(src, cb)) == 0
  {
  }

  /** A matched loop becomes the wrapper of its site. */
  lemma LoopWrapped(src: Expr, cb: Callback, sc: Scope, acc: Acc)
    requires Matches(cb)
    ensures RewriteNode(Loop(src, cb), sc, acc).v.Block?
    ensures RewriteNode(Loop(src, cb), sc, acc).v.loop.forIndex == IndexName(acc.counter)
    ensures RewriteNode(Loop(src, cb), sc, acc).v.body == LowerSite(src, cb, acc.counter).body
  {
    var site := LowerSite(src, cb, acc.counter);
    var v := RewriteNode(Loop(src, cb), sc, acc).v;
    assert v == Wrapper(v.loop.forSource, site.call, site.body);
  }

  /** The wrapper's own name followed by its body's names is the whole range. */
  lemma WrapperRange(x: seq<string>, y: seq<string>, c: nat, k: nat)
    requires x == [IndexName(c)] + y && y == IndexRange(c + 1, k)
    ensures x == IndexRange(c, 1 + k)
  {
    IndexRangeCons(c, k);
  }

  /** A node followed by siblings, each numbered from where the last stopped. */
  lemma ConsIndices(h: Node, t: seq<Node>, c: nat, k1: nat, k2: nat)
    requires ForIndices(h) == IndexRange(c, k1) && ChildrenForIndices(t) == IndexRange(c + k1, k2)
    ensures ChildrenForIndices([h] + t) == IndexRange(c, k1 + k2)
  {
    var r := [h] + t;
    assert r[0] == h && r[1..] == t;
    IndexRangeSplit(c, k1, k2);
  }

  lemma SourceTail(kids: seq<Node>)
    requires kids != [] && forall i :: 0 <= i < |kids| ==> IsSource(kids[i])
    ensures IsSource(kids[0]) && forall i :: 0 <= i < |kids[1..]| ==> IsSource(kids[1..][i])
  {
    forall i | 0 <= i < |kids[1..]| ensures IsSource(kids[1..][i]) {
      assert kids[1..][i] == kids[i + 1];
    }
  }

  /** The first child of a sequence is numbered from the sequence's start. */
  lemma {:induction false} HeadNumbered(kids: seq<Node>, sc: Scope, acc: Acc)
    requires kids != [] && IsSource(kids[0])
    ensures ForIndices(RewriteNode(kids[0], sc, acc).v) == IndexRange(acc.counter, Sites(kids[0]))
    decreases ChildrenSize(kids), 2
  {
    RewriteNumbered(kids[0], sc, acc);
  }

  lemma {:induction false} RewriteChildrenNumbered(kids: seq<Node>, sc: Scope, acc: Acc)
    requires forall i :: 0 <= i < |kids| ==> IsSource(kids[i])
    ensures ChildrenForIndices(RewriteChildren(kids, sc, acc).v) == IndexRange(acc.counter, ChildrenSites(kids))
    decreases ChildrenSize(kids), 3
  {
    if kids != [] {
      var h := RewriteNode(kids[0], sc, acc);
      var t := RewriteChildren(kids[1..], sc, h.acc);
      var k1, k2 := Sites(kids[0]), ChildrenSites(kids[1..]);
      assert RewriteChildren(kids, sc, acc).v == [h.v] + t.v;
      assert ChildrenSites(kids) == k1 + k2;
      assert h.acc.counter == acc.counter + k1;
      SourceTail(kids);
      HeadNumbered(kids, sc, acc);
      assert ChildrenForIndices(t.v) == IndexRange(acc.counter + k1, k2) by {
        assert ChildrenSize(kids) == NodeSize(kids[0]) + ChildrenSize(kids[1..]);
        RewriteChildrenNumbered(kids[1..], sc, h.acc);
      }
      ConsIndices(h.v, t.v, acc.counter, k1, k2);
    }
  }

  /** Lowering a source template numbered from `c` gives its wrappers the
      index names `index<c>` … `index<c + Sites(n) - 1>` in pre-order, so an
      outer site comes before the sites in its body. */
  lemma {:induction false} TransformNumbersSites(n: Node, c: nat)
    requires IsSource(n)
    ensures ForIndices(Transform(n, c).v) == IndexRange(c, Sites(n))
    decreases NodeSize(n), 1
  {
    match n {
      case Element(tag, attrs, kids) =>
        TransformChildrenNumbered(kids, c);
      case Loop(src, cb) =>
        if Matches(cb) {
          SiteBodyNumbered(src, cb, c);
          IndexRangeCons(c, Sites(cb.ret));
        }
      case _ =>
    }
  }

  /** The names of a range are pairwise distinct. */
  lemma IndexRangeDistinct(c: nat, k: nat)
    ensures forall i, j :: 0 <= i < j < k ==> IndexRange(c, k)[i] != IndexRange(c, k)[j]
  {
    forall i, j | 0 <= i < j < k ensures IndexRange(c, k)[i] != IndexRange(c, k)[j] {
      IndexNamesDistinct(c + i, c + j);
    }
  }

  /** Every index name of a lowered source template is used exactly once. */
  lemma TransformIndicesDistinct(n: Node, c: nat)
    requires IsSource(n)
    ensures forall i, j :: 0 <= i < j < |ForIndices(Transform(n, c).v)| ==>
      ForIndices(Transform(n, c).v)[i] != ForIndices(Transform(n, c).v)[j]
  {
    TransformNumbersSites(n, c);
    IndexRangeDistinct(c, Sites(n));
  }

  lemma {:induction false} TransformChildrenNumbered(kids: seq<Node>, c: nat)
    requires forall i :: 0 <= i < |kids| ==> IsSource(kids[i])
    ensures ChildrenForIndices(TransformChildren(kids, c).v) == IndexRange(c, ChildrenSites(kids))
    decreases ChildrenSize(kids), 2
  {
    if kids != [] {
      var h := Transform(kids[0], c);
      var t := TransformChildren(kids[1..], h.next);
      var k1, k2 := Sites(kids[0]), ChildrenSites(kids[1..]);
      assert TransformChildren(kids, c).v == [h.v] + t.v;
      assert ChildrenSites(kids) == k1 + k2;
      assert h.next == c + k1;
      SourceTail(kids);
      assert ForIndices(h.v) == IndexRange(c, k1) by {
        TransformNumbersSites(kids[0], c);
      }
      assert ChildrenForIndices(t.v) == IndexRange(c + k1, k2) by {
        assert ChildrenSize(kids) == NodeSize(kids[0]) + ChildrenSize(kids[1..]);
        TransformChildrenNumbered(kids[1..], h.next);
      }
      ConsIndices(h.v, t.v, c, k1, k2);
    }
  }

  // ---------------------------------------------------------------------
  // Field names
  // ---------------------------------------------------------------------

  lemma {:induction false} CountStep(fs: seq<Field>, i: nat, k: FieldKind)
    requires i < |fs|
    ensures CountKind(fs[..i + 1], k) == CountKind(fs[..i], k) + (if fs[i].kind == k then 1 else 0)
  {
    assert fs[..i + 1][..i] == fs[..i];
  }

  lemma {:induction false} CountMonotone(fs: seq<Field>, a: nat, b: nat, k: FieldKind)
    requires a <= b <= |fs|
    ensures CountKind(fs[..a], k) <= CountKind(fs[..b], k)
    decreases b - a
  {
    if a < b {
      CountMonotone(fs, a, b - 1, k);
      CountStep(fs, b - 1, k);
    }
  }

  /** `_d`, `_s` and `_key` names never coincide. */
  lemma PrefixesDiffer(a: nat, b: nat)
    ensures GenericName(a) != StyleName(b)
    ensures GenericName(a) != KeyFieldName && StyleName(b) != KeyFieldName
  {
    assert GenericName(a)[1] == 'd' && StyleName(b)[1] == 's' && KeyFieldName[1] == 'k';
  }

  /** In a numbered field list, two fields of the same numbered kind have different names. */
  lemma NumberedNamesDistinct(fs: seq<Field>, i: nat, j: nat)
    requires Numbered(fs) && i < j < |fs|
    requires fs[i].kind == fs[j].kind && (fs[i].kind == GenericField || fs[i].kind == StyleField)
    ensures fs[i].name != fs[j].name
  {
    var k := fs[i].kind;
    CountStep(fs, i, k);
    CountMonotone(fs, i + 1, j, k);
    var a := CountKind(fs[..i], k);
    var b := CountKind(fs[..j], k);
    assert a < b;
    if fs[i].name == fs[j].name {
      var x := if k == GenericField then GenericName(a) else StyleName(a);
      var y := if k == GenericField then GenericName(b) else StyleName(b);
      assert x == y;
      assert x[2..] == NatToString(a) && y[2..] == NatToString(b);
      NatToStringInjective(a, b);
    }
  }

  /** The key field and the numbered `_d` / `_s` fields of a lowered record
      all have different names. */
  lemma RecordNamesDistinct(src: Expr, cb: Callback, n: nat, i: nat, j: nat)
    requires Matches(cb)
    requires 1 <= i < j < |LowerSite(src, cb, n).call.record|
    requires var k := LowerSite(src, cb, n).call.record[i].kind;
      k == KeyField || k == GenericField || k == StyleField
    requires var k := LowerSite(src, cb, n).call.record[j].kind;
      k == GenericField || k == StyleField
    ensures LowerSite(src, cb, n).call.record[i].name != LowerSite(src, cb, n).call.record[j].name
  {
    var fs := LowerSite(src, cb, n).call.record;
    assert fs[j].kind == GenericField ==> fs[j].name == GenericName(CountKind(fs[..j], GenericField));
    assert fs[j].kind == StyleField ==> fs[j].name == StyleName(CountKind(fs[..j], StyleField));
    if i == 1 {
      PrefixesDiffer(CountKind(fs[..j], GenericField), CountKind(fs[..j], StyleField));
    } else if fs[i].kind == fs[j].kind {
      NumberedNamesDistinct(fs, i, j);
    } else {
      assert fs[i].kind == GenericField ==> fs[i].name == GenericName(CountKind(fs[..i], GenericField));
      assert fs[i].kind == StyleField ==> fs[i].name == StyleName(CountKind(fs[..i], StyleField));
      PrefixesDiffer(CountKind(fs[..i], GenericField), CountKind(fs[..j], StyleField));
      PrefixesDiffer(CountKind(fs[..j], GenericField), CountKind(fs[..i], StyleField));
    }
  }
}

=== FILE: list_scenarios.dfy ===
/** The list-lowering pass on the templates of the compiler's list tests,
    each stated as the exact tree the pass produces with the site counter
    starting at 0. Elements around the loop that the pass leaves alone are
    omitted. The first group of lemmas unfolds one step of the pass; the
    scenarios chain them. */
module ListScenarios {
  import opened Base
  import opened ListAst
  import opened ListLower

  function Id(x: string): Expr { Ident(x) }

  function Lit0(text: string): Expr { Other(text, []) }

  function Dot(x: string, p: string): Expr { Member(Ident(x), p) }

  function ItemField0(x: string): Field { Field(x, ItemField, Plain(Ident(x))) }

  function Key(n: nat): Field { Field(KeyFieldName, KeyField, Plain(Ident(KeyToken(n)))) }

  lemma Literals()
    ensures IndexName(0) == "index0" && IndexName(1) == "index1"
    ensures KeyToken(0) == "_key0" && KeyToken(1) == "_key1"
    ensures GenericName(0) == "_d0" && GenericName(1) == "_d1" && StyleName(0) == "_s0"
  {
  }

  // ---------------------------------------------------------------------
  // One step of the pass
  // ---------------------------------------------------------------------

  lemma Attrs2(a0: Attr, a1: Attr, sc: Scope, acc: Acc)
    ensures var h0 := RewriteAttr(a0, sc, acc);
      var h1 := RewriteAttr(a1, sc, h0.acc);
      RewriteAttrs([a0, a1], sc, acc) == Out([h0.v, h1.v], h1.acc)
  {
    var h0 := RewriteAttr(a0, sc, acc);
    var h1 := RewriteAttr(a1, sc, h0.acc);
    assert [a0, a1][1..] == [a1];
    Attrs1(a1, sc, h0.acc);
    assert [h0.v] + [h1.v] == [h0.v, h1.v];
  }

  lemma Attrs1(a0: Attr, sc: Scope, acc: Acc)
    ensures RewriteAttrs([a0], sc, acc) == Out([RewriteAttr(a0, sc, acc).v], RewriteAttr(a0, sc, acc).acc)
  {
    var h := RewriteAttr(a0, sc, acc);
    assert [a0][1..] == [];
    assert RewriteAttrs([], sc, h.acc) == Out([], h.acc);
    assert [h.v] + [] == [h.v];
  }

  lemma Kids1(n0: Node, sc: Scope, acc: Acc)
    ensures RewriteChildren([n0], sc, acc) == Out([RewriteNode(n0, sc, acc).v], RewriteNode(n0, sc, acc).acc)
  {
    var h := RewriteNode(n0, sc, acc);
    assert [n0][1..] == [];
    assert RewriteChildren([], sc, h.acc) == Out([], h.acc);
    assert [h.v] + [] == [h.v];
  }

  lemma Kids2(n0: Node, n1: Node, sc: Scope, acc: Acc)
    ensures var h0 := RewriteNode(n0, sc, acc);
      var h1 := RewriteNode(n1, sc, h0.acc);
      RewriteChildren([n0, n1], sc, acc) == Out([h0.v, h1.v], h1.acc)
  {
    var h0 := RewriteNode(n0, sc, acc);
    var h1 := RewriteNode(n1, sc, h0.acc);
    assert [n0, n1][1..] == [n1];
    Kids1(n1, sc, h0.acc);
    assert [h0.v] + [h1.v] == [h0.v, h1.v];
  }

  lemma ElementStep(tag: string, attrs: seq<Attr>, kids: seq<Node>, sc: Scope, acc: Acc,
                    attrs2: seq<Attr>, acc1: Acc, kids2: seq<Node>, acc2: Acc)
    requires RewriteAttrs(attrs, sc, acc) == Out(attrs2, acc1)
    requires RewriteChildren(kids, sc, acc1) == Out(kids2, acc2)
    ensures RewriteNode(Element(tag, attrs, kids), sc, acc) == Out(Element(tag, attrs2, kids2), acc2)
  {
  }

  lemma NoAttrs(sc: Scope, acc: Acc)
    ensures RewriteAttrs([], sc, acc) == Out([], acc)
    ensures RewriteChildren([], sc, acc) == Out([], acc)
  {
  }

  /** The transform of `<tag>{loop}</tag>` at the top level. */
  lemma Top1(tag: string, loop: Node, c: nat)
    requires loop.Loop? && Matches(loop.callback)
    ensures var site := LowerSite(loop.source, loop.callback, c);
      Transform(Element(tag, [], [loop]), c)
      == Lowered(Element(tag, [], [Wrapper(Inline(site.call), site.call, site.body)]), site.next)
  {
    var site := LowerSite(loop.source, loop.callback, c);
    var b := Wrapper(Inline(site.call), site.call, site.body);
    assert Transform(loop, c) == Lowered(b, site.next);
    assert [loop][1..] == [];
    assert TransformChildren([], site.next) == Lowered([], site.next);
    assert [b] + [] == [b];
    assert TransformChildren([loop], c) == Lowered([b], site.next);
  }

  /** A site assembled from the rewrite of its canonical body. */
  lemma SiteOf(src: Expr, cb: Callback, n: nat, stmts: seq<Stmt>, sc: Scope, ret: Node, body: Node, acc: Acc)
    requires Matches(cb)
    requires Canonical(cb, IndexName(n)).stmts == stmts && Canonical(cb, IndexName(n)).ret == ret
    requires SiteScope(cb, n) == sc
    requires RewriteNode(ret, sc, Acc(n + 1, [], 0, 0, Plain(Ident(ItemName(cb))))) == Out(body, acc)
    ensures LowerSite(src, cb, n) == Site(
      LoweredCall(src, ItemName(cb), IndexName(n), stmts,
        [Field(ItemName(cb), ItemField, acc.itemValue), Key(n)] + acc.fields),
      body, acc.counter)
  {
  }

  /** A site whose body asked for no field holds only the item and the key. */
  lemma HeadOnly(item: string, v: FieldValue, n: nat, fs: seq<Field>)
    requires fs == []
    ensures [Field(item, ItemField, v), Key(n)] + fs == [Field(item, ItemField, v), Key(n)]
  {
  }

  /** A loop over a source that is no name at all goes to the next `_d` field. */
  lemma UnrelatedLoop(src: Expr, cb: Callback, sc: Scope, acc: Acc)
    requires Matches(cb) && !src.Ident? && !src.Member?
    ensures var site := LowerSite(src, cb, acc.counter);
      RewriteNode(Loop(src, cb), sc, acc)
      == Out(Wrapper(Path(Ident(GenericName(acc.d))), site.call, site.body),
             AddGeneric(acc.(counter := site.next), Nested(site.call)))
  {
  }

  /** A name the loop does not bind does not make an expression depend on it. */
  lemma FreeName(x: string, sc: Scope)
    requires x != sc.item && x != sc.index && x !in sc.locals
    ensures !Depends(Ident(x), sc)
  {
    assert FreeVars(Ident(x)) == {x};
  }

  lemma KeepAttr(at: Attr, sc: Scope, acc: Acc)
    requires at.value.Lit? || (at.value.DynAttr? && !Depends(at.value.e, sc))
    ensures RewriteAttr(at, sc, acc) == Out(at, acc)
  {
    if at.value.DynAttr? {
      assert at.value.e != Ident(sc.item) by {
        assert sc.item in FreeVars(Ident(sc.item)) * BoundNames(sc);
      }
    }
  }

  lemma BareItemAttr(name: string, sc: Scope, acc: Acc)
    requires name != "style"
    ensures RewriteAttr(Attr(name, DynAttr(Ident(sc.item))), sc, acc) == Out(Attr(name, Bound(ItemRead(sc, sc.item))), acc)
  {
  }

  lemma GenericAttr(name: string, e: Expr, x: string, sc: Scope, acc: Acc)
    requires name != "style" && e != Ident(sc.item)
    requires x in FreeVars(e) && x in BoundNames(sc)
    ensures RewriteAttr(Attr(name, DynAttr(e)), sc, acc)
      == Out(Attr(name, Bound(ItemRead(sc, GenericName(acc.d)))), AddGeneric(acc, Plain(e)))
  {
    assert x in FreeVars(e) * BoundNames(sc);
  }

  lemma StyleAttr(e: Expr, x: string, sc: Scope, acc: Acc)
    requires x in FreeVars(e) && x in BoundNames(sc)
    ensures RewriteAttr(Attr("style", DynAttr(e)), sc, acc)
      == Out(Attr("style", Bound(ItemRead(sc, StyleName(acc.s)))),
             acc.(fields := acc.fields + [Field(StyleName(acc.s), StyleField, Styled(e))], s := acc.s + 1))
  {
    assert x in FreeVars(e) * BoundNames(sc);
  }

  lemma BareItemChild(sc: Scope, acc: Acc)
    ensures RewriteNode(Dyn(Ident(sc.item)), sc, acc) == Out(Mustache(ItemRead(sc, sc.item)), acc)
  {
  }

  lemma GenericChild(e: Expr, x: string, sc: Scope, acc: Acc)
    requires e != Ident(sc.item)
    requires x in FreeVars(e) && x in BoundNames(sc)
    ensures RewriteNode(Dyn(e), sc, acc) == Out(Mustache(ItemRead(sc, GenericName(acc.d))), AddGeneric(acc, Plain(e)))
  {
    assert x in FreeVars(e) * BoundNames(sc);
  }

  lemma RenameOther0(op: string, a: string, b: string)
    ensures Rename(Other(op, []), a, b) == Other(op, [])
  {
  }

  lemma RenameOther2(op: string, x: Expr, y: Expr, a: string, b: string)
    ensures Rename(Other(op, [x, y]), a, b) == Other(op, [Rename(x, a, b), Rename(y, a, b)])
  {
  }

  lemma RenameCall1(f: Expr, x: Expr, a: string, b: string)
    ensures Rename(Call(f, [x]), a, b) == Call(Rename(f, a, b), [Rename(x, a, b)])
  {
  }

  lemma RenameObj1(k: string, x: Expr, a: string, b: string)
    ensures Rename(ObjLit([Prop(k, x)]), a, b) == ObjLit([Prop(k, Rename(x, a, b))])
  {
  }

  lemma RenameStmts1(st: Stmt, a: string, b: string)
    ensures RenameStmts([st], a, b) == [RenameStmt(st, a, b)]
  {
  }

  lemma RenameKids1(n0: Node, a: string, b: string)
    ensures RenameChildren([n0], a, b) == [RenameNode(n0, a, b)]
  {
    assert [n0][1..] == [];
  }

  lemma RenameKids2(n0: Node, n1: Node, a: string, b: string)
    ensures RenameChildren([n0, n1], a, b) == [RenameNode(n0, a, b), RenameNode(n1, a, b)]
  {
    assert [n0, n1][1..] == [n1];
    RenameKids1(n1, a, b);
  }

  lemma RenameElement(tag: string, attrs: seq<Attr>, kids: seq<Node>, a: string, b: string, attrs2: seq<Attr>)
    requires |attrs2| == |attrs|
    requires forall i :: 0 <= i < |attrs| ==> RenameAttr(attrs[i], a, b) == attrs2[i]
    ensures RenameNode(Element(tag, attrs, kids), a, b) == Element(tag, attrs2, RenameChildren(kids, a, b))
  {
  }

  /** Locals of a single `const` statement. */
  lemma Locals1(x: string, e: Expr)
    ensures Locals([Const(x, e)]) == {x}
  {
    assert [Const(x, e)][0].name == x;
  }

  // ---------------------------------------------------------------------
  // The tests
  // ---------------------------------------------------------------------

  /** `arr.map((val, idx) => <item data-value={val} data-key={idx} />)`,
      with a concise or a block body: the bare item is read as `val.val`
      with no field, and the index goes to `_d0` under its canonical name. */
  function ValIdx(): Node
  {
    Loop(Id("arr"), Callback(["val", "idx"], [],
      Element("item", [Attr("data-value", DynAttr(Id("val"))), Attr("data-key", DynAttr(Id("idx")))], [])))
  }

  function ValIdxCall(): LoweredCall
  {
    LoweredCall(Id("arr"), "val", "index0", [], [ItemField0("val"), Key(0), Field("_d0", GenericField, Plain(Id("index0")))])
  }

  function ValIdxBody(): Node
  {
    Element("item", [Attr("data-value", Bound(Dot("val", "val"))), Attr("data-key", Bound(Dot("val", "_d0")))], [])
  }

  lemma ValIdxSite()
    ensures LowerSite(ValIdx().source, ValIdx().callback, 0) == Site(ValIdxCall(), ValIdxBody(), 1)
  {
    Literals();
    var cb := ValIdx().callback;
    var a0 := Attr("data-value", DynAttr(Id("val")));
    var a1 := Attr("data-key", DynAttr(Id("index0")));
    var ret := Element("item", [a0, a1], []);
    assert RenameAttr(cb.ret.attrs[1], "idx", "index0") == a1;
    assert RenameNode(cb.ret, "idx", "index0") == ret;
    var sc := Scope("val", "index0", {});
    var acc0 := Acc(1, [], 0, 0, Plain(Id("val")));
    var acc1 := AddGeneric(acc0, Plain(Id("index0")));
    BareItemAttr("data-value", sc, acc0);
    GenericAttr("data-key", Id("index0"), "index0", sc, acc0);
    Attrs2(a0, a1, sc, acc0);
    NoAttrs(sc, acc1);
    assert RewriteNode(ret, sc, acc0) == Out(ValIdxBody(), acc1);
    SiteOf(Id("arr"), cb, 0, [], sc, ret, ValIdxBody(), acc1);
  }

  lemma InlineReturn()
    ensures Transform(Element("View", [], [ValIdx()]), 0)
      == Lowered(Element("View", [], [Block(LoopAttrs(Inline(ValIdxCall()), "val", "index0", "_key"), ValIdxBody())]), 1)
  {
    ValIdxSite();
    Top1("View", ValIdx(), 0);
  }

  /** `[1, 2, 3].map(() => <Text>test</Text>)`: with no parameter the item
      is named `item`, and a body that does not depend on the loop gives a
      record of just the item and the key. */
  function DefaultParams(): Node
  {
    Loop(Lit0("[1, 2, 3]"), Callback([], [], Element("Text", [], [Text("test")])))
  }

  lemma DefaultParamsSite()
    ensures LowerSite(DefaultParams().source, DefaultParams().callback, 0)
      == Site(LoweredCall(Lit0("[1, 2, 3]"), "item", "index0", [], [ItemField0("item"), Key(0)]),
              Element("Text", [], [Text("test")]), 1)
  {
    Literals();
    var cb := DefaultParams().callback;
    var sc := Scope("item", "index0", {});
    var acc0 := Acc(1, [], 0, 0, Plain(Id("item")));
    NoAttrs(sc, acc0);
    Kids1(Text("test"), sc, acc0);
    assert RewriteNode(cb.ret, sc, acc0) == Out(cb.ret, acc0);
    SiteOf(Lit0("[1, 2, 3]"), cb, 0, [], sc, cb.ret, cb.ret, acc0);
  }

  lemma ListDefaultParams()
    ensures Transform(Element("View", [], [DefaultParams()]), 0)
      == Lowered(Element("View", [], [Block(
        LoopAttrs(Inline(LoweredCall(Lit0("[1, 2, 3]"), "item", "index0", [], [ItemField0("item"), Key(0)])), "item", "index0", "_key"),
        Element("Text", [], [Text("test")]))]), 1)
  {
    DefaultParamsSite();
    Top1("View", DefaultParams(), 0);
  }

  /** `const style = { height: index * 100 + 'rpx' }; return <Text style={style}>test</Text>;`:
      the statement keeps its place with the index renamed, and the style
      value becomes `_s0: __create_style__(style)`, read as `item._s0`. */
  function StyleDecl(ix: string): Stmt
  {
    Const("style", ObjLit([Prop("height", Other("+", [Other("*", [Id(ix), Lit0("100")]), Lit0("'rpx'")]))]))
  }

  function ListStyleLoop(): Node
  {
    Loop(Lit0("[1, 2, 3]"), Callback(["item", "index"], [StyleDecl("index")],
      Element("Text", [Attr("style", DynAttr(Id("style")))], [Text("test")])))
  }

  lemma RenameStyleDecl(ix: string, a: string, b: string)
    ensures RenameStmts([StyleDecl(ix)], a, b) == [StyleDecl(if ix == a then b else ix)]
  {
    RenameStmts1(StyleDecl(ix), a, b);
    var mul := Other("*", [Id(ix), Lit0("100")]);
    RenameOther0("100", a, b);
    RenameOther0("'rpx'", a, b);
    RenameOther2("*", Id(ix), Lit0("100"), a, b);
    RenameOther2("+", mul, Lit0("'rpx'"), a, b);
    RenameObj1("height", Other("+", [mul, Lit0("'rpx'")]), a, b);
  }

  lemma ListStyleRewrite(sc: Scope, acc0: Acc)
    requires sc == Scope("item", "index0", {"style"}) && acc0 == Acc(1, [], 0, 0, Plain(Id("item")))
    ensures RewriteNode(ListStyleLoop().callback.ret, sc, acc0)
      == Out(Element("Text", [Attr("style", Bound(Dot("item", "_s0")))], [Text("test")]),
             Acc(1, [Field("_s0", StyleField, Styled(Id("style")))], 0, 1, Plain(Id("item"))))
  {
    var at := Attr("style", DynAttr(Id("style")));
    var acc1 := Acc(1, [Field("_s0", StyleField, Styled(Id("style")))], 0, 1, Plain(Id("item")));
    var body := Element("Text", [Attr("style", Bound(Dot("item", "_s0")))], [Text("test")]);
    assert RewriteAttrs([at], sc, acc0) == Out(body.attrs, acc1) by {
      Literals();
      StyleAttr(Id("style"), "style", sc, acc0);
      Attrs1(at, sc, acc0);
    }
    Kids1(Text("test"), sc, acc1);
    ElementStep("Text", [at], [Text("test")], sc, acc0, body.attrs, acc1, [Text("test")], acc1);
  }

  lemma ListStyleSite()
    ensures LowerSite(ListStyleLoop().source, ListStyleLoop().callback, 0)
      == Site(LoweredCall(Lit0("[1, 2, 3]"), "item", "index0", [StyleDecl("index0")],
                [ItemField0("item"), Key(0), Field("_s0", StyleField, Styled(Id("style")))]),
              Element("Text", [Attr("style", Bound(Dot("item", "_s0")))], [Text("test")]), 1)
  {
    Literals();
    var cb := ListStyleLoop().callback;
    var at := Attr("style", DynAttr(Id("style")));
    assert Canonical(cb, "index0") == Callback(cb.params, [StyleDecl("index0")], cb.ret) by {
      RenameStyleDecl("index", "index", "index0");
      assert RenameAttr(at, "index", "index0") == at;
      RenameKids1(Text("test"), "index", "index0");
      RenameElement("Text", [at], [Text("test")], "index", "index0", [at]);
    }
    var sc := Scope("item", "index0", {"style"});
    assert SiteScope(cb, 0) == sc by {
      Locals1("style", StyleDecl("index0").init);
    }
    var acc0 := Acc(1, [], 0, 0, Plain(Id("item")));
    var acc1 := Acc(1, [Field("_s0", StyleField, Styled(Id("style")))], 0, 1, Plain(Id("item")));
    var body := Element("Text", [Attr("style", Bound(Dot("item", "_s0")))], [Text("test")]);
    ListStyleRewrite(sc, acc0);
    SiteOf(Lit0("[1, 2, 3]"), cb, 0, [StyleDecl("index0")], sc, cb.ret, body, acc1);
  }

  lemma ListStyle()
    ensures Transform(Element("View", [], [ListStyleLoop()]), 0)
      == Lowered(Element("View", [], [Block(
        LoopAttrs(Inline(LoweredCall(Lit0("[1, 2, 3]"), "item", "index0", [StyleDecl("index0")],
          [ItemField0("item"), Key(0), Field("_s0", StyleField, Styled(Id("style")))])), "item", "index0", "_key"),
        Element("Text", [Attr("style", Bound(Dot("item", "_s0")))], [Text("test")]))]), 1)
  {
    ListStyleSite();
    Top1("View", ListStyleLoop(), 0);
  }

  /** `[[1, 2], [3, 4]].map((item, index) => <View>{item.map((it, idx) => { const style = { height: index * 100 + 'rpx' }; return <Text style={style}>{it}</Text>; })}</View>)`:
      the outer index is renamed inside the inner statement too, the inner
      record gets the style field, and the outer item field holds the inner
      call. */
  function InnerStyleCallback(ix: string): Callback
  {
    Callback(["it", "idx"], [StyleDecl(ix)], Element("Text", [Attr("style", DynAttr(Id("style")))], [Dyn(Id("it"))]))
  }

  function NestedStyleLoop(): Node
  {
    Loop(Lit0("[[1, 2], [3, 4]]"), Callback(["item", "index"], [],
      Element("View", [], [Loop(Id("item"), InnerStyleCallback("index"))])))
  }

  function NestedStyleInnerCall(): LoweredCall
  {
    LoweredCall(Id("item"), "it", "index1", [StyleDecl("index0")],
      [ItemField0("it"), Key(1), Field("_s0", StyleField, Styled(Id("style")))])
  }

  function NestedStyleInnerBody(): Node
  {
    Element("Text", [Attr("style", Bound(Dot("it", "_s0")))], [Mustache(Dot("it", "it"))])
  }

  /** The inner callback's body mentions neither index name. */
  lemma InnerStyleRetUnrenamed(a: string, b: string)
    requires a != "style" && a != "it"
    ensures RenameNode(InnerStyleCallback("index").ret, a, b) == InnerStyleCallback("index").ret
  {
    var ret := InnerStyleCallback("index").ret;
    assert RenameAttr(ret.attrs[0], a, b) == ret.attrs[0];
    RenameKids1(Dyn(Id("it")), a, b);
    RenameElement("Text", ret.attrs, ret.children, a, b, ret.attrs);
  }

  lemma NestedStyleInnerRewrite(sc: Scope, acc0: Acc)
    requires sc == Scope("it", "index1", {"style"}) && acc0 == Acc(2, [], 0, 0, Plain(Id("it")))
    ensures RewriteNode(InnerStyleCallback("index0").ret, sc, acc0)
      == Out(NestedStyleInnerBody(), Acc(2, [Field("_s0", StyleField, Styled(Id("style")))], 0, 1, Plain(Id("it"))))
  {
    Literals();
    var ret := InnerStyleCallback("index0").ret;
    var at := Attr("style", DynAttr(Id("style")));
    var acc1 := Acc(2, [Field("_s0", StyleField, Styled(Id("style")))], 0, 1, Plain(Id("it")));
    StyleAttr(Id("style"), "style", sc, acc0);
    Attrs1(at, sc, acc0);
    BareItemChild(sc, acc1);
    Kids1(Dyn(Id("it")), sc, acc1);
    ElementStep(ret.tag, ret.attrs, ret.children, sc, acc0, NestedStyleInnerBody().attrs, acc1, NestedStyleInnerBody().children, acc1);
  }

  lemma NestedStyleInnerSite()
    ensures LowerSite(Id("item"), InnerStyleCallback("index0"), 1) == Site(NestedStyleInnerCall(), NestedStyleInnerBody(), 2)
  {
    Literals();
    var cb := InnerStyleCallback("index0");
    assert Canonical(cb, "index1") == cb by {
      RenameStyleDecl("index0", "idx", "index1");
      InnerStyleRetUnrenamed("idx", "index1");
    }
    var sc := Scope("it", "index1", {"style"});
    assert SiteScope(cb, 1) == sc by {
      Locals1("style", StyleDecl("index0").init);
    }
    var acc0 := Acc(2, [], 0, 0, Plain(Id("it")));
    var at := Attr("style", DynAttr(Id("style")));
    var acc1 := Acc(2, [Field("_s0", StyleField, Styled(Id("style")))], 0, 1, Plain(Id("it")));
    NestedStyleInnerRewrite(sc, acc0);
    SiteOf(Id("item"), cb, 1, [StyleDecl("index0")], sc, cb.ret, NestedStyleInnerBody(), acc1);
  }

  lemma NestedStyleOuterRename()
    ensures RenameNode(NestedStyleLoop().callback.ret, "index", "index0")
      == Element("View", [], [Loop(Id("item"), InnerStyleCallback("index0"))])
  {
    var inner := InnerStyleCallback("index");
    Locals1("style", StyleDecl("index").init);
    assert !Shadows(inner, "index");
    RenameStyleDecl("index", "index", "index0");
    InnerStyleRetUnrenamed("index", "index0");
    RenameKids1(Loop(Id("item"), inner), "index", "index0");
    RenameElement("View", [], [Loop(Id("item"), inner)], "index", "index0", []);
  }

  /** The inner loop runs over the outer item, so the item field holds the inner call. */
  lemma NestedStyleRewrite(sc: Scope, acc0: Acc)
    requires sc == Scope("item", "index0", {}) && acc0 == Acc(1, [], 0, 0, Plain(Id("item")))
    ensures var ret := Element("View", [], [Loop(Id("item"), InnerStyleCallback("index0"))]);
      RewriteNode(ret, sc, acc0)
      == Out(Element("View", [], [Block(LoopAttrs(Path(Id("item")), "it", "index1", "_key"), NestedStyleInnerBody())]),
             Acc(2, [], 0, 0, Nested(NestedStyleInnerCall())))
  {
    Literals();
    var loop := Loop(Id("item"), InnerStyleCallback("index0"));
    var acc1 := Acc(2, [], 0, 0, Nested(NestedStyleInnerCall()));
    var blk := Block(LoopAttrs(Path(Id("item")), "it", "index1", "_key"), NestedStyleInnerBody());
    assert RewriteNode(loop, sc, acc0) == Out(blk, acc1) by {
      NestedStyleInnerSite();
    }
    Kids1(loop, sc, acc0);
    NoAttrs(sc, acc0);
    ElementStep("View", [], [loop], sc, acc0, [], acc0, [blk], acc1);
  }

  lemma NestedStyleCanonical()
    ensures Canonical(NestedStyleLoop().callback, "index0")
      == Callback(["item", "index"], [], Element("View", [], [Loop(Id("item"), InnerStyleCallback("index0"))]))
    ensures SiteScope(NestedStyleLoop().callback, 0) == Scope("item", "index0", {})
  {
    Literals();
    NestedStyleOuterRename();
    assert Locals([]) == {};
  }

  lemma NestedStyleSite()
    ensures LowerSite(NestedStyleLoop().source, NestedStyleLoop().callback, 0)
      == Site(LoweredCall(Lit0("[[1, 2], [3, 4]]"), "item", "index0", [],
                [Field("item", ItemField, Nested(NestedStyleInnerCall())), Key(0)]),
              Element("View", [], [Block(LoopAttrs(Path(Id("item")), "it", "index1", "_key"), NestedStyleInnerBody())]), 2)
  {
    var cb := NestedStyleLoop().callback;
    var ret := Element("View", [], [Loop(Id("item"), InnerStyleCallback("index0"))]);
    var sc := Scope("item", "index0", {});
    var acc0 := Acc(1, [], 0, 0, Plain(Id("item")));
    var acc1 := Acc(2, [], 0, 0, Nested(NestedStyleInnerCall()));
    var blk := Block(LoopAttrs(Path(Id("item")), "it", "index1", "_key"), NestedStyleInnerBody());
    NestedStyleCanonical();
    NestedStyleRewrite(sc, acc0);
    SiteOf(Lit0("[[1, 2], [3, 4]]"), cb, 0, [], sc, ret, Element("View", [], [blk]), acc1);
    HeadOnly("item", acc1.itemValue, 0, acc1.fields);
  }

  lemma NestedListStyle()
    ensures Transform(Element("View", [], [NestedStyleLoop()]), 0)
      == Lowered(Element("View", [], [Block(
        LoopAttrs(Inline(LoweredCall(Lit0("[[1, 2], [3, 4]]"), "item", "index0", [],
          [Field("item", ItemField, Nested(NestedStyleInnerCall())), Key(0)])), "item", "index0", "_key"),
        Element("View", [], [Block(LoopAttrs(Path(Id("item")), "it", "index1", "_key"), NestedStyleInnerBody())]))]), 2)
  {
    NestedStyleSite();
    Top1("View", NestedStyleLoop(), 0);
  }

  /** `[1, 2, 3].map((val, idx) => { return <Text>{idx}</Text>; })`. */
  function ElementsLoop(): Node
  {
    Loop(Lit0("[1, 2, 3]"), Callback(["val", "idx"], [], Element("Text", [], [Dyn(Id("idx"))])))
  }

  lemma ElementsSite()
    ensures LowerSite(ElementsLoop().source, ElementsLoop().callback, 0)
      == Site(LoweredCall(Lit0("[1, 2, 3]"), "val", "index0", [],
                [ItemField0("val"), Key(0), Field("_d0", GenericField, Plain(Id("index0")))]),
              Element("Text", [], [Mustache(Dot("val", "_d0"))]), 1)
  {
    Literals();
    var cb := ElementsLoop().callback;
    RenameKids1(Dyn(Id("idx")), "idx", "index0");
    RenameElement("Text", [], [Dyn(Id("idx"))], "idx", "index0", []);
    var ret := Element("Text", [], [Dyn(Id("index0"))]);
    assert Canonical(cb, "index0").ret == ret;
    var sc := Scope("val", "index0", {});
    assert SiteScope(cb, 0) == sc;
    var acc0 := Acc(1, [], 0, 0, Plain(Id("val")));
    GenericChild(Id("index0"), "index0", sc, acc0);
    Kids1(Dyn(Id("index0")), sc, acc0);
    NoAttrs(sc, acc0);
    var body := Element("Text", [], [Mustache(Dot("val", "_d0"))]);
    var acc1 := AddGeneric(acc0, Plain(Id("index0")));
    assert RewriteNode(ret, sc, acc0) == Out(body, acc1);
    SiteOf(Lit0("[1, 2, 3]"), cb, 0, [], sc, ret, body, acc1);
  }

  lemma ListElements()
    ensures Transform(Element("View", [], [ElementsLoop()]), 0)
      == Lowered(Element("View", [], [Block(
        LoopAttrs(Inline(LoweredCall(Lit0("[1, 2, 3]"), "val", "index0", [],
          [ItemField0("val"), Key(0), Field("_d0", GenericField, Plain(Id("index0")))])), "val", "index0", "_key"),
        Element("Text", [], [Mustache(Dot("val", "_d0"))]))]), 1)
  {
    ElementsSite();
    Top1("View", ElementsLoop(), 0);
  }

  /** `[1, 2, 3].map((item, index) => (<Text>test</Text>))`: a concise body
      with two parameters still gets the canonical index and a bare record. */
  function NoReturnLoop(): Node
  {
    Loop(Lit0("[1, 2, 3]"), Callback(["item", "index"], [], Element("Text", [], [Text("test")])))
  }

  lemma NoReturnSite()
    ensures LowerSite(NoReturnLoop().source, NoReturnLoop().callback, 0)
      == Site(LoweredCall(Lit0("[1, 2, 3]"), "item", "index0", [], [ItemField0("item"), Key(0)]),
              Element("Text", [], [Text("test")]), 1)
  {
    Literals();
    var cb := NoReturnLoop().callback;
    RenameKids1(Text("test"), "index", "index0");
    RenameElement("Text", [], [Text("test")], "index", "index0", []);
    assert Canonical(cb, "index0").ret == cb.ret;
    var sc := Scope("item", "index0", {});
    assert SiteScope(cb, 0) == sc;
    var acc0 := Acc(1, [], 0, 0, Plain(Id("item")));
    NoAttrs(sc, acc0);
    Kids1(Text("test"), sc, acc0);
    assert RewriteNode(cb.ret, sc, acc0) == Out(cb.ret, acc0);
    SiteOf(Lit0("[1, 2, 3]"), cb, 0, [], sc, cb.ret, cb.ret, acc0);
  }

  lemma MapFunctionWithoutReturn()
    ensures Transform(Element("View", [], [NoReturnLoop()]), 0)
      == Lowered(Element("View", [], [Block(
        LoopAttrs(Inline(LoweredCall(Lit0("[1, 2, 3]"), "item", "index0", [], [ItemField0("item"), Key(0)])), "item", "index0", "_key"),
        Element("Text", [], [Text("test")]))]), 1)
  {
    NoReturnSite();
    Top1("View", NoReturnLoop(), 0);
  }

  /** `arr.map((val, idx) => <View data-value={val} data-key={idx}>{format(idx)}</View>)`:
      attributes are visited before children, so the index gets `_d0` and
      the call `format(index0)` gets `_d1`. */
  function FormatLoop(): Node
  {
    Loop(Id("arr"), Callback(["val", "idx"], [],
      Element("View", [Attr("data-value", DynAttr(Id("val"))), Attr("data-key", DynAttr(Id("idx")))],
        [Dyn(Call(Id("format"), [Id("idx")]))])))
  }

  function FormatCall(): LoweredCall
  {
    LoweredCall(Id("arr"), "val", "index0", [],
      [ItemField0("val"), Key(0), Field("_d0", GenericField, Plain(Id("index0"))),
       Field("_d1", GenericField, Plain(Call(Id("format"), [Id("index0")])))])
  }

  function FormatBody(): Node
  {
    Element("View", [Attr("data-value", Bound(Dot("val", "val"))), Attr("data-key", Bound(Dot("val", "_d0")))],
      [Mustache(Dot("val", "_d1"))])
  }

  /** The canonical body: `idx` renamed to `index0` in the attribute and in the call. */
  function FormatRet(): Node
  {
    Element("View", [Attr("data-value", DynAttr(Id("val"))), Attr("data-key", DynAttr(Id("index0")))],
      [Dyn(Call(Id("format"), [Id("index0")]))])
  }

  lemma FormatRename()
    ensures Canonical(FormatLoop().callback, "index0").ret == FormatRet()
  {
    var cb := FormatLoop().callback;
    var a0 := Attr("data-value", DynAttr(Id("val")));
    var a1 := Attr("data-key", DynAttr(Id("index0")));
    assert RenameAttr(cb.ret.attrs[0], "idx", "index0") == a0;
    assert RenameAttr(cb.ret.attrs[1], "idx", "index0") == a1;
    RenameCall1(Id("format"), Id("idx"), "idx", "index0");
    RenameKids1(Dyn(Call(Id("format"), [Id("idx")])), "idx", "index0");
    RenameElement("View", cb.ret.attrs, cb.ret.children, "idx", "index0", [a0, a1]);
  }

  lemma FormatAttrs(sc: Scope, acc0: Acc)
    requires sc == Scope("val", "index0", {}) && acc0.d == 0
    ensures RewriteAttrs(FormatRet().attrs, sc, acc0) == Out(FormatBody().attrs, AddGeneric(acc0, Plain(Id("index0"))))
  {
    Literals();
    var ret := FormatRet();
    BareItemAttr("data-value", sc, acc0);
    GenericAttr("data-key", Id("index0"), "index0", sc, acc0);
    Attrs2(ret.attrs[0], ret.attrs[1], sc, acc0);
  }

  lemma FormatKids(sc: Scope, acc1: Acc)
    requires sc == Scope("val", "index0", {}) && acc1.d == 1
    ensures var fmt := Call(Id("format"), [Id("index0")]);
      RewriteChildren(FormatRet().children, sc, acc1) == Out(FormatBody().children, AddGeneric(acc1, Plain(fmt)))
  {
    Literals();
    var fmt := Call(Id("format"), [Id("index0")]);
    assert "index0" in FreeVars(fmt.args[0]);
    GenericChild(fmt, "index0", sc, acc1);
    Kids1(Dyn(fmt), sc, acc1);
  }

  lemma FormatRewrite(sc: Scope, acc0: Acc)
    requires sc == Scope("val", "index0", {}) && acc0 == Acc(1, [], 0, 0, Plain(Id("val")))
    ensures var fmt := Call(Id("format"), [Id("index0")]);
      RewriteNode(FormatRet(), sc, acc0)
      == Out(FormatBody(), AddGeneric(AddGeneric(acc0, Plain(Id("index0"))), Plain(fmt)))
  {
    var ret := FormatRet();
    var acc1 := AddGeneric(acc0, Plain(Id("index0")));
    var acc2 := AddGeneric(acc1, Plain(Call(Id("format"), [Id("index0")])));
    FormatAttrs(sc, acc0);
    FormatKids(sc, acc1);
    ElementStep("View", ret.attrs, ret.children, sc, acc0, FormatBody().attrs, acc1, FormatBody().children, acc2);
  }

  lemma FormatSite()
    ensures LowerSite(FormatLoop().source, FormatLoop().callback, 0) == Site(FormatCall(), FormatBody(), 1)
  {
    Literals();
    var cb := FormatLoop().callback;
    var sc := Scope("val", "index0", {});
    var acc0 := Acc(1, [], 0, 0, Plain(Id("val")));
    var acc2 := AddGeneric(AddGeneric(acc0, Plain(Id("index0"))), Plain(Call(Id("format"), [Id("index0")])));
    FormatRename();
    FormatRewrite(sc, acc0);
    assert SiteScope(cb, 0) == sc;
    SiteOf(Id("arr"), cb, 0, [], sc, FormatRet(), FormatBody(), acc2);
  }

  lemma FormatFunctionInLoop()
    ensures Transform(Element("View", [], [FormatLoop()]), 0)
      == Lowered(Element("View", [], [Block(LoopAttrs(Inline(FormatCall()), "val", "index0", "_key"), FormatBody())]), 1)
  {
    FormatSite();
    Top1("View", FormatLoop(), 0);
  }

  /** `arr.map((item, idx) => <View>{item.title}<image source={{ uri: item.picUrl }} resizeMode={resizeMode} /></View>)`:
      the member read and the object literal get `_d0` and `_d1` in
      document order, and `resizeMode`, which the loop does not bind, is
      left in place. */
  function BindLoop(): Node
  {
    Loop(Id("arr"), Callback(["item", "idx"], [],
      Element("View", [], [Dyn(Dot("item", "title")),
        Element("image", [Attr("source", DynAttr(ObjLit([Prop("uri", Dot("item", "picUrl"))]))),
                          Attr("resizeMode", DynAttr(Id("resizeMode")))], [])])))
  }

  function BindCall(): LoweredCall
  {
    LoweredCall(Id("arr"), "item", "index0", [],
      [ItemField0("item"), Key(0), Field("_d0", GenericField, Plain(Dot("item", "title"))),
       Field("_d1", GenericField, Plain(ObjLit([Prop("uri", Dot("item", "picUrl"))])))])
  }

  function BindBody(): Node
  {
    Element("View", [], [Mustache(Dot("item", "_d0")),
      Element("image", [Attr("source", Bound(Dot("item", "_d1"))), Attr("resizeMode", DynAttr(Id("resizeMode")))], [])])
  }

  lemma BindRename()
    ensures RenameNode(BindLoop().callback.ret, "idx", "index0") == BindLoop().callback.ret
  {
    var ret := BindLoop().callback.ret;
    var img := ret.children[1];
    var obj := ObjLit([Prop("uri", Dot("item", "picUrl"))]);
    RenameObj1("uri", Dot("item", "picUrl"), "idx", "index0");
    assert RenameAttr(img.attrs[0], "idx", "index0") == img.attrs[0];
    assert RenameAttr(img.attrs[1], "idx", "index0") == img.attrs[1];
    RenameElement("image", img.attrs, [], "idx", "index0", img.attrs);
    assert RenameChildren([], "idx", "index0") == [];
    RenameKids2(ret.children[0], img, "idx", "index0");
    RenameElement("View", [], ret.children, "idx", "index0", []);
  }

  /** The `<image>` child: the object literal reads the item, `resizeMode` does not. */
  lemma BindImage(sc: Scope, acc1: Acc)
    requires sc == Scope("item", "index0", {}) && acc1 == AddGeneric(Acc(1, [], 0, 0, Plain(Id("item"))), Plain(Dot("item", "title")))
    ensures RewriteNode(BindLoop().callback.ret.children[1], sc, acc1)
      == Out(BindBody().children[1], AddGeneric(acc1, Plain(ObjLit([Prop("uri", Dot("item", "picUrl"))]))))
  {
    Literals();
    var img := BindLoop().callback.ret.children[1];
    var obj := ObjLit([Prop("uri", Dot("item", "picUrl"))]);
    var acc2 := AddGeneric(acc1, Plain(obj));
    assert RewriteAttr(img.attrs[0], sc, acc1) == Out(BindBody().children[1].attrs[0], acc2) by {
      assert "item" in FreeVars(obj.props[0].value);
      GenericAttr("source", obj, "item", sc, acc1);
    }
    assert RewriteAttr(img.attrs[1], sc, acc2) == Out(img.attrs[1], acc2) by {
      FreeName("resizeMode", sc);
      KeepAttr(img.attrs[1], sc, acc2);
    }
    Attrs2(img.attrs[0], img.attrs[1], sc, acc1);
    assert RewriteChildren([], sc, acc2) == Out([], acc2);
  }

  lemma BindKids(sc: Scope, acc0: Acc)
    requires sc == Scope("item", "index0", {}) && acc0 == Acc(1, [], 0, 0, Plain(Id("item")))
    ensures var acc1 := AddGeneric(acc0, Plain(Dot("item", "title")));
      RewriteChildren(BindLoop().callback.ret.children, sc, acc0)
      == Out(BindBody().children, AddGeneric(acc1, Plain(ObjLit([Prop("uri", Dot("item", "picUrl"))]))))
  {
    var kids := BindLoop().callback.ret.children;
    var acc1 := AddGeneric(acc0, Plain(Dot("item", "title")));
    GenericChild(Dot("item", "title"), "item", sc, acc0);
    Literals();
    BindImage(sc, acc1);
    Kids2(kids[0], kids[1], sc, acc0);
  }

  lemma BindRewrite(sc: Scope, acc0: Acc)
    requires sc == Scope("item", "index0", {}) && acc0 == Acc(1, [], 0, 0, Plain(Id("item")))
    ensures var acc1 := AddGeneric(acc0, Plain(Dot("item", "title")));
      RewriteNode(BindLoop().callback.ret, sc, acc0)
      == Out(BindBody(), AddGeneric(acc1, Plain(ObjLit([Prop("uri", Dot("item", "picUrl"))]))))
  {
    var ret := BindLoop().callback.ret;
    var acc1 := AddGeneric(acc0, Plain(Dot("item", "title")));
    var acc2 := AddGeneric(acc1, Plain(ObjLit([Prop("uri", Dot("item", "picUrl"))])));
    BindKids(sc, acc0);
    NoAttrs(sc, acc0);
    ElementStep("View", [], ret.children, sc, acc0, [], acc0, BindBody().children, acc2);
  }

  lemma BindSite()
    ensures LowerSite(BindLoop().source, BindLoop().callback, 0) == Site(BindCall(), BindBody(), 1)
  {
    Literals();
    var cb := BindLoop().callback;
    assert Canonical(cb, "index0") == cb by {
      BindRename();
    }
    var sc := Scope("item", "index0", {});
    assert SiteScope(cb, 0) == sc;
    var acc0 := Acc(1, [], 0, 0, Plain(Id("item")));
    var acc1 := AddGeneric(acc0, Plain(Dot("item", "title")));
    var acc2 := AddGeneric(acc1, Plain(ObjLit([Prop("uri", Dot("item", "picUrl"))])));
    BindRewrite(sc, acc0);
    SiteOf(Id("arr"), cb, 0, [], sc, cb.ret, BindBody(), acc2);
  }

  lemma BindListVariable()
    ensures Transform(Element("View", [], [BindLoop()]), 0)
      == Lowered(Element("View", [], [Block(LoopAttrs(Inline(BindCall()), "item", "index0", "_key"), BindBody())]), 1)
  {
    BindSite();
    Top1("View", BindLoop(), 0);
  }

  /** `const a = index * 2 + 10; return <Text>{a}</Text>;`: the local is
      loop-bound, so `{a}` becomes `_d0: a`, and the statement reads the
      canonical index. */
  function ExprDecl(ix: string): Stmt
  {
    Const("a", Other("+", [Other("*", [Id(ix), Lit0("2")]), Lit0("10")]))
  }

  function ExprLoop(): Node
  {
    Loop(Lit0("[1, 2, 3]"), Callback(["item", "index"], [ExprDecl("index")], Element("Text", [], [Dyn(Id("a"))])))
  }

  lemma ExprSite()
    ensures LowerSite(ExprLoop().source, ExprLoop().callback, 0)
      == Site(LoweredCall(Lit0("[1, 2, 3]"), "item", "index0", [ExprDecl("index0")],
                [ItemField0("item"), Key(0), Field("_d0", GenericField, Plain(Id("a")))]),
              Element("Text", [], [Mustache(Dot("item", "_d0"))]), 1)
  {
    Literals();
    var cb := ExprLoop().callback;
    assert Canonical(cb, "index0") == Callback(cb.params, [ExprDecl("index0")], cb.ret) by {
      var mul := Other("*", [Id("index"), Lit0("2")]);
      RenameStmts1(ExprDecl("index"), "index", "index0");
      RenameOther0("2", "index", "index0");
      RenameOther0("10", "index", "index0");
      RenameOther2("*", Id("index"), Lit0("2"), "index", "index0");
      RenameOther2("+", mul, Lit0("10"), "index", "index0");
      RenameKids1(Dyn(Id("a")), "index", "index0");
      RenameElement("Text", [], [Dyn(Id("a"))], "index", "index0", []);
    }
    var sc := Scope("item", "index0", {"a"});
    assert SiteScope(cb, 0) == sc by {
      Locals1("a", ExprDecl("index0").init);
    }
    var acc0 := Acc(1, [], 0, 0, Plain(Id("item")));
    var acc1 := AddGeneric(acc0, Plain(Id("a")));
    var body := Element("Text", [], [Mustache(Dot("item", "_d0"))]);
    assert RewriteNode(cb.ret, sc, acc0) == Out(body, acc1) by {
      GenericChild(Id("a"), "a", sc, acc0);
      Kids1(Dyn(Id("a")), sc, acc0);
      NoAttrs(sc, acc0);
    }
    SiteOf(Lit0("[1, 2, 3]"), cb, 0, [ExprDecl("index0")], sc, cb.ret, body, acc1);
  }

  lemma UseExpressionInMapFn()
    ensures Transform(Element("View", [], [ExprLoop()]), 0)
      == Lowered(Element("View", [], [Block(
        LoopAttrs(Inline(LoweredCall(Lit0("[1, 2, 3]"), "item", "index0", [ExprDecl("index0")],
          [ItemField0("item"), Key(0), Field("_d0", GenericField, Plain(Id("a")))])), "item", "index0", "_key"),
        Element("Text", [], [Mustache(Dot("item", "_d0"))]))]), 1)
  {
    ExprSite();
    Top1("View", ExprLoop(), 0);
  }

  // ---------------------------------------------------------------------
  // Nested lists: `arr.map(l1 => { stmts; return <View>{src.map(l2 => <View>{l2}</View>)}</View>; })`
  // ---------------------------------------------------------------------

  function InnerCallback(): Callback
  {
    Callback(["l2"], [], Element("View", [], [Dyn(Id("l2"))]))
  }

  function InnerCall(src: Expr): LoweredCall
  {
    LoweredCall(src, "l2", "index1", [], [ItemField0("l2"), Key(1)])
  }

  function InnerBody(): Node
  {
    Element("View", [], [Mustache(Dot("l2", "l2"))])
  }

  function NestedLoop(src: Expr, stmts: seq<Stmt>): Node
  {
    Loop(Id("arr"), Callback(["l1"], stmts, Element("View", [], [Loop(src, InnerCallback())])))
  }

  /** The inner loop is the second site, whatever it maps over. */
  lemma InnerSite(src: Expr)
    ensures LowerSite(src, InnerCallback(), 1) == Site(InnerCall(src), InnerBody(), 2)
  {
    Literals();
    var cb := InnerCallback();
    var sc := Scope("l2", "index1", {});
    assert SiteScope(cb, 1) == sc;
    var acc := Acc(2, [], 0, 0, Plain(Id("l2")));
    BareItemChild(sc, acc);
    Kids1(Dyn(Id("l2")), sc, acc);
    NoAttrs(sc, acc);
    assert RewriteNode(cb.ret, sc, acc) == Out(InnerBody(), acc);
    SiteOf(src, cb, 1, [], sc, cb.ret, InnerBody(), acc);
  }

  /** The outer site and the top level, given how the inner loop is rewritten. */
  lemma NestedTop(src: Expr, stmts: seq<Stmt>, inner: Node, acc: Acc)
    requires RewriteNode(Loop(src, InnerCallback()), Scope("l1", "index0", Locals(stmts)), Acc(1, [], 0, 0, Plain(Id("l1"))))
      == Out(inner, acc)
    ensures var call := LoweredCall(Id("arr"), "l1", "index0", stmts, [Field("l1", ItemField, acc.itemValue), Key(0)] + acc.fields);
      Transform(Element("View", [], [NestedLoop(src, stmts)]), 0)
      == Lowered(Element("View", [], [Block(LoopAttrs(Inline(call), "l1", "index0", "_key"), Element("View", [], [inner]))]), acc.counter)
  {
    Literals();
    var loop := NestedLoop(src, stmts);
    var cb := loop.callback;
    var sc := Scope("l1", "index0", Locals(stmts));
    assert SiteScope(cb, 0) == sc;
    var acc0 := Acc(1, [], 0, 0, Plain(Id("l1")));
    Kids1(Loop(src, InnerCallback()), sc, acc0);
    NoAttrs(sc, acc0);
    assert RewriteNode(cb.ret, sc, acc0) == Out(Element("View", [], [inner]), acc);
    SiteOf(Id("arr"), cb, 0, stmts, sc, cb.ret, Element("View", [], [inner]), acc);
    Top1("View", loop, 0);
  }

  /** `l1.map(...)`: the inner call replaces the item's own field. */
  lemma NestedListRewrite()
    ensures RewriteNode(Loop(Id("l1"), InnerCallback()), Scope("l1", "index0", {}), Acc(1, [], 0, 0, Plain(Id("l1"))))
      == Out(Block(LoopAttrs(Path(Id("l1")), "l2", "index1", "_key"), InnerBody()),
             Acc(2, [], 0, 0, Nested(InnerCall(Id("l1")))))
  {
    InnerSite(Id("l1"));
  }

  lemma NestedList()
    ensures Transform(Element("View", [], [NestedLoop(Id("l1"), [])]), 0)
      == Lowered(Element("View", [], [Block(
        LoopAttrs(Inline(LoweredCall(Id("arr"), "l1", "index0", [],
          [Field("l1", ItemField, Nested(InnerCall(Id("l1")))), Key(0)])), "l1", "index0", "_key"),
        Element("View", [], [Block(LoopAttrs(Path(Id("l1")), "l2", "index1", "_key"), InnerBody())]))]), 2)
  {
    NestedListRewrite();
    assert Locals([]) == {};
    var acc := Acc(2, [], 0, 0, Nested(InnerCall(Id("l1"))));
    NestedTop(Id("l1"), [], Block(LoopAttrs(Path(Id("l1")), "l2", "index1", "_key"), InnerBody()), acc);
    HeadOnly("l1", acc.itemValue, 0, acc.fields);
  }

  /** `list[l1].map(...)`: the source is not a path into the record, so the
      inner call becomes `_d0` and the inner wrapper loops over `_d0`. */
  lemma NestedWithoutRelationRewrite()
    ensures var src := Index(Id("list"), Id("l1"));
      RewriteNode(Loop(src, InnerCallback()), Scope("l1", "index0", {}), Acc(1, [], 0, 0, Plain(Id("l1"))))
      == Out(Block(LoopAttrs(Path(Id("_d0")), "l2", "index1", "_key"), InnerBody()),
             AddGeneric(Acc(2, [], 0, 0, Plain(Id("l1"))), Nested(InnerCall(src))))
  {
    Literals();
    var src := Index(Id("list"), Id("l1"));
    InnerSite(src);
    var acc := Acc(1, [], 0, 0, Plain(Id("l1")));
    UnrelatedLoop(src, InnerCallback(), Scope("l1", "index0", {}), acc);
    assert Wrapper(Path(Ident(GenericName(0))), InnerCall(src), InnerBody())
      == Block(LoopAttrs(Path(Id("_d0")), "l2", "index1", "_key"), InnerBody());
    assert acc.(counter := 2) == Acc(2, [], 0, 0, Plain(Id("l1")));
  }

  lemma NestedListWithoutRelation()
    ensures var src := Index(Id("list"), Id("l1"));
      Transform(Element("View", [], [NestedLoop(src, [])]), 0)
      == Lowered(Element("View", [], [Block(
        LoopAttrs(Inline(LoweredCall(Id("arr"), "l1", "index0", [],
          [ItemField0("l1"), Key(0), Field("_d0", GenericField, Nested(InnerCall(src)))])), "l1", "index0", "_key"),
        Element("View", [], [Block(LoopAttrs(Path(Id("_d0")), "l2", "index1", "_key"), InnerBody())]))]), 2)
  {
    Literals();
    var src := Index(Id("list"), Id("l1"));
    NestedWithoutRelationRewrite();
    assert Locals([]) == {};
    var acc := AddGeneric(Acc(2, [], 0, 0, Plain(Id("l1"))), Nested(InnerCall(src)));
    NestedTop(src, [], Block(LoopAttrs(Path(Id("_d0")), "l2", "index1", "_key"), InnerBody()), acc);
    assert [Field("l1", ItemField, acc.itemValue), Key(0)] + acc.fields
      == [ItemField0("l1"), Key(0), Field("_d0", GenericField, Nested(InnerCall(src)))];
  }

  /** `l1.list.map(...)`: the item field becomes `{ ...l1, list: call }`. */
  lemma NestedItemPropertyRewrite()
    ensures RewriteNode(Loop(Dot("l1", "list"), InnerCallback()), Scope("l1", "index0", {}), Acc(1, [], 0, 0, Plain(Id("l1"))))
      == Out(Block(LoopAttrs(Path(Dot("l1", "list")), "l2", "index1", "_key"), InnerBody()),
             Acc(2, [], 0, 0, Spread("l1", "list", InnerCall(Dot("l1", "list")))))
  {
    InnerSite(Dot("l1", "list"));
  }

  lemma NestedListWithItemProperty()
    ensures var src := Dot("l1", "list");
      Transform(Element("View", [], [NestedLoop(src, [])]), 0)
      == Lowered(Element("View", [], [Block(
        LoopAttrs(Inline(LoweredCall(Id("arr"), "l1", "index0", [],
          [Field("l1", ItemField, Spread("l1", "list", InnerCall(src))), Key(0)])), "l1", "index0", "_key"),
        Element("View", [], [Block(LoopAttrs(Path(src), "l2", "index1", "_key"), InnerBody())]))]), 2)
  {
    var src := Dot("l1", "list");
    NestedItemPropertyRewrite();
    assert Locals([]) == {};
    var acc := Acc(2, [], 0, 0, Spread("l1", "list", InnerCall(src)));
    NestedTop(src, [], Block(LoopAttrs(Path(src), "l2", "index1", "_key"), InnerBody()), acc);
    HeadOnly("l1", acc.itemValue, 0, acc.fields);
  }

  /** `const a = l1 || []; ... a.map(...)`: a loop-local source becomes a
      record field under its own name. */
  function TempDecl(): Stmt
  {
    Const("a", Other("||", [Id("l1"), Lit0("[]")]))
  }

  lemma NestedTempRewrite()
    ensures RewriteNode(Loop(Id("a"), InnerCallback()), Scope("l1", "index0", {"a"}), Acc(1, [], 0, 0, Plain(Id("l1"))))
      == Out(Block(LoopAttrs(Path(Id("a")), "l2", "index1", "_key"), InnerBody()),
             Push(Acc(2, [], 0, 0, Plain(Id("l1"))), Field("a", LocalField, Nested(InnerCall(Id("a"))))))
  {
    InnerSite(Id("a"));
  }

  lemma NestedListWithTempVariable()
    ensures Transform(Element("View", [], [NestedLoop(Id("a"), [TempDecl()])]), 0)
      == Lowered(Element("View", [], [Block(
        LoopAttrs(Inline(LoweredCall(Id("arr"), "l1", "index0", [TempDecl()],
          [ItemField0("l1"), Key(0), Field("a", LocalField, Nested(InnerCall(Id("a"))))])), "l1", "index0", "_key"),
        Element("View", [], [Block(LoopAttrs(Path(Id("a")), "l2", "index1", "_key"), InnerBody())]))]), 2)
  {
    NestedTempRewrite();
    Locals1("a", TempDecl().init);
    var acc := Push(Acc(2, [], 0, 0, Plain(Id("l1"))), Field("a", LocalField, Nested(InnerCall(Id("a")))));
    NestedTop(Id("a"), [TempDecl()], Block(LoopAttrs(Path(Id("a")), "l2", "index1", "_key"), InnerBody()), acc);
    assert [Field("l1", ItemField, acc.itemValue), Key(0)] + acc.fields
      == [ItemField0("l1"), Key(0), Field("a", LocalField, Nested(InnerCall(Id("a"))))];
  }
}

=== FILE: textarea.dfy ===
/** The textarea element of miniapp-render (`node/element/textarea.js`):
    attribute aliasing for focus, the `__changed` flag, and the property
    accessors layered over the element's attribute store. The base
    element's `setAttribute(name, v, immediate)` is taken to be the store's
    `set(name, v, immediate)`, and its delayed variant `set(name, v, false)`. */
module Textarea {
  import opened Base
  import opened Js
  import Attributes

  datatype TextArea = TextArea(attrs: Attributes.Store, changed: bool)

  function Init(path: string): (t: TextArea)
    ensures !t.changed && t.attrs.values == map[]
  {
    TextArea(Attributes.Init(path), false)
  }

  predicate IsFocusAlias(name: string)
  {
    name == "focus" || name == "autofocus" || name == "autoFocus"
  }

  /** The three spellings of focus all address `focus-state`; other names pass through. */
  function Alias(name: string): (r: string)
    ensures IsFocusAlias(name) ==> r == "focus-state"
    ensures !IsFocusAlias(name) ==> r == name
    ensures r == "value" <==> name == "value"
  {
    if IsFocusAlias(name) then "focus-state" else name
  }

  function SetAttribute(t: TextArea, name: string, v: Value, immediate: bool): (r: TextArea)
    ensures r.attrs == Attributes.Set(t.attrs, Alias(name), v, immediate)
    ensures r.changed <==> t.changed || name == "value"
  {
    var n := Alias(name);
    TextArea(Attributes.Set(t.attrs, n, v, immediate), t.changed || n == "value")
  }

  /** Sets without an immediate update. */
  function SetAttributeWithDelayUpdate(t: TextArea, name: string, v: Value): (r: TextArea)
    ensures r.attrs == Attributes.Set(t.attrs, Alias(name), v, false)
    ensures r.changed <==> t.changed || name == "value"
  {
    var n := Alias(name);
    TextArea(Attributes.Set(t.attrs, n, v, false), t.changed || n == "value")
  }

  /** `getAttribute`: the focus spellings read `focus-state`; every other
      name reads through the store unchanged. */
  function GetAttribute(t: TextArea, name: string): (r: Value)
    ensures IsFocusAlias(name) ==> r == Attributes.Get(t.attrs, "focus-state")
    ensures !IsFocusAlias(name) ==> r == Attributes.Get(t.attrs, name)
  {
    Attributes.Get(t.attrs, Alias(name))
  }

  // ---------------------------------------------------------------------
  // Property accessors
  // ---------------------------------------------------------------------

  /** The `name` getter: the stored name when truthy, null otherwise. */
  function Name(t: TextArea): (r: Value)
    ensures r == Null <==> "name" !in t.attrs.values || Falsy(t.attrs.values["name"])
    ensures r != Null ==> r == t.attrs.values["name"]
  {
    Attributes.NotDataName("name", 0);
    Attributes.Get(t.attrs, "name")
  }

  function SetName(t: TextArea, v: Value): (r: TextArea)
    ensures r.changed == t.changed
    ensures "name" in r.attrs.values && r.attrs.values["name"] == Str(ToStr(v))
  {
    t.(attrs := Attributes.Set(t.attrs, "name", Str(ToStr(v)), true))
  }

  /** The `type` getter: the stored type when truthy, `textarea` otherwise. */
  function Type(t: TextArea): (r: Value)
    ensures !Falsy(r)
    ensures !Falsy(Attributes.Get(t.attrs, "type")) ==> r == Attributes.Get(t.attrs, "type")
    ensures Falsy(Attributes.Get(t.attrs, "type")) ==> r == Str("textarea")
  {
    Or(Attributes.Get(t.attrs, "type"), Str("textarea"))
  }

  function SetType(t: TextArea, v: Value): (r: TextArea)
    ensures r.changed == t.changed
    ensures "type" in r.attrs.values && r.attrs.values["type"] == Str(ToStr(v))
  {
    t.(attrs := Attributes.Set(t.attrs, "type", Str(ToStr(v)), true))
  }

  /** The stored value when truthy; otherwise `defaultValue` while the value
      has never been written; and `''` when that is falsy too. */
  function Value(t: TextArea): (r: Value)
    ensures !Falsy(Attributes.Get(t.attrs, "value")) ==> r == Attributes.Get(t.attrs, "value")
    ensures Falsy(Attributes.Get(t.attrs, "value")) && t.changed ==> r == Str("")
    ensures (!t.changed && Falsy(Attributes.Get(t.attrs, "value"))
      && !Falsy(Attributes.Get(t.attrs, "defaultValue"))) ==> r == Attributes.Get(t.attrs, "defaultValue")
    ensures (Falsy(Attributes.Get(t.attrs, "value"))
      && (t.changed || Falsy(Attributes.Get(t.attrs, "defaultValue")))) ==> r == Str("")
    ensures Falsy(r) ==> r == Str("")
  {
    var stored := Attributes.Get(t.attrs, "value");
    var v := if Falsy(stored) && !t.changed then Attributes.Get(t.attrs, "defaultValue") else stored;
    Or(v, Str(""))
  }

  /** The `value` setter: marks the textarea changed and stores `'' + v`. */
  function SetValue(t: TextArea, v: Value): (r: TextArea)
    ensures r.changed
    ensures r.attrs == Attributes.Set(t.attrs, "value", Str(ToStr(v)), true)
    ensures "value" in r.attrs.values && r.attrs.values["value"] == Str(ToStr(v))
  {
    TextArea(Attributes.Set(t.attrs, "value", Str(ToStr(v)), true), true)
  }

  /** The `readOnly` getter: whether a truthy value is stored. */
  function ReadOnly(t: TextArea): (r: bool)
    ensures r <==> "readOnly" in t.attrs.values && !Falsy(t.attrs.values["readOnly"])
  {
    Attributes.NotDataName("readOnly", 0);
    !Falsy(Attributes.Get(t.attrs, "readOnly"))
  }

  /** Stores the truthiness of `v` as a boolean. */
  function SetReadOnly(t: TextArea, v: Value): (r: TextArea)
    ensures r.changed == t.changed
    ensures "readOnly" in r.attrs.values && r.attrs.values["readOnly"] == Bool(!Falsy(v))
  {
    t.(attrs := Attributes.Set(t.attrs, "readOnly", Bool(!Falsy(v)), true))
  }

  /** The `disabled` getter: whether a truthy value is stored. */
  function Disabled(t: TextArea): (r: bool)
    ensures r <==> "disabled" in t.attrs.values && !Falsy(t.attrs.values["disabled"])
  {
    Attributes.NotDataName("disabled", 1);
    !Falsy(Attributes.Get(t.attrs, "disabled"))
  }

  function SetDisabled(t: TextArea, v: Value): (r: TextArea)
    ensures r.changed == t.changed
    ensures "disabled" in r.attrs.values && r.attrs.values["disabled"] == Bool(!Falsy(v))
  {
    t.(attrs := Attributes.Set(t.attrs, "disabled", Bool(!Falsy(v)), true))
  }

  /** The `maxlength` getter: the stored value when truthy, null otherwise. */
  function MaxLength(t: TextArea): (r: Value)
    ensures r == Null <==> "maxlength" !in t.attrs.values || Falsy(t.attrs.values["maxlength"])
    ensures r != Null ==> r == t.attrs.values["maxlength"]
  {
    Attributes.NotDataName("maxlength", 0);
    Attributes.Get(t.attrs, "maxlength")
  }

  function SetMaxLength(t: TextArea, v: Value): (r: TextArea)
    ensures r.changed == t.changed
    ensures "maxlength" in r.attrs.values && r.attrs.values["maxlength"] == v
  {
    t.(attrs := Attributes.Set(t.attrs, "maxlength", v, true))
  }

  /** The `placeholder` getter: the stored placeholder when truthy, `""` otherwise. */
  function Placeholder(t: TextArea): (r: Value)
    ensures Falsy(r) ==> r == Str("")
    ensures !Falsy(Attributes.Get(t.attrs, "placeholder")) ==> r == Attributes.Get(t.attrs, "placeholder")
    ensures Falsy(Attributes.Get(t.attrs, "placeholder")) ==> r == Str("")
  {
    Or(Attributes.Get(t.attrs, "placeholder"), Str(""))
  }

  function SetPlaceholder(t: TextArea, v: Value): (r: TextArea)
    ensures r.changed == t.changed
    ensures "placeholder" in r.attrs.values && r.attrs.values["placeholder"] == Str(ToStr(v))
  {
    t.(attrs := Attributes.Set(t.attrs, "placeholder", Str(ToStr(v)), true))
  }

  function Focus(t: TextArea): (r: TextArea)
    ensures r.changed == t.changed
  {
    SetAttribute(t, "focus", Bool(true), true)
  }

  function Blur(t: TextArea): (r: TextArea)
    ensures r.changed == t.changed
  {
    SetAttribute(t, "focus", Bool(false), true)
  }

  // ---------------------------------------------------------------------
  // Properties
  // ---------------------------------------------------------------------

  /** Every focus spelling writes and reads the same `focus-state` entry. */
  lemma FocusAliases(t: TextArea, name: string, v: Value, immediate: bool)
    requires IsFocusAlias(name)
    ensures SetAttribute(t, name, v, immediate) == SetAttribute(t, "focus-state", v, immediate)
    ensures SetAttributeWithDelayUpdate(t, name, v) == SetAttributeWithDelayUpdate(t, "focus-state", v)
    ensures GetAttribute(t, name) == Attributes.Get(t.attrs, "focus-state")
    ensures "focus-state" in SetAttribute(t, name, v, immediate).attrs.values
  {
  }

  /** `focus()` is read back as true through any spelling; after `blur()` the
      stored `false` is falsy, so `getAttribute('focus')` reads null. */
  lemma FocusAndBlurAreObserved(t: TextArea)
    ensures GetAttribute(Focus(t), "focus") == Bool(true)
    ensures GetAttribute(Focus(t), "autoFocus") == Bool(true)
    ensures Blur(t).attrs.values["focus-state"] == Bool(false)
    ensures GetAttribute(Blur(t), "focus") == Null
  {
    Attributes.NotDataName("focus-state", 0);
    Attributes.SetThenGet(t.attrs, "focus-state", Bool(true), true);
    Attributes.SetThenGet(t.attrs, "focus-state", Bool(false), true);
  }

  /** Once the value has been written, by any path, `defaultValue` no longer
      affects what the `value` getter returns. */
  lemma {:induction false} DefaultValueIgnoredOnceChanged(t: TextArea, d: Value, immediate: bool)
    requires t.changed
    ensures Value(SetAttribute(t, "defaultValue", d, immediate)) == Value(t)
    ensures Value(SetAttributeWithDelayUpdate(t, "defaultValue", d)) == Value(t)
  {
    Attributes.NotDataName("value", 0);
    Attributes.SetFrame(t.attrs, "defaultValue", "value", d, immediate);
    Attributes.SetFrame(t.attrs, "defaultValue", "value", d, false);
  }

  /** Writing the value, through the property or either attribute path, sets
      the flag; and no operation clears it. */
  lemma ValueWritesMarkChanged(t: TextArea, name: string, v: Value, immediate: bool)
    ensures SetValue(t, v).changed
    ensures SetAttribute(t, "value", v, immediate).changed
    ensures SetAttributeWithDelayUpdate(t, "value", v).changed
    ensures t.changed ==> SetAttribute(t, name, v, immediate).changed
    ensures t.changed ==> SetAttributeWithDelayUpdate(t, name, v).changed
  {
  }

  /** The value property reads back what was assigned, as a string. */
  lemma ValueRoundTrip(t: TextArea, v: Value)
    ensures Value(SetValue(t, v)) == Str(ToStr(v))
  {
    Attributes.SetThenGet(t.attrs, "value", Str(ToStr(v)), true);
  }

  /** Before any write of the value, a truthy `defaultValue` is what the getter shows. */
  lemma DefaultValueShownUntilChanged(path: string, d: string)
    requires d != ""
    ensures Value(SetAttribute(Init(path), "defaultValue", Str(d), true)) == Str(d)
  {
    var t0 := Init(path);
    var t := SetAttribute(t0, "defaultValue", Str(d), true);
    Attributes.NotDataName("value", 0);
    Attributes.NotDataName("defaultValue", 2);
    assert t.attrs == Attributes.Set(t0.attrs, "defaultValue", Str(d), true);
    Attributes.SetThenGet(t0.attrs, "defaultValue", Str(d), true);
    assert Attributes.Get(t.attrs, "defaultValue") == Str(d);
    assert "value" !in t.attrs.values;
    assert Attributes.Get(t.attrs, "value") == Null;
  }

  /** `type` defaults to `textarea` and `placeholder` to the empty string. */
  lemma Defaults(path: string)
    ensures Type(Init(path)) == Str("textarea")
    ensures Placeholder(Init(path)) == Str("")
    ensures Value(Init(path)) == Str("")
    ensures !ReadOnly(Init(path)) && !Disabled(Init(path))
  {
  }

  /** Type and placeholder read back their string form, with the defaults for the empty string. */
  lemma TypeAndPlaceholderRoundTrip(t: TextArea, v: Value)
    ensures Type(SetType(t, v)) == if ToStr(v) == "" then Str("textarea") else Str(ToStr(v))
    ensures Placeholder(SetPlaceholder(t, v)) == Str(ToStr(v))
  {
  }

  /** `name` reads back the string form of what was assigned, null for the
      empty string; `maxlength` reads back the value itself, null when falsy. */
  lemma NameAndMaxLengthRoundTrip(t: TextArea, v: Value)
    ensures Name(SetName(t, v)) == if ToStr(v) == "" then Null else Str(ToStr(v))
    ensures MaxLength(SetMaxLength(t, v)) == Or(v, Null)
  {
    Attributes.NotDataName("maxlength", 0);
    Attributes.NotDataName("name", 0);
  }

  /** readOnly and disabled store and read back the truthiness of what was assigned. */
  lemma BooleanRoundTrip(t: TextArea, v: Value)
    ensures ReadOnly(SetReadOnly(t, v)) == !Falsy(v)
    ensures Disabled(SetDisabled(t, v)) == !Falsy(v)
  {
  }
}

=== FILE: tool.dfy ===
/** The string and id helpers of miniapp-render's `utils/tool.js`. */
module Tool {
  import opened Base
  import opened Js

  // ---------------------------------------------------------------------
  // toDash: `str.replace(/[A-Z]/g, c => '-' + c.toLowerCase())`
  // ---------------------------------------------------------------------

  function CountUpper(s: string): nat
  {
    if s == [] then 0 else (if IsUpper(s[0]) then 1 else 0) + CountUpper(s[1..])
  }

  predicate NoUpper(s: string)
  {
    forall i :: 0 <= i < |s| ==> !IsUpper(s[i])
  }

  /** The replacement for one character: an upper-case letter becomes a dash
      and its lower-case form, anything else is kept. */
  function DashChar(c: char): (r: string)
    ensures IsUpper(c) ==> r == ['-', LowerChar(c)]
    ensures !IsUpper(c) ==> r == [c]
  {
    if IsUpper(c) then ['-', LowerChar(c)] else [c]
  }

  function ToDash(s: string): (r: string)
    ensures NoUpper(r)
    ensures |r| == |s| + CountUpper(s)
    ensures NoUpper(s) ==> r == s
    ensures '-' in r ==> '-' in s || CountUpper(s) > 0
  {
    if s == [] then [] else DashChar(s[0]) + ToDash(s[1..])
  }

  /** Converting twice is converting once: the output has no upper-case letter left. */
  lemma ToDashIdempotent(s: string)
    ensures ToDash(ToDash(s)) == ToDash(s)
  {
  }

  // ---------------------------------------------------------------------
  // toCamel: `str.replace(/-([a-zA-Z])/g, (all, c) => c.toUpperCase())`
  // ---------------------------------------------------------------------

  /** Number of non-overlapping matches of `-[a-zA-Z]`, scanning left to right. */
  function CamelMatches(s: string): nat
  {
    if |s| >= 2 && s[0] == '-' && IsLetter(s[1]) then 1 + CamelMatches(s[2..])
    else if s == [] then 0
    else CamelMatches(s[1..])
  }

  function ToCamel(s: string): (r: string)
    ensures |r| == |s| - CamelMatches(s)
    ensures CamelMatches(s) <= |s| / 2
    ensures '-' !in s ==> r == s
  {
    if |s| >= 2 && s[0] == '-' && IsLetter(s[1]) then [UpperChar(s[1])] + ToCamel(s[2..])
    else if s == [] then []
    else [s[0]] + ToCamel(s[1..])
  }

  /** A dash not followed by a letter survives; the scan resumes right after it. */
  lemma ToCamelKeepsLoneDash(s: string)
    requires |s| >= 1 && s[0] == '-'
    requires |s| == 1 || !IsLetter(s[1])
    ensures ToCamel(s) == ['-'] + ToCamel(s[1..])
  {
  }

  /** Round trip one way: camel-casing undoes dash-casing on any string
      without a dash of its own. */
  lemma {:induction false} ToCamelToDash(s: string)
    requires '-' !in s
    ensures ToCamel(ToDash(s)) == s
  {
    if s != [] {
      ToCamelToDash(s[1..]);
      var rest := ToDash(s[1..]);
      if IsUpper(s[0]) {
        assert ToDash(s) == ['-', LowerChar(s[0])] + rest;
        assert (['-', LowerChar(s[0])] + rest)[2..] == rest;
        UpperOfLower(s[0]);
      } else {
        assert ToDash(s) == [s[0]] + rest;
        assert ([s[0]] + rest)[1..] == rest;
      }
    }
  }

  /** Kebab-case: no upper-case letter, and every dash is followed by a
      lower-case letter. */
  predicate IsKebab(s: string)
  {
    && NoUpper(s)
    && forall i :: 0 <= i < |s| && s[i] == '-' ==> i + 1 < |s| && IsLower(s[i + 1])
  }

  /** Round trip the other way: dash-casing undoes camel-casing on kebab-case strings. */
  lemma {:induction false} ToDashToCamel(s: string)
    requires IsKebab(s)
    ensures ToDash(ToCamel(s)) == s
  {
    if s == [] {
    } else if s[0] == '-' {
      assert IsLower(s[1]);
      var tail := s[2..];
      KebabSuffix(s, 2);
      ToDashToCamel(tail);
      var u := UpperChar(s[1]);
      assert ToCamel(s) == [u] + ToCamel(tail);
      ToDashCons(u, ToCamel(tail));
      LowerOfUpper(s[1]);
      assert s == ['-', s[1]] + tail;
    } else {
      var tail := s[1..];
      KebabSuffix(s, 1);
      ToDashToCamel(tail);
      assert ToCamel(s) == [s[0]] + ToCamel(tail);
      ToDashCons(s[0], ToCamel(tail));
      assert s == [s[0]] + tail;
    }
  }

  lemma KebabSuffix(s: string, k: nat)
    requires IsKebab(s) && k <= |s|
    requires k > 0 ==> s[k - 1] != '-'
    ensures IsKebab(s[k..])
  {
    var tail := s[k..];
    forall i | 0 <= i < |tail| && tail[i] == '-'
      ensures i + 1 < |tail| && IsLower(tail[i + 1])
    {
      assert s[i + k] == '-';
    }
  }

  lemma ToDashCons(c: char, t: string)
    ensures ToDash([c] + t) == DashChar(c) + ToDash(t)
  {
    assert ([c] + t)[1..] == t;
  }

  // ---------------------------------------------------------------------
  // getId: `return seed++`, with the module-level seed threaded explicitly
  // ---------------------------------------------------------------------

  datatype IdSeed = IdSeed(next: nat)

  /** Returns the current seed and the incremented seed. */
  function GetId(g: IdSeed): (r: (nat, IdSeed))
    ensures r.0 == g.next && r.1.next == r.0 + 1
  {
    (g.next, IdSeed(g.next + 1))
  }

  /** `k` consecutive calls of `getId`. */
  function TakeIds(g: IdSeed, k: nat): (r: (seq<nat>, IdSeed))
    decreases k
    ensures |r.0| == k && r.1.next == g.next + k
    ensures forall i :: 0 <= i < k ==> r.0[i] == g.next + i
  {
    if k == 0 then ([], g)
    else
      var (id, g1) := GetId(g);
      var (rest, g2) := TakeIds(g1, k - 1);
      ([id] + rest, g2)
  }

  /** Ids handed out by consecutive calls are pairwise distinct and increasing. */
  lemma IdsStrictlyIncrease(g: IdSeed, k: nat, i: nat, j: nat)
    requires i < j < k
    ensures TakeIds(g, k).0[i] < TakeIds(g, k).0[j]
  {
  }

  // ---------------------------------------------------------------------
  // hasExtraAttribute
  // ---------------------------------------------------------------------

  /** `/class|style|id/.test(key)`: unanchored, so `width` and `hidden` match. */
  predicate Reserved(key: string)
  {
    Contains(key, "class") || Contains(key, "style") || Contains(key, "id")
  }

  /** `keys.find(k => !Reserved(k))`: the first key that is not reserved. */
  function FindExtra(keys: seq<string>): (r: Option<string>)
    ensures r.None? <==> forall i :: 0 <= i < |keys| ==> Reserved(keys[i])
    ensures r.Some? ==> exists i :: (0 <= i < |keys| && keys[i] == r.value && !Reserved(keys[i])
      && forall j :: 0 <= j < i ==> Reserved(keys[j]))
  {
    if keys == [] then None
    else if !Reserved(keys[0]) then Some(keys[0])
    else
      var r := FindExtra(keys[1..]);
      assert r.Some? ==> exists i :: (0 <= i < |keys| && keys[i] == r.value && !Reserved(keys[i])
        && forall j :: 0 <= j < i ==> Reserved(keys[j]))
      by {
        if r.Some? {
          var i :| 0 <= i < |keys[1..]| && keys[1..][i] == r.value && !Reserved(keys[1..][i])
            && forall j :: 0 <= j < i ==> Reserved(keys[1..][j]);
          assert forall j :: 0 <= j < i + 1 ==> Reserved(keys[j]) by {
            forall j | 0 <= j < i + 1 ensures Reserved(keys[j]) {
              if j > 0 { assert keys[j] == keys[1..][j - 1]; }
            }
          }
        }
      }
      r
  }

  /** `!!keys.find(...)` as written: the found key is coerced to a boolean,
      so an empty-string key that is found first reads as "no extra key". */
  function HasExtraAttributeAsWritten(keys: seq<string>): (r: bool)
    ensures r ==> exists i :: 0 <= i < |keys| && !Reserved(keys[i])
    ensures r <==> FindExtra(keys).Some? && FindExtra(keys).value != ""
  {
    match FindExtra(keys)
    case None => false
    case Some(k) => !Falsy(Str(k))
  }

  /** The evidently intended check: some key is not reserved. */
  function HasExtraAttribute(keys: seq<string>): (r: bool)
    ensures r <==> exists i :: 0 <= i < |keys| && !Reserved(keys[i])
    ensures keys == [] ==> !r
  {
    FindExtra(keys).Some?
  }

  /** The two agree unless the first unreserved key is the empty string. */
  lemma HasExtraAttributeAgrees(keys: seq<string>)
    requires "" !in keys
    ensures HasExtraAttributeAsWritten(keys) == HasExtraAttribute(keys)
  {
    if FindExtra(keys).Some? {
      var i :| 0 <= i < |keys| && keys[i] == FindExtra(keys).value;
    }
  }

  /** An empty-string key found first hides a genuinely extra key. */
  lemma EmptyKeyHidesExtraAttribute()
    ensures !HasExtraAttributeAsWritten(["", "foo"])
    ensures HasExtraAttribute(["", "foo"])
  {
    assert !Reserved("");
    assert FindExtra(["", "foo"]) == Some("");
  }

  /** The match is unanchored: `width` contains `id`, so it is not extra. */
  lemma WidthIsNotExtra()
    ensures !HasExtraAttribute(["width"])
    ensures HasExtraAttribute(["width", "src"])
  {
    assert OccursAt("width", "id", 1);
    assert Reserved("width");
    assert !Contains("src", "id") by {
      assert "src"[0..2][0] != "id"[0];
      assert "src"[1..3][0] != "id"[0];
    }
    assert !Reserved("src");
  }

  // ---------------------------------------------------------------------
  // isUndef
  // ---------------------------------------------------------------------

  /** `variable === undefined`: strict, so the other falsy values are not undefined. */
  function IsUndef(v: Value): (r: bool)
    ensures r ==> Falsy(v)
    ensures r <==> v.Undefined?
  {
    v == Undefined
  }

  lemma FalsyIsNotUndefined()
    ensures !IsUndef(Null) && !IsUndef(Str("")) && !IsUndef(Num(0)) && !IsUndef(Bool(false))
  {
  }
}
